=== FILE: README.md ===
# Home Assistant core helpers, modelled in Dafny

This project models a slice of Home Assistant, a home-automation hub written
in Python, and proves properties of the model. The slice covers:

- **`homeassistant/util.py`**:
  - the text sanitisers: `sanitize_filename`, `sanitize_path` and `slugify`;
  - `split_entity_id`, `convert` and `ensure_unique_string`;
  - the linked-list `OrderedSet`;
  - the `Throttle` decorator;
  - the priority `ThreadPool`, with its queue items and the worker loop.
- **`homeassistant/helpers.py`**: `extract_entity_ids`, `validate_config`
  and the `config_per_platform` generator. From `platform_devices_from_config`
  it models the entity-id naming loop; it also models `Device.update_ha_state`
  and `get_state`.
- **`homeassistant/helpers/service.py`**: `call_from_config`.
- **`homeassistant/components/scheduler/time.py`**: `create` and the
  next-run search of `TimeEventListener.schedule`.
- **`homeassistant/components/automation/zone.py`**: the `trigger` and
  `if_action` rules, with the listener and the condition they install.
- **`homeassistant/components/homekit_controller/cover.py`**: the garage-door
  and window covers. This covers their state maps, their motion flags, their
  characteristic writes and the window's feature bits.
- **`homeassistant/components/sensor/android_ip_webcam.py`**: platform setup,
  sensor naming, `async_update` and the `icon` choice.
- **`app/DeviceTracker.py`**: the scan cycle of the early device tracker,
  with its 70-second grace period.

Layout: one module per source file. Three shared modules sit beside them:

- `Values` holds Python's dynamic values and exceptions, with truthiness,
  `dict.get` and indexing.
- `Seqs` holds duplicate-freedom, `list.remove`, first-occurrence
  de-duplication and reversal.
- `Strings` holds `str(n)`, `int(text)`, `split`, `join` and `strip`.

Each source file is modelled in the form it takes:

- Code that mutates objects becomes a class with `modifies` clauses, proved
  against a specification function. This applies to `OrderedSet`,
  `ThreadPool`, the throttled method, the tracker, a device, the window
  cover's features and the webcam sensor.
- Loops become methods with invariants.
- Pure computations become functions with lemmas.

Exceptions become `Err` values of a `Result`. A function that returns
nothing, or False, becomes `None` of an `Option`.

## Model

| member | source | states |
|---|---|---|
| Util.ReplaceSpaces | homeassistant/util.py:36-37 | every space becomes `_`; every other character is kept, at the same position |
| Util.RemoveNonSlug | homeassistant/util.py:19 | the result is no longer than the input and holds only `[A-Za-z0-9_]` |
| Util.Slugify | homeassistant/util.py:34-38 | the slug is no longer than the text and holds only slug characters |
| Util.RemoveNonSlugConcat | homeassistant/util.py:19 | the deletion works run by run, so it distributes over concatenation |
| Util.RemoveNonSlugOfSlug | homeassistant/util.py:19 | a text of slug characters passes through unchanged |
| Util.SlugifyConcat | homeassistant/util.py:34-38 | slugify distributes over concatenation |
| Util.SlugifyChar | homeassistant/util.py:34-38 | one character's fate: a space becomes `_`, a slug character stays, anything else is dropped |
| Util.SlugifySpace | homeassistant/util.py:34-38 | a space between two texts becomes `_` between their slugs |
| Util.SlugifyFixedPoints | homeassistant/util.py:34-38 | a text is its own slug if and only if it consists of slug characters |
| Util.SlugifyIdempotent | homeassistant/util.py:34-38 | slugifying twice equals slugifying once |
| Util.SanitizeFilename | homeassistant/util.py:17-26 | the result is no longer than the input and contains no `~`, `/` or `\` |
| Util.SanitizeFilenameLeavesDotDot | homeassistant/util.py:24-26 | the single pass turns `.~.` into `..` (see Findings) |
| Util.SanitizeFilenameStable | homeassistant/util.py:24-26 | a pass that deletes nothing returns its input, and that input has no `..` |
| Util.SanitizeFilenameFully | homeassistant/util.py:24-26 | repeating the pass until nothing changes leaves no `..` and no forbidden character |
| Util.SanitizeFilenameFullyKeepsClean | homeassistant/util.py:24-26 | the repeated sanitiser returns a name that is already clean unchanged |
| Util.SanitizeFilenameOfClean | homeassistant/util.py:24-26 | one pass returns a name that is already clean unchanged |
| Util.DropLeadingDots | homeassistant/util.py:18 | removes exactly the leading run of dots |
| Util.SanitizePath | homeassistant/util.py:18-31 | the result is no longer than the input and contains no `~` |
| Util.SanitizePathLeavesDotDot | homeassistant/util.py:29-31 | the single pass turns `.~.` into `..` (see Findings) |
| Util.SanitizePathStable | homeassistant/util.py:29-31 | a pass that deletes nothing returns its input, and that input has no `..` |
| Util.SanitizePathFully | homeassistant/util.py:29-31 | repeating the pass until nothing changes leaves no `..` and no `~` |
| Util.SplitEntityId | homeassistant/util.py:68-70 | one piece if and only if there is no dot; two pieces around the first dot otherwise; the first piece has no dot |
| Util.SplitEntityIdJoin | homeassistant/util.py:68-70 | `domain.object` splits back into the domain and the object when the domain has no dot |
| Util.Convert | homeassistant/util.py:125-131 | a missing value gives the default; a successful conversion gives its result; ValueError from the conversion gives the default; any other exception propagates unchanged |
| Util.ConvertNoValueError | homeassistant/util.py:125-131 | `convert` never lets a ValueError out, and passes on every other outcome of the conversion unchanged |
| Util.EnsureUniqueString | homeassistant/util.py:134-146 | returns the first name of `preferred`, `preferred_2`, ... that is not taken; this is `preferred` itself when it is free |
| OrderedSets.OrderedSet.constructor | homeassistant/util.py:194-199 | starts empty, then adds the iterable's items in turn, each at its first occurrence |
| OrderedSets.OrderedSet.Len | homeassistant/util.py:201-202 | the number of keys |
| OrderedSets.OrderedSet.Contains | homeassistant/util.py:204-205 | true if and only if the key is present |
| OrderedSets.OrderedSet.Add | homeassistant/util.py:207-212 | a new key goes to the end; an existing key changes nothing |
| OrderedSets.OrderedSet.Discard | homeassistant/util.py:214-219 | a present key is removed in place and the order of the rest is kept; an absent key changes nothing |
| OrderedSets.OrderedSet.Reversed | homeassistant/util.py:228-233 | yields the keys in reverse order |
| OrderedSets.OrderedSet.Pop | homeassistant/util.py:235-242 | KeyError when empty; otherwise removes and returns the newest key (`last`) or the oldest |
| OrderedSets.OrderedSet.Update | homeassistant/util.py:244-247 | the keys become the old keys followed by every argument's items, each kept at its first occurrence |
| OrderedSets.OrderedSet.Equals | homeassistant/util.py:254-256 | equal to another ordered set if and only if both have the same keys in the same order |
| OrderedSets.OrderedSet.EqualsIterable | homeassistant/util.py:254-257 | equal to any other iterable if and only if both hold the same set of keys |
| Seqs.Remove | app/DeviceTracker.py:65 | `list.remove`: the first occurrence of `x` is cut out and the rest keep their order; one element fewer, and exactly one occurrence of `x` is gone from the multiset |
| Seqs.RemoveNoDup | app/DeviceTracker.py:65 | in a duplicate-free list, removing `x` leaves exactly the other elements, still without duplicates |
| Seqs.DedupSpec | homeassistant/helpers.py:31-34 | de-duplication keeps exactly the input's elements, once each |
| Seqs.DedupOrder | homeassistant/helpers.py:31-34 | de-duplication keeps the elements in the order of their first occurrences |
| Seqs.DedupSnoc | homeassistant/util.py:207-212 | adding an element at the end of a list appends it unless it is already there |
| Seqs.DedupIdempotent | homeassistant/util.py:244-247 | de-duplicating twice equals de-duplicating once |
| Seqs.DedupPrefix | homeassistant/util.py:244-247 | extending the input never reorders what the de-duplicated output already holds |
| Seqs.ConcatMembers | homeassistant/util.py:244-247 | the chained arguments hold exactly the items of the arguments |
| Seqs.Reverse | homeassistant/util.py:228-233 | position `i` of the reversal holds position `n-1-i` of the input |
| Seqs.NoDupCard | homeassistant/util.py:254-257 | a duplicate-free list has as many distinct elements as positions |
| Throttling.Gate | homeassistant/util.py:293-296 | with no earlier call the call is forced and `no_throttle` travels on; otherwise the keyword is consumed and the call passes if and only if it is true or more than the interval has passed |
| Throttling.Apply | homeassistant/util.py:285-304 | a call the outer gate refuses changes nothing; a call that runs stamps `last_call` with its finish time; a call whose method raises leaves both layers' `last_call` as they were; without a limit the inner layer is untouched; with a limit, a call that runs stamps both layers, and a call the inner gate refuses stamps only the outer layer and runs nothing |
| Throttling.FirstCallRuns | homeassistant/util.py:294-302 | the first call always calls the method and passes `no_throttle` on unchanged; if the method raises, no layer is stamped and the next call is forced again |
| Throttling.LaterCall | homeassistant/util.py:296-304 | a later call reaches the method if and only if `no_throttle` is true or more than `min_time` has passed; the keyword is consumed |
| Throttling.ForcedCallStillLimited | homeassistant/util.py:285-304 | `no_throttle` cannot force a call through the inner `limit_no_throttle` layer within that layer's interval |
| Throttling.RunsSpaced | homeassistant/util.py:296-304 | without `no_throttle`, each successful run starts more than `min_time` after the previous one finished, whatever raised in between |
| Throttling.Throttled.constructor | homeassistant/util.py:278-306 | decorating records the intervals and clears `last_call` in both layers |
| Throttling.Throttled.Invoke | homeassistant/util.py:289-304 | one call's outcome and new state are those of `Apply` |
| ThreadPools.WorkersWithinLimit | homeassistant/util.py:339-386 | the worker count never exceeds the busy limit, however often the limit has doubled |
| ThreadPools.MinIndex | homeassistant/util.py:409 | finds a queued item that no other queued item is less than |
| ThreadPools.RemoveAt | homeassistant/util.py:409 | taking out one position removes exactly that item |
| ThreadPools.ThreadPool.constructor | homeassistant/util.py:328-350 | the pool runs with an empty queue and a busy limit of `worker_count²` |
| ThreadPools.ThreadPool.AddJob | homeassistant/util.py:352-367 | RuntimeError when stopped; otherwise the job is queued; past the limit, with a callback, the limit doubles and the callback gets the queue size |
| ThreadPools.ThreadPool.Get | homeassistant/util.py:409 | removes and returns an item of least priority, and only that item |
| ThreadPools.ServedStep | homeassistant/util.py:407-426 | taking a least item of the queue keeps what was taken in priority order, no higher than what is left, and nothing lost |
| ThreadPools.ThreadPool.Work | homeassistant/util.py:405-426 | one worker alone takes items in non-decreasing priority, never above what is left, losing none; it stops after the quit task, which is the only quit task it takes, or when the queue is empty |
| ThreadPools.ThreadPool.Drain | homeassistant/util.py:379-382 | empties the queue and changes nothing else |
| ThreadPools.ThreadPool.Stop | homeassistant/util.py:373-388 | a no-op when already stopped; otherwise the queue becomes exactly one quit task per worker, the pool stops, and the busy callback never fires |
| DeviceTracker.FoundPass | app/DeviceTracker.py:62-67 | the first loop keeps the state well formed and the devices the same; what stays pending was pending |
| DeviceTracker.AbsentPass | app/DeviceTracker.py:73-77 | the second loop keeps the state well formed and changes no device record |
| DeviceTracker.BeforeAggregate | app/DeviceTracker.py:60-77 | both loops keep the state well formed and the devices the same |
| DeviceTracker.Cycle | app/DeviceTracker.py:58-85 | one whole cycle keeps the state well formed and the devices the same |
| DeviceTracker.FoundPassPending | app/DeviceTracker.py:60-67 | after the first loop, `pending` holds the tracked devices the scan did not report, each once |
| DeviceTracker.FoundPassDevice | app/DeviceTracker.py:51-67 | a reported tracked device is set home with `last_seen = now`; any other device and its state are untouched |
| DeviceTracker.FoundPassUntracked | app/DeviceTracker.py:62-67 | a category that no device uses is untouched by the first loop |
| DeviceTracker.AbsentPassEffect | app/DeviceTracker.py:73-77 | a pending device goes not home exactly under the hysteresis rule; nothing else changes |
| DeviceTracker.AbsentPassUntracked | app/DeviceTracker.py:73-77 | the loop over devices not found leaves the state of a category that no device uses unchanged |
| DeviceTracker.NotHomeStep | app/DeviceTracker.py:51-77 | marking one device not home touches only its own category |
| DeviceTracker.CycleDevice | app/DeviceTracker.py:58-77 | found devices are home with `last_seen = now`; a missing device turns not home only if it was home and unseen for more than 70 s |
| DeviceTracker.CycleAggregate | app/DeviceTracker.py:81-85 | the aggregate is home if and only if some tracked device is home after the cycle |
| DeviceTracker.CycleNoDevices | app/DeviceTracker.py:81-85 | with nothing tracked, the aggregate is not home |
| DeviceTracker.CycleUntracked | app/DeviceTracker.py:58-85 | untracked categories are left alone, and reported ids that are not tracked change nothing |
| DeviceTracker.StaysHomeWithinGrace | app/DeviceTracker.py:73-77 | a home device missing within the 70 s grace period stays home |
| DeviceTracker.NotHomeUntilFound | app/DeviceTracker.py:62-77 | a device that is not home becomes home only by being found |
| DeviceTracker.SingleDeviceCycle | app/DeviceTracker.py:81-85 | with one tracked device, the aggregate follows that device |
| DeviceTracker.Tracker.constructor | app/DeviceTracker.py:21-41 | tracks the scanner's devices, with `last_seen` = 1990-01-01 and every category and the aggregate not home; other categories are kept |
| DeviceTracker.Tracker.DeviceStateCategories | app/DeviceTracker.py:46-48 | yields each device's category in key order |
| DeviceTracker.Tracker.SetState | app/DeviceTracker.py:51-55 | the new state is `SetStateOn` of the old one |
| DeviceTracker.Tracker.UpdateDevices | app/DeviceTracker.py:58-85 | the new state is `Cycle` of the old one, and `all_devices_state` is the stored aggregate |
| DeviceTracker.Tracker.MarkFound | app/DeviceTracker.py:60-67 | the new state and the pending list are those of `FoundPass` |
| DeviceTracker.Tracker.MarkOneFound | app/DeviceTracker.py:64-67 | a pending device is removed from `pending` and set home; anything else changes nothing |
| DeviceTracker.Tracker.MarkAbsent | app/DeviceTracker.py:73-77 | the new state is that of `AbsentPass` |
| DeviceTracker.Tracker.RefreshAggregate | app/DeviceTracker.py:81-85 | writes exactly the aggregate state, in the store and in `all_devices_state` |
| DeviceTracker.KeyOrder | app/DeviceTracker.py:40 | the dict's keys in some order, each exactly once |
| DeviceTracker.AddCategories | app/DeviceTracker.py:40-41 | every device's category starts not home; other categories keep their state |
| DeviceTracker.GraceScenario | app/DeviceTracker.py:58-85 | scans at 0 s (seen), 30 s and 75 s (missing) give the aggregate home, home, not home |
| Helpers.AsList | homeassistant/helpers.py:24-29 | a list is kept as it is; any other value becomes a one-element list |
| Helpers.ExtractEntityIds | homeassistant/helpers.py:14-36 | no ids without `entity_id`; otherwise the expanded ids, each at its first occurrence, without duplicates |
| Helpers.Contains | homeassistant/helpers.py:72 | `item in container`: a key of a dict, an element of a list, a substring of a string (occurring at some position); TypeError if and only if the value is no container |
| Helpers.WithDefaults | homeassistant/helpers.py:69-70 | after `setdefault`, every listed domain has a section and existing sections are kept |
| Helpers.MissingItems | homeassistant/helpers.py:72 | succeeds if and only if every required item can be looked up; empty if and only if all are present |
| Helpers.ValidateConfig | homeassistant/helpers.py:58-81 | True if and only if every required item of every domain is present; missing domains get `{}`; TypeError if and only if some section cannot be searched |
| Helpers.Unsatisfied | homeassistant/helpers.py:68-79 | the visited domains that lack a required item |
| Helpers.UnsatisfiedAdd | homeassistant/helpers.py:72-79 | visiting a domain flags an error exactly when that domain lacks an item |
| Helpers.DomainVerdict | homeassistant/helpers.py:72-79 | one domain's lookup fails, reports missing items or reports none exactly as the domain predicates say |
| Helpers.ValidateAgain | homeassistant/helpers.py:58-81 | validating the completed configuration again adds nothing and gives the same verdicts |
| Helpers.PlatformType | homeassistant/helpers.py:95-99 | the `platform` entry, or `type` when `platform` is absent |
| Helpers.ConfigPerPlatform | homeassistant/helpers.py:84-113 | yields the sections `domain`, `domain 2`, ... in order; it stops at the first absent key or at a section naming no platform; AttributeError if and only if the stopping section is not a map |
| Helpers.UnnamedBefore | homeassistant/helpers.py:160-162 | the count of unnamed devices before a position never exceeds that position |
| Helpers.UnnamedNumbering | homeassistant/helpers.py:160-162 | unnamed devices are numbered 1, 2, ... in list order, so no two share a number |
| Helpers.Format | homeassistant/helpers.py:165 | the format's text before the placeholder, the name, then the text after it |
| Helpers.FormatInjective | homeassistant/helpers.py:164-166 | different names give different preferred ids |
| Helpers.NameDevices | homeassistant/helpers.py:153-171 | each device gets the first free id of the series its slugified name starts; the ids are distinct and each device is filed under its own id |
| Helpers.FilingStep | homeassistant/helpers.py:168-169 | filing one more device keeps every device filed under its own id |
| Helpers.NamingStep | homeassistant/helpers.py:164-169 | one more first-free id keeps the ids distinct |
| Helpers.GetState | homeassistant/helpers.py:184-218 | a plain device reports `Unknown`; a toggle device reports `on` if and only if it is on |
| Helpers.Device.constructor | homeassistant/helpers.py:174-178 | a new device has no entity id |
| Helpers.Device.UpdateHaState | homeassistant/helpers.py:196-209 | NoEntitySpecifiedError, and no change, without an entity id; otherwise a forced refresh takes the device's reported state and attributes, and the state and attributes are written under the entity id |
| Service.SplitEntityIds | homeassistant/helpers/service.py:57-59 | one id per comma-separated piece, each stripped |
| Service.ServiceData | homeassistant/helpers/service.py:46-61 | the `data` map or `{}`, with `entity_id` set: as a split list for a string, as given otherwise, and untouched when absent |
| Service.CallFromConfig | homeassistant/helpers/service.py:34-63 | no call without a map holding `service`, or for a service without a dot; AttributeError for a non-string service; otherwise one call to the two halves of the service |
| Service.EntityIdsRoundTrip | homeassistant/helpers/service.py:57-59 | ids joined with commas are read back unchanged |
| Service.SplitStrippedIds | homeassistant/helpers/service.py:57-59 | text that splits into stripped pieces reads back as exactly those pieces |
| Service.StripOfStripped | homeassistant/helpers/service.py:58 | an id without edge whitespace survives `strip` |
| Service.ServiceDataRoundTrip | homeassistant/helpers/service.py:46-61 | a configuration written from a call gives back that call's data, with the ids as a list |
| Service.CallRoundTrip | homeassistant/helpers/service.py:34-63 | a configuration written from a call is read back as exactly that call |
| Strings.NatToString | homeassistant/util.py:140-144 | `str(n)` is one or more decimal digits |
| Strings.DigitsValueOfNatToString | homeassistant/components/scheduler/time.py:28-29 | reading back `str(n)` gives `n` |
| Strings.NatToStringInjective | homeassistant/components/sensor/android_ip_webcam.py:96 | different numbers have different decimal forms |
| Strings.NumberedInjective | homeassistant/util.py:140-144 | different positions of a `name_2, name_3, ...` series give different names |
| Strings.NumberedGrows | homeassistant/util.py:140-144 | each position of a series adds a new name |
| Strings.NumberedStep | homeassistant/util.py:142-144 | walking a series through taken names shrinks the untried part of a finite set, so the search ends |
| Strings.IsSubstring | homeassistant/helpers.py:72 | `sub in s` is true if and only if `sub` occurs at some position |
| Strings.OccursInTail | homeassistant/helpers.py:72 | an occurrence away from position 0 is an occurrence in the tail |
| Strings.LStrip | homeassistant/helpers/service.py:58 | removes exactly the leading whitespace |
| Strings.RStrip | homeassistant/helpers/service.py:58 | removes exactly the trailing whitespace |
| Strings.Strip | homeassistant/helpers/service.py:58 | a slice with only whitespace removed at each end, and no whitespace left at either end |
| Strings.StripIdempotent | homeassistant/helpers/service.py:58 | stripping twice equals stripping once |
| Strings.StripUnchanged | homeassistant/helpers/service.py:58 | a string without edge whitespace is its own strip |
| Strings.ParseInt | homeassistant/components/scheduler/time.py:28-29 | `int(text)`: succeeds if and only if the stripped text is an optional sign followed by one or more digits; the value is the digits' value, negated after `-` |
| Strings.ParseDigits | homeassistant/components/scheduler/time.py:28-29 | succeeds if and only if the text is one or more digits |
| Strings.ParseIntOfNatToString | homeassistant/components/scheduler/time.py:28-29 | `int(str(n)) == n` |
| Strings.ParseIntOfNegative | homeassistant/components/scheduler/time.py:28-29 | `int("-" + str(n)) == -n` |
| Strings.ParseStrippedNegative | homeassistant/components/scheduler/time.py:28-29 | a minus sign before digits gives the negated value of the digits |
| Strings.Split | homeassistant/components/scheduler/time.py:28-29 | at least one piece, and no piece holds the separator |
| Strings.Join | homeassistant/helpers/service.py:57-59 | `sep.join(parts)`: empty for no parts; otherwise as long as the parts plus one separator between each, beginning with the first part and a separator after it |
| Strings.JoinSplit | homeassistant/helpers/service.py:58-59 | joining the pieces of a split gives back the text |
| Strings.SplitJoin | homeassistant/helpers/service.py:58-59 | splitting a join of separator-free pieces gives back the pieces |
| Strings.SplitFree | homeassistant/components/scheduler/time.py:28-29 | a separator-free prefix is the first piece |
| Values.Truthy | homeassistant/components/sensor/android_ip_webcam.py:82 | `bool(v)` is false exactly for None, False, 0, the empty string, the empty list and the empty dict |
| Values.GetOr | homeassistant/components/automation/zone.py:33 | `d.get(key, default)`: the entry when the key is present, the default otherwise |
| Values.Get | homeassistant/helpers/service.py:56 | `d.get(key)`: the entry when the key is present, None otherwise, and a non-None result comes from an entry |
| Values.Index | homeassistant/components/sensor/android_ip_webcam.py:83 | Python indexing of lists and strings (a string gives its one-character string): negative indices count from the end; IndexError out of range; KeyError for a dict, whose keys are strings; TypeError for a value that is not indexable |
| SchedulerTime.Weekday | homeassistant/components/scheduler/time.py:55 | `weekday()` lies in 0..6 |
| SchedulerTime.Create | homeassistant/components/scheduler/time.py:24-31 | It gives KeyError when `service` or `time` is missing, AttributeError when `time` is not a string, ValueError when `time` does not split at `:` into exactly three pieces that `ParseInt` reads, and otherwise a listener for the service with those three numbers. |
| SchedulerTime.NoColonInNumber | homeassistant/components/scheduler/time.py:28-29 | a decimal form holds no `:` |
| SchedulerTime.SplitTimeText | homeassistant/components/scheduler/time.py:28-29 | `H:M:S` splits into its three numbers |
| SchedulerTime.CreateTimeText | homeassistant/components/scheduler/time.py:24-31 | `create` reads back the hour, minute and second of an `H:M:S` text |
| SchedulerTime.TimeOfDayInDay | homeassistant/components/scheduler/time.py:47-50 | a valid time of day lies within one day |
| SchedulerTime.FitsWithinWeek | homeassistant/components/scheduler/time.py:54-57 | when some weekday is scheduled, a matching day lies at most seven days ahead |
| SchedulerTime.ScheduleNext | homeassistant/components/scheduler/time.py:44-64 | ValueError if and only if the time is invalid; otherwise the earliest day at the configured time that is not before now and falls on a scheduled weekday |
| ZoneAutomation.Trigger | homeassistant/components/automation/zone.py:22-65 | no listener if and only if `entity_id` or `zone` is missing; otherwise one listener whose event defaults to `enter` |
| ZoneAutomation.Fires | homeassistant/components/automation/zone.py:35-60 | fires only with both positions known and a known event; from no prior state, fires if and only if it is `enter` and the new position is in the zone |
| ZoneAutomation.EnterOnlyOnArrival | homeassistant/components/automation/zone.py:35-60 | from a prior state, `enter` fires if and only if both positions are known, the old one outside the zone and the new one inside |
| ZoneAutomation.LeaveOnlyOnDeparture | homeassistant/components/automation/zone.py:35-60 | from a prior state, `leave` fires if and only if both positions are known, the old one inside the zone and the new one outside |
| ZoneAutomation.EnterLeaveMirror | homeassistant/components/automation/zone.py:55-60 | a move enters the zone if and only if the reverse move leaves it |
| ZoneAutomation.NoCrossingNoFire | homeassistant/components/automation/zone.py:55-60 | a move that stays inside, or stays outside, fires neither event |
| ZoneAutomation.IfAction | homeassistant/components/automation/zone.py:68-92 | no condition if and only if `entity_id` or `zone` is missing |
| ZoneAutomation.IfInZone | homeassistant/components/automation/zone.py:79-90 | AttributeError without a state; None without coordinates; truthy if and only if the position is in the configured zone |
| ZoneAutomation.ConditionAgreesWithEnter | homeassistant/components/automation/zone.py:55-90 | the condition holds after a move exactly when `enter` fires for a move from outside |
| HomekitCover.AddService | homeassistant/components/homekit_controller/cover.py:46-56 | a garage door for `garage-door-opener`, a window for `window-covering` or `window`, nothing otherwise; KeyError without `iid` or `stype` |
| HomekitCover.CurrentGarageState | homeassistant/components/homekit_controller/cover.py:27-86 | codes 0..4 decode; any other code raises KeyError |
| HomekitCover.TargetGarageState | homeassistant/components/homekit_controller/cover.py:35 | open, closed and stopped encode; any other state raises KeyError |
| HomekitCover.GarageStatesDistinct | homeassistant/components/homekit_controller/cover.py:27-33 | the five codes decode to five different states |
| HomekitCover.GarageTargetMatchesCurrent | homeassistant/components/homekit_controller/cover.py:27-35 | open and closed command the codes that read back as open and closed |
| HomekitCover.GarageState | homeassistant/components/homekit_controller/cover.py:83-86 | decodes if and only if the current door state is read and is a code 0..4, into one of the five door states; KeyError otherwise |
| HomekitCover.GarageMotion | homeassistant/components/homekit_controller/cover.py:88-101 | closed, closing and opening follow the decoded state; closed excludes the other two |
| HomekitCover.SetDoorState | homeassistant/components/homekit_controller/cover.py:111-120 | one write of the target code to `door-state.target` |
| HomekitCover.GarageOpenClose | homeassistant/components/homekit_controller/cover.py:103-109 | open writes 0 and close writes 1 |
| HomekitCover.ObstructionAttributes | homeassistant/components/homekit_controller/cover.py:122-133 | `obstruction-detected` is present, with the reading, if and only if the reading is truthy |
| HomekitCover.WindowCover.constructor | homeassistant/components/homekit_controller/cover.py:139-143 | starts with open, close and set-position |
| HomekitCover.WindowCover.SetupPositionHold | homeassistant/components/homekit_controller/cover.py:159-160 | adds the stop feature |
| HomekitCover.WindowCover.SetupVerticalTiltCurrent | homeassistant/components/homekit_controller/cover.py:162-165 | adds the tilt features |
| HomekitCover.WindowCover.SetupHorizontalTiltCurrent | homeassistant/components/homekit_controller/cover.py:167-170 | adds the tilt features |
| HomekitCover.WindowCover.SupportedFeatures | homeassistant/components/homekit_controller/cover.py:172-175 | always includes the base features and never stop-tilt |
| HomekitCover.WindowIsClosed | homeassistant/components/homekit_controller/cover.py:182-185 | closed if and only if the current position equals 0 |
| HomekitCover.CurrentWindowState | homeassistant/components/homekit_controller/cover.py:37 | codes 0..2 decode; any other code raises KeyError |
| HomekitCover.WindowMotion | homeassistant/components/homekit_controller/cover.py:187-199 | closing if and only if code 0; opening if and only if code 1; never both |
| HomekitCover.TiltPosition | homeassistant/components/homekit_controller/cover.py:201-209 | the vertical tilt, or the horizontal one when the vertical tilt is falsy |
| HomekitCover.SetCoverPosition | homeassistant/components/homekit_controller/cover.py:226-232 | one write of the position to `position.target` |
| HomekitCover.WindowOpenClose | homeassistant/components/homekit_controller/cover.py:218-224 | open writes 100 and close writes 0 |
| HomekitCover.ClosedAfterClose | homeassistant/components/homekit_controller/cover.py:182-224 | once the current position reaches the close target, the window reads as closed |
| HomekitCover.StopCover | homeassistant/components/homekit_controller/cover.py:211-216 | one write of 1 to `position.hold` |
| HomekitCover.SetCoverTilt | homeassistant/components/homekit_controller/cover.py:234-254 | writes to the vertical tilt target if present, else the horizontal one, else nothing |
| IpWebcamSensor.SensorName | homeassistant/components/sensor/android_ip_webcam.py:44-45 | the camera name, a space, then the mapped key (the `KEY_MAP` entry, else the key itself) |
| IpWebcamSensor.SensorNameInjective | homeassistant/components/sensor/android_ip_webcam.py:44-45 | two sensors of a camera share a name if and only if their mapped keys agree |
| IpWebcamSensor.DataPointState | homeassistant/components/sensor/android_ip_webcam.py:81-83 | nothing for an empty data point or first entry; a value only from a truthy data point |
| IpWebcamSensor.DataPointStateOfSeries | homeassistant/components/sensor/android_ip_webcam.py:83 | a series `[[timestamp, [value, ...]], ...]` yields its first value |
| IpWebcamSensor.DefaultDataReadsZero | homeassistant/components/sensor/android_ip_webcam.py:81-83 | a container without `data` reads 0 |
| IpWebcamSensor.Refresh | homeassistant/components/sensor/android_ip_webcam.py:64-83 | unknown when the camera has no data or the sensor is disabled; connections from the status data; otherwise the container's unit and value, AttributeError without a container, and the old state when the data point is empty |
| IpWebcamSensor.RefreshIdempotent | homeassistant/components/sensor/android_ip_webcam.py:64-83 | refreshing twice from the same data equals refreshing once |
| IpWebcamSensor.RefreshForgetsPast | homeassistant/components/sensor/android_ip_webcam.py:64-83 | once the camera supplies a value and a unit, the earlier reading does not matter |
| IpWebcamSensor.Sensor.constructor | homeassistant/components/sensor/android_ip_webcam.py:39-47 | named after the camera and the mapped key, with no state and no unit |
| IpWebcamSensor.Sensor.AsyncUpdate | homeassistant/components/sensor/android_ip_webcam.py:64-83 | the outcome and new reading are those of `Refresh` |
| IpWebcamSensor.AsyncSetupPlatform | homeassistant/components/sensor/android_ip_webcam.py:17-33 | nothing without discovery info; KeyError for an unknown camera; otherwise one new sensor per key, in order |
| IpWebcamSensor.IntOf | homeassistant/components/sensor/android_ip_webcam.py:89 | Python `int()`: an int is kept, a bool gives 1 or 0, a string gives its parsed value or ValueError, other values give TypeError |
| IpWebcamSensor.RoundHalfEven10 | homeassistant/components/sensor/android_ip_webcam.py:89 | `round(n, -1)`: a multiple of ten within 5, with ties going to the even multiple |
| IpWebcamSensor.RoundHalfEven10Nearest | homeassistant/components/sensor/android_ip_webcam.py:89 | no multiple of ten lies nearer |
| IpWebcamSensor.BatteryIcon | homeassistant/components/sensor/android_ip_webcam.py:89-96 | outline below 10 after rounding; full for a state equal to 100; `mdi:battery-<rounded>` otherwise |
| IpWebcamSensor.Icon | homeassistant/components/sensor/android_ip_webcam.py:85-99 | the battery icon for a battery level with a state, `int()`'s error if it cannot convert, else the `ICON_MAP` entry or `mdi:eye` |
| IpWebcamSensor.BatteryIconNearFull | homeassistant/components/sensor/android_ip_webcam.py:89-96 | as written, 97 % gives `mdi:battery-100`, which is not a battery icon (see Findings) |
| IpWebcamSensor.BatteryIconCorrected | homeassistant/components/sensor/android_ip_webcam.py:89-96 | every level in 0..100 gets a real battery icon |
| IpWebcamSensor.IconCorrected | homeassistant/components/sensor/android_ip_webcam.py:85-99 | fails exactly where `Icon` fails; battery levels 0..100 always get a battery icon |
| IpWebcamSensor.IconCorrectedAgrees | homeassistant/components/sensor/android_ip_webcam.py:85-99 | it agrees with `Icon` everywhere except a battery level that rounds to 100 without being the integer 100 (an integer 95..99, or a numeric string) |
| IpWebcamSensor.IconCorrectedDiffers | homeassistant/components/sensor/android_ip_webcam.py:85-99 | on exactly those levels `Icon` gives `mdi:battery-100` and the corrected icon gives `mdi:battery` |
| IpWebcamSensor.BatteryIconsNearFull | homeassistant/components/sensor/android_ip_webcam.py:89-96 | a level rounding to 100, with a state other than the integer 100, gets `mdi:battery-100` as written and `mdi:battery` corrected |

## Left out

- I/O and logging are not modelled. This covers the `logger` calls, `hass` services and the state machine as a service, `track_point_in_time`, `track_state_change` and `put_characteristics`. A call that the model keeps is returned as a value, such as a `ServiceCall`, a `CharWrite` or a `StateWrite`, or appears as a field of the object.
- Threads, locks and `block_till_done` are not modelled. The worker loop of `homeassistant/util.py:405-426` is modelled as `Work`, one worker alone on the queue: it stops on an empty queue where the real worker blocks, and `current_jobs`, `job_handler` and `task_done` are left out. The model is sequential.
- ThreadPools.ThreadPool.Get: for items of equal priority, it does not pin down which one the priority queue returns; it only promises a least item.
- `color_RGB_to_xy`, `get_local_ip`, `datetime_to_str`, `str_to_datetime`, `strip_microseconds`, `repr_helper`, `OrderedEnum`, `OrderedSet.__repr__` and `TrackStates` are not modelled. They concern floating point, sockets, date formatting or printing.
- The platform-loading part of `platform_devices_from_config` is not modelled: `get_component`, `get_devices` and the `get_lights`/`get_switches` fallback load code at run time. Only its naming loop is modelled, over the devices' `get_name()` results.
- `group.expand_entity_ids`, `zone.in_zone`, `KEY_MAP` and `ICON_MAP` are parameters of the model. Their modules are not part of this model.
- The IP webcam's camera object is modelled as a snapshot of its `status_data`, `sensor_data` and `enabled_sensors`. The `discovery_info` dict is modelled as a record, so a KeyError from a missing discovery key is not modelled.
- Floating point is not modelled: numbers are integers. The webcam's default data point `0.0` reads as `0`. `round` and `int()` are modelled on integers and numeric strings only.
- IpWebcamSensor.IntOf: it does not accept the underscores or non-ASCII digits that Python's `int()` accepts.
- Strings.ParseInt: it accepts ASCII digits only; Python's `int()` also accepts `_` between digits and Unicode decimal digits. Surrounding whitespace is stripped with Python's full `isspace` set, as `int()` does.
- Strings.ParseDigits: it reads ASCII digits only, not the other Unicode decimal digits or the `_` separators that `int()` accepts.
- SchedulerTime.Create: because `ParseInt` reads ASCII digits only, it gives ValueError for times such as `1_0:00:00` or times written in non-ASCII digits, which the source accepts.
- Helpers.Format: it models a format string with exactly one `{}` placeholder; `{{`/`}}` escapes, numbered or named fields and format specs are not modelled.
- IpWebcamSensor.AsyncSetupPlatform: `async_add_devices(all_sensors, True)` asks for each sensor to be updated before it is added; the model returns the new sensors without that first update, which is `AsyncUpdate`.
- Clocks are parameters. A DeviceTracker cycle reads one `now`, although the source calls `datetime.now()` for each device. A throttled call has one start time and one finish time. The scheduler receives `now`.
- The tracker's `pending` list relies on Python 2, where `dict.keys()` (`app/DeviceTracker.py:60`) returns a list that `.remove` (`app/DeviceTracker.py:65`) can change. The model follows Python 2. On Python 3 the keys are a view without `remove`, and the first reported device that is tracked would raise AttributeError.
- Dict key order is modelled as an arbitrary fixed order: `KeyOrder` in the tracker and the domains of `validate_config`. Which order Python uses is not modelled.
- Node identity in `OrderedSet`'s linked list is not modelled: the set is a sequence of keys, which is what iteration reveals.
- SchedulerTime.ScheduleNext: it requires some weekday 0..6 to be scheduled. Without one, the source's loop never ends.
- DeviceTracker.FoundPassDevice, AbsentPassEffect, NotHomeStep, CycleDevice, StaysHomeWithinGrace and NotHomeUntilFound assume that no two devices share a display name and that no device is named `alldevices`, so that each device has a state category of its own. The source itself breaks their per-device property on a shared category: after one device is found and its category set home, a stale pending twin sets the same category to not home. CycleAggregate only needs that no device's category is the aggregate's, and CycleUntracked needs neither assumption.
- Constants imported from `homeassistant.const` and `homeassistant.components.cover` are written out with their usual values: `entity_id`, `platform`, `type`, `on`, `off`, `unknown`, the open/closed/opening/closing state names and the `SUPPORT_*` bits. Those modules are not part of this model.
- HomeKit characteristic types are an enumeration. The `HomeKitEntity` base class, its characteristic setup dispatch and `async_setup_entry`'s connection lookup are not part of this model.
- The `@service` decorator and `_callback` in `homeassistant/helpers/service.py` register callbacks with a global `HASS` and are not modelled.
- async/await is not modelled: coroutines are modelled as ordinary calls.

## Findings

| source | as written | input that shows it | evidently intended | confidence | as-written member | corrected member |
|---|---|---|---|---|---|---|
| homeassistant/util.py:24-26 | `sanitize_filename` deletes `~`, `..`, `/` and `\` in a single pass | `.~.` becomes `..` | no `..` survives sanitising | high, not executed | Util.SanitizeFilenameLeavesDotDot | Util.SanitizeFilenameFully |
| homeassistant/util.py:29-31 | `sanitize_path` deletes `~` and runs of two or more dots in a single pass | `.~.` becomes `..` | no `..` survives sanitising | high, not executed | Util.SanitizePathLeavesDotDot | Util.SanitizePathFully |
| homeassistant/components/sensor/android_ip_webcam.py:89-96 | the full-battery icon is chosen when the state equals 100, not when the rounded level does | battery level 97 gives `mdi:battery-100` | `mdi:battery` for every level that rounds to 100 | medium, not executed | IpWebcamSensor.BatteryIconNearFull | IpWebcamSensor.IconCorrected |

=== FILE: device_tracker.dfy ===
/**
 * The presence reconciler: a per-device two-state machine (home / not home)
 * driven by periodic scans, with a 70-second grace period before a device
 * that stops showing up is marked not home, and an aggregate "any device
 * home" state written on every cycle.
 *
 * The state machine the tracker writes to is the `store` map (category to
 * state string); the clock is the explicit `now` argument, in microseconds.
 */
module DeviceTracker {
  import opened Seqs

  const StateDeviceNotHome: string := "device_not_home"
  const StateDeviceHome: string := "device_home"
  const StateDeviceDefault: string := StateDeviceNotHome

  const MicrosPerSecond: int := 1_000_000
  /** How long a home device may be missing from scans before it is marked not home. */
  const TimeSpanForErrorInScanning: int := 70 * MicrosPerSecond
  /** 1990-01-01 00:00:00, in microseconds since 1970-01-01. */
  const DefaultLastSeen: int := 631_152_000 * MicrosPerSecond

  const StateCategoryAllDevices: string := "device.alldevices"

  /** The state category of a device with display name `name`. */
  function DeviceCategory(name: string): string {
    "device." + name
  }

  datatype TrackedDevice = TrackedDevice(name: string, lastSeen: int, category: string)

  /** The tracked devices together with the contents of the state store. */
  datatype Snapshot = Snapshot(devices: map<string, TrackedDevice>, store: map<string, string>)

  /** Every tracked device's category has a state in the store. */
  ghost predicate WellFormed(s: Snapshot) {
    forall d :: d in s.devices ==> s.devices[d].category in s.store
  }

  /** `keys` lists the tracked devices, each once (the dict's key order). */
  ghost predicate Enumerates(s: Snapshot, keys: seq<string>) {
    && NoDup(keys)
    && (forall d :: d in keys ==> d in s.devices)
    && (forall d :: d in s.devices ==> d in keys)
  }

  /** `t` tracks the same devices, under the same names and categories, as `s`. */
  ghost predicate SameDevices(s: Snapshot, t: Snapshot) {
    && t.devices.Keys == s.devices.Keys
    && (forall d :: d in s.devices ==> t.devices[d].name == s.devices[d].name)
    && (forall d :: d in s.devices ==> t.devices[d].category == s.devices[d].category)
    && t.store.Keys == s.store.Keys
  }

  /** No two devices share a category and none uses the aggregate's category. */
  ghost predicate DistinctCategories(s: Snapshot) {
    && (forall d, e :: d in s.devices && e in s.devices && d != e ==> s.devices[d].category != s.devices[e].category)
    && (forall d :: d in s.devices ==> s.devices[d].category != StateCategoryAllDevices)
  }

  /** `c` is no tracked device's category. */
  ghost predicate Untracked(s: Snapshot, c: string) {
    forall d :: d in s.devices ==> s.devices[d].category != c
  }

  /** `set_state`: write the state; a home state also stamps `last_seen`. */
  ghost function SetStateOn(s: Snapshot, device: string, state: string, now: int): (t: Snapshot)
    requires device in s.devices
  {
    var dev := s.devices[device];
    var devices := if state == StateDeviceHome then s.devices[device := dev.(lastSeen := now)] else s.devices;
    Snapshot(devices, s.store[dev.category := state])
  }

  /** The first loop of `update_devices`: found, still-pending devices are set home and leave `pending`. */
  ghost function FoundPass(s: Snapshot, pending: seq<string>, found: seq<string>, now: int): (r: (Snapshot, seq<string>))
    requires WellFormed(s)
    requires forall d :: d in pending ==> d in s.devices
    ensures WellFormed(r.0) && SameDevices(s, r.0)
    ensures forall d :: d in r.1 ==> d in pending
    decreases |found|
  {
    if found == [] then (s, pending)
    else if found[0] in pending then
      FoundPass(SetStateOn(s, found[0], StateDeviceHome, now), Remove(pending, found[0]), found[1..], now)
    else
      FoundPass(s, pending, found[1..], now)
  }

  /** The hysteresis rule for a device that was not found this cycle. */
  ghost predicate GoesNotHome(s: Snapshot, d: string, now: int)
    requires WellFormed(s) && d in s.devices
  {
    s.store[s.devices[d].category] == StateDeviceHome
    && now - s.devices[d].lastSeen > TimeSpanForErrorInScanning
  }

  /** The second loop of `update_devices`: pending devices past the grace period are set not home. */
  ghost function AbsentPass(s: Snapshot, pending: seq<string>, now: int): (r: Snapshot)
    requires WellFormed(s)
    requires forall d :: d in pending ==> d in s.devices
    ensures WellFormed(r) && SameDevices(s, r)
    ensures r.devices == s.devices
    decreases |pending|
  {
    if pending == [] then s
    else
      var s' := if GoesNotHome(s, pending[0], now) then SetStateOn(s, pending[0], StateDeviceNotHome, now) else s;
      AbsentPass(s', pending[1..], now)
  }

  /** Some tracked device is home. */
  ghost predicate AnyHome(s: Snapshot)
    requires WellFormed(s)
  {
    exists d :: d in s.devices && s.store[s.devices[d].category] == StateDeviceHome
  }

  /** The aggregate state written at the end of a cycle. */
  ghost function Aggregate(s: Snapshot): string
    requires WellFormed(s)
  {
    if AnyHome(s) then StateDeviceHome else StateDeviceNotHome
  }

  /** The store just before the aggregate is written. */
  ghost function BeforeAggregate(s: Snapshot, keys: seq<string>, found: seq<string>, now: int): (t: Snapshot)
    requires WellFormed(s) && Enumerates(s, keys)
    ensures WellFormed(t) && SameDevices(s, t)
  {
    var r := FoundPass(s, keys, found, now);
    AbsentPass(r.0, r.1, now)
  }

  /** One whole `update_devices` cycle. */
  ghost function Cycle(s: Snapshot, keys: seq<string>, found: seq<string>, now: int): (t: Snapshot)
    requires WellFormed(s) && Enumerates(s, keys) && StateCategoryAllDevices in s.store
    ensures WellFormed(t) && SameDevices(s, t)
  {
    var m := BeforeAggregate(s, keys, found, now);
    Snapshot(m.devices, m.store[StateCategoryAllDevices := Aggregate(m)])
  }

  /** The devices the first loop leaves pending: the tracked ones the scan did not report, each once. */
  lemma {:induction false} FoundPassPending(s: Snapshot, pending: seq<string>, found: seq<string>, now: int)
    requires WellFormed(s)
    requires NoDup(pending) && forall d :: d in pending ==> d in s.devices
    ensures var r := FoundPass(s, pending, found, now).1;
      && NoDup(r)
      && (forall d :: d in r ==> d !in found)
      && (forall d :: d in pending && d !in found ==> d in r)
    decreases |found|
  {
    if found != [] {
      var f := found[0];
      assert forall d :: d in found ==> d == f || d in found[1..];
      if f in pending {
        RemoveNoDup(pending, f);
        FoundPassPending(SetStateOn(s, f, StateDeviceHome, now), Remove(pending, f), found[1..], now);
      } else {
        FoundPassPending(s, pending, found[1..], now);
      }
    }
  }

  /** What the first loop does to one device, when no two devices share a category. */
  lemma {:induction false} FoundPassDevice(s: Snapshot, pending: seq<string>, found: seq<string>, now: int, d: string)
    requires WellFormed(s) && DistinctCategories(s) && d in s.devices
    requires NoDup(pending) && forall e :: e in pending ==> e in s.devices
    ensures var r := FoundPass(s, pending, found, now).0;
      var c := s.devices[d].category;
      && (d in pending && d in found ==> r.devices[d] == s.devices[d].(lastSeen := now) && r.store[c] == StateDeviceHome)
      && (!(d in pending && d in found) ==> r.devices[d] == s.devices[d] && r.store[c] == s.store[c])
    decreases |found|
  {
    if found != [] {
      var f := found[0];
      assert forall e :: e in found ==> e == f || e in found[1..];
      if f in pending {
        var s1 := SetStateOn(s, f, StateDeviceHome, now);
        RemoveNoDup(pending, f);
        assert DistinctCategories(s1);
        FoundPassDevice(s1, Remove(pending, f), found[1..], now, d);
      } else {
        FoundPassDevice(s, pending, found[1..], now, d);
      }
    }
  }

  /** The first loop leaves a category no device uses alone. */
  lemma {:induction false} FoundPassUntracked(s: Snapshot, pending: seq<string>, found: seq<string>, now: int, c: string)
    requires WellFormed(s) && forall e :: e in pending ==> e in s.devices
    requires c in s.store && Untracked(s, c)
    ensures FoundPass(s, pending, found, now).0.store[c] == s.store[c]
    decreases |found|
  {
    if found != [] {
      var f := found[0];
      if f in pending {
        FoundPassUntracked(SetStateOn(s, f, StateDeviceHome, now), Remove(pending, f), found[1..], now, c);
      } else {
        FoundPassUntracked(s, pending, found[1..], now, c);
      }
    }
  }

  /** The second loop leaves a category no device uses alone, whatever the devices' names. */
  lemma {:induction false} AbsentPassUntracked(s: Snapshot, pending: seq<string>, now: int, c: string)
    requires WellFormed(s) && forall e :: e in pending ==> e in s.devices
    requires c in s.store && Untracked(s, c)
    ensures AbsentPass(s, pending, now).store[c] == s.store[c]
    decreases |pending|
  {
    if pending != [] {
      var p := pending[0];
      if GoesNotHome(s, p, now) {
        AbsentPassUntracked(SetStateOn(s, p, StateDeviceNotHome, now), pending[1..], now, c);
      } else {
        AbsentPassUntracked(s, pending[1..], now, c);
      }
    }
  }

  /** What the second loop does to each device, when no two devices share a category. */
  lemma {:induction false} AbsentPassEffect(s: Snapshot, pending: seq<string>, now: int)
    requires WellFormed(s) && DistinctCategories(s)
    requires NoDup(pending) && forall d :: d in pending ==> d in s.devices
    ensures var r := AbsentPass(s, pending, now);
      && (forall d :: d in pending ==>
            r.store[s.devices[d].category] == if GoesNotHome(s, d, now) then StateDeviceNotHome else s.store[s.devices[d].category])
      && (forall d :: d in s.devices && d !in pending ==> r.store[s.devices[d].category] == s.store[s.devices[d].category])
      && (forall c :: c in s.store && Untracked(s, c) ==> r.store[c] == s.store[c])
    decreases |pending|
  {
    if pending != [] {
      var p := pending[0];
      assert NoDup(pending[1..]);
      assert p !in pending[1..];
      if GoesNotHome(s, p, now) {
        NotHomeStep(s, p, now);
        AbsentPassEffect(SetStateOn(s, p, StateDeviceNotHome, now), pending[1..], now);
      } else {
        AbsentPassEffect(s, pending[1..], now);
      }
    }
  }

  /** Marking one device not home touches only its own category and no other device's hysteresis. */
  lemma NotHomeStep(s: Snapshot, p: string, now: int)
    requires WellFormed(s) && DistinctCategories(s) && p in s.devices
    ensures var t := SetStateOn(s, p, StateDeviceNotHome, now);
      && t.devices == s.devices && WellFormed(t) && DistinctCategories(t)
      && t.store[s.devices[p].category] == StateDeviceNotHome
      && (forall d :: d in s.devices && d != p ==> t.store[s.devices[d].category] == s.store[s.devices[d].category])
      && (forall d :: d in s.devices && d != p ==> GoesNotHome(t, d, now) == GoesNotHome(s, d, now))
      && (forall c :: c in s.store && Untracked(s, c) ==> t.store[c] == s.store[c])
  {
  }

  /**
   * One cycle, for one tracked device: found, it is home and `last_seen` is
   * `now`; not found, `last_seen` is untouched and it turns not home only if
   * it was home and was last seen more than 70 seconds ago.
   */
  lemma CycleDevice(s: Snapshot, keys: seq<string>, found: seq<string>, now: int, d: string)
    requires WellFormed(s) && Enumerates(s, keys) && StateCategoryAllDevices in s.store
    requires DistinctCategories(s) && d in s.devices
    ensures var t := Cycle(s, keys, found, now);
      var c := s.devices[d].category;
      && (d in found ==> t.devices[d] == s.devices[d].(lastSeen := now) && t.store[c] == StateDeviceHome)
      && (d !in found ==>
            && t.devices[d] == s.devices[d]
            && t.store[c] == if GoesNotHome(s, d, now) then StateDeviceNotHome else s.store[c])
  {
    var r := FoundPass(s, keys, found, now);
    FoundPassPending(s, keys, found, now);
    FoundPassDevice(s, keys, found, now, d);
    assert DistinctCategories(r.0);
    AbsentPassEffect(r.0, r.1, now);
    if d !in found {
      assert GoesNotHome(r.0, d, now) == GoesNotHome(s, d, now);
    }
  }

  /** The aggregate is home exactly when some tracked device is home after the cycle. */
  lemma CycleAggregate(s: Snapshot, keys: seq<string>, found: seq<string>, now: int)
    requires WellFormed(s) && Enumerates(s, keys) && StateCategoryAllDevices in s.store
    requires forall d :: d in s.devices ==> s.devices[d].category != StateCategoryAllDevices
    ensures var t := Cycle(s, keys, found, now);
      && (t.store[StateCategoryAllDevices] == StateDeviceHome || t.store[StateCategoryAllDevices] == StateDeviceNotHome)
      && (t.store[StateCategoryAllDevices] == StateDeviceHome <==> AnyHome(t))
  {
    var m := BeforeAggregate(s, keys, found, now);
    var t := Cycle(s, keys, found, now);
    assert forall d :: d in t.devices ==> t.store[t.devices[d].category] == m.store[m.devices[d].category];
    if AnyHome(m) {
      var d :| d in m.devices && m.store[m.devices[d].category] == StateDeviceHome;
      assert t.store[t.devices[d].category] == StateDeviceHome;
    }
    if AnyHome(t) {
      var d :| d in t.devices && t.store[t.devices[d].category] == StateDeviceHome;
      assert m.store[m.devices[d].category] == StateDeviceHome;
    }
  }

  /** With no tracked devices the aggregate is not home. */
  lemma CycleNoDevices(s: Snapshot, keys: seq<string>, found: seq<string>, now: int)
    requires WellFormed(s) && Enumerates(s, keys) && StateCategoryAllDevices in s.store
    requires s.devices == map[]
    ensures Cycle(s, keys, found, now).store[StateCategoryAllDevices] == StateDeviceNotHome
  {
    var m := BeforeAggregate(s, keys, found, now);
    assert m.devices.Keys == {};
  }

  /** Categories no device uses (other than the aggregate's) are left alone; ids the scan reports that are not tracked change nothing. */
  lemma CycleUntracked(s: Snapshot, keys: seq<string>, found: seq<string>, now: int, c: string)
    requires WellFormed(s) && Enumerates(s, keys) && StateCategoryAllDevices in s.store
    requires c in s.store && c != StateCategoryAllDevices && Untracked(s, c)
    ensures Cycle(s, keys, found, now).store[c] == s.store[c]
    ensures Cycle(s, keys, found, now).devices.Keys == s.devices.Keys
  {
    var r := FoundPass(s, keys, found, now);
    FoundPassPending(s, keys, found, now);
    FoundPassUntracked(s, keys, found, now, c);
    assert Untracked(r.0, c);
    AbsentPassUntracked(r.0, r.1, now, c);
  }

  /** Hysteresis: a home device missing from a scan stays home within the grace period. */
  lemma StaysHomeWithinGrace(s: Snapshot, keys: seq<string>, found: seq<string>, now: int, d: string)
    requires WellFormed(s) && Enumerates(s, keys) && StateCategoryAllDevices in s.store
    requires DistinctCategories(s) && d in s.devices && d !in found
    requires s.store[s.devices[d].category] == StateDeviceHome
    requires now - s.devices[d].lastSeen <= TimeSpanForErrorInScanning
    ensures Cycle(s, keys, found, now).store[s.devices[d].category] == StateDeviceHome
  {
    CycleDevice(s, keys, found, now, d);
  }

  /** A device that is not home only becomes home by being found. */
  lemma NotHomeUntilFound(s: Snapshot, keys: seq<string>, found: seq<string>, now: int, d: string)
    requires WellFormed(s) && Enumerates(s, keys) && StateCategoryAllDevices in s.store
    requires DistinctCategories(s) && d in s.devices && d !in found
    requires s.store[s.devices[d].category] != StateDeviceHome
    ensures Cycle(s, keys, found, now).store[s.devices[d].category] == s.store[s.devices[d].category]
  {
    CycleDevice(s, keys, found, now, d);
  }

  class Tracker {
    /** device id to its name, category and last sighting. */
    var devices: map<string, TrackedDevice>
    /** The order in which the device dict yields its keys. */
    var keys: seq<string>
    /** The state machine's contents: category to state. */
    var store: map<string, string>
    var allDevicesState: string

    ghost function Snap(): Snapshot
      reads this
    {
      Snapshot(devices, store)
    }

    ghost predicate Valid()
      reads this
    {
      && WellFormed(Snap())
      && Enumerates(Snap(), keys)
      && (forall d :: d in devices ==> devices[d].category == DeviceCategory(devices[d].name))
      && StateCategoryAllDevices in store
    }

    /**
     * Start tracking the devices the scanner reports (`devicesToTrack`: id to
     * display name): every device and the aggregate start not home, and every
     * `last_seen` is 1990-01-01. `states` is the store's prior contents.
     */
    constructor (devicesToTrack: map<string, string>, states: map<string, string>)
      ensures Valid()
      ensures devices.Keys == devicesToTrack.Keys
      ensures forall d :: d in devicesToTrack ==>
                devices[d] == TrackedDevice(devicesToTrack[d], DefaultLastSeen, DeviceCategory(devicesToTrack[d]))
      ensures allDevicesState == StateDeviceDefault
      ensures store[StateCategoryAllDevices] == StateDeviceDefault
      ensures forall d :: d in devices ==> store[devices[d].category] == StateDeviceDefault
      ensures forall c :: c in states && c != StateCategoryAllDevices && Untracked(Snap(), c) ==> c in store && store[c] == states[c]
    {
      var tracked := map d | d in devicesToTrack ::
        TrackedDevice(devicesToTrack[d], DefaultLastSeen, DeviceCategory(devicesToTrack[d]));
      var order := KeyOrder(tracked.Keys);
      var st := AddCategories(states[StateCategoryAllDevices := StateDeviceDefault], tracked, order);
      devices := tracked;
      keys := order;
      store := st;
      allDevicesState := StateDeviceDefault;
    }

    /** `device_state_categories`: the category of every tracked device, in key order. */
    method DeviceStateCategories() returns (cats: seq<string>)
      requires Valid()
      ensures |cats| == |keys|
      ensures forall i :: 0 <= i < |keys| ==> cats[i] == DeviceCategory(devices[keys[i]].name)
    {
      cats := [];
      var i := 0;
      while i < |keys|
        invariant 0 <= i <= |keys|
        invariant |cats| == i
        invariant forall j :: 0 <= j < i ==> cats[j] == DeviceCategory(devices[keys[j]].name)
      {
        cats := cats + [devices[keys[i]].category];
        i := i + 1;
      }
    }

    /** `set_state`: store the device's state; when it is home, `last_seen` becomes `now`. */
    method SetState(device: string, state: string, now: int)
      requires Valid() && device in devices
      modifies this
      ensures Valid()
      ensures Snap() == SetStateOn(old(Snap()), device, state, now)
      ensures keys == old(keys) && allDevicesState == old(allDevicesState)
    {
      if state == StateDeviceHome {
        devices := devices[device := devices[device].(lastSeen := now)];
      }
      store := store[devices[device].category := state];
    }

    /** `update_devices`: reconcile one scan (`found`, in scan order) taken at `now`. */
    method UpdateDevices(found: seq<string>, now: int)
      requires Valid()
      modifies this
      ensures Valid()
      ensures keys == old(keys)
      ensures Snap() == Cycle(old(Snap()), old(keys), found, now)
      ensures allDevicesState == store[StateCategoryAllDevices]
    {
      var pending := MarkFound(found, now);
      MarkAbsent(pending, now);
      assert Snap() == BeforeAggregate(old(Snap()), old(keys), found, now);
      RefreshAggregate();
    }

    /** The first loop of `update_devices`; returns the tracked devices the scan did not report. */
    method MarkFound(found: seq<string>, now: int) returns (pending: seq<string>)
      requires Valid()
      modifies this
      ensures Valid() && keys == old(keys) && allDevicesState == old(allDevicesState)
      ensures forall d :: d in pending ==> d in devices
      ensures (Snap(), pending) == FoundPass(old(Snap()), old(keys), found, now)
    {
      pending := keys;
      var i := 0;
      while i < |found|
        invariant 0 <= i <= |found|
        invariant Valid() && keys == old(keys) && allDevicesState == old(allDevicesState)
        invariant forall d :: d in pending ==> d in devices
        invariant FoundPass(Snap(), pending, found[i..], now) == FoundPass(old(Snap()), old(keys), found, now)
      {
        var device := found[i];
        assert found[i..][1..] == found[i + 1..];
        assert FoundPass(Snap(), pending, found[i..], now)
            == if device in pending
               then FoundPass(SetStateOn(Snap(), device, StateDeviceHome, now), Remove(pending, device), found[i + 1..], now)
               else FoundPass(Snap(), pending, found[i + 1..], now);
        pending := MarkOneFound(device, pending, now);
        i := i + 1;
      }
    }

    /** One turn of the first loop: a reported device still pending is set home and is no longer pending. */
    method MarkOneFound(device: string, pending: seq<string>, now: int) returns (rest: seq<string>)
      requires Valid()
      requires forall d :: d in pending ==> d in devices
      modifies this
      ensures Valid() && keys == old(keys) && allDevicesState == old(allDevicesState)
      ensures forall d :: d in rest ==> d in devices
      ensures device in pending ==>
        rest == Remove(pending, device) && Snap() == SetStateOn(old(Snap()), device, StateDeviceHome, now)
      ensures device !in pending ==> rest == pending && Snap() == old(Snap())
    {
      rest := pending;
      if device in pending {
        rest := Remove(pending, device);
        SetState(device, StateDeviceHome, now);
      }
    }

    /** The second loop of `update_devices`: expire the devices in `pending` that are past the grace period. */
    method MarkAbsent(pending: seq<string>, now: int)
      requires Valid()
      requires forall d :: d in pending ==> d in devices
      modifies this
      ensures Valid() && keys == old(keys) && allDevicesState == old(allDevicesState)
      ensures Snap() == AbsentPass(old(Snap()), pending, now)
    {
      var j := 0;
      while j < |pending|
        invariant 0 <= j <= |pending|
        invariant Valid() && keys == old(keys) && allDevicesState == old(allDevicesState)
        invariant devices == old(devices)
        invariant AbsentPass(Snap(), pending[j..], now) == AbsentPass(old(Snap()), pending, now)
      {
        var device := pending[j];
        assert pending[j..][1..] == pending[j + 1..];
        if store[devices[device].category] == StateDeviceHome
           && now - devices[device].lastSeen > TimeSpanForErrorInScanning {
          SetState(device, StateDeviceNotHome, now);
        }
        j := j + 1;
      }
    }

    /** The end of `update_devices`: write the aggregate "any device home" state. */
    method RefreshAggregate()
      requires Valid()
      modifies this
      ensures Valid() && keys == old(keys) && devices == old(devices)
      ensures store == old(store)[StateCategoryAllDevices := Aggregate(old(Snap()))]
      ensures allDevicesState == Aggregate(old(Snap()))
    {
      var anyHome := false;
      var k := 0;
      while k < |keys|
        invariant 0 <= k <= |keys|
        invariant anyHome <==> exists m :: 0 <= m < k && store[devices[keys[m]].category] == StateDeviceHome
      {
        if store[devices[keys[k]].category] == StateDeviceHome {
          anyHome := true;
        }
        k := k + 1;
      }
      assert anyHome <==> AnyHome(Snap());
      allDevicesState := if anyHome then StateDeviceHome else StateDeviceNotHome;
      store := store[StateCategoryAllDevices := allDevicesState];
    }
  }

  /** Some fixed order of the keys of a dict: each key exactly once. */
  method KeyOrder(ks: set<string>) returns (order: seq<string>)
    ensures NoDup(order)
    ensures forall d :: d in order ==> d in ks
    ensures forall d :: d in ks ==> d in order
  {
    order := [];
    var rest := ks;
    while rest != {}
      invariant NoDup(order)
      invariant rest <= ks
      invariant forall d :: d in order ==> d in ks && d !in rest
      invariant forall d :: d in ks ==> d in order || d in rest
      decreases |rest|
    {
      var d :| d in rest;
      order := order + [d];
      rest := rest - {d};
    }
  }

  /** The constructor's `add_category` loop: every device's category starts at the default state. */
  method AddCategories(states: map<string, string>, tracked: map<string, TrackedDevice>, order: seq<string>)
    returns (st: map<string, string>)
    requires forall d :: d in order ==> d in tracked
    ensures forall c :: c in states ==> c in st
    ensures forall d :: d in order ==> tracked[d].category in st && st[tracked[d].category] == StateDeviceDefault
    ensures forall c :: c in states && (forall d :: d in order ==> tracked[d].category != c) ==> st[c] == states[c]
  {
    st := states;
    var i := 0;
    while i < |order|
      invariant 0 <= i <= |order|
      invariant forall c :: c in states ==> c in st
      invariant forall j :: 0 <= j < i ==> tracked[order[j]].category in st && st[tracked[order[j]].category] == StateDeviceDefault
      invariant forall c :: c in states && (forall j :: 0 <= j < i ==> tracked[order[j]].category != c) ==> st[c] == states[c]
    {
      st := st[tracked[order[i]].category := StateDeviceDefault];
      i := i + 1;
    }
  }

  /** A cycle over a single tracked device: the aggregate follows that device. */
  lemma SingleDeviceCycle(s: Snapshot, keys: seq<string>, found: seq<string>, now: int, d: string)
    requires WellFormed(s) && Enumerates(s, keys) && StateCategoryAllDevices in s.store
    requires s.devices.Keys == {d} && s.devices[d].category != StateCategoryAllDevices
    ensures var t := Cycle(s, keys, found, now);
      var c := s.devices[d].category;
      && t.devices.Keys == {d} && t.devices[d].category == c
      && Enumerates(t, keys) && StateCategoryAllDevices in t.store
      && (d in found ==> t.devices[d].lastSeen == now && t.store[c] == StateDeviceHome)
      && (d !in found ==>
            && t.devices[d] == s.devices[d]
            && t.store[c] == if GoesNotHome(s, d, now) then StateDeviceNotHome else s.store[c])
      && t.store[StateCategoryAllDevices] == if t.store[c] == StateDeviceHome then StateDeviceHome else StateDeviceNotHome
  {
    CycleDevice(s, keys, found, now, d);
    CycleAggregate(s, keys, found, now);
  }

  /**
   * A device seen at t = 0 and missing at t = 30 s and t = 75 s: the
   * aggregate goes home, stays home within the grace period, then turns
   * not home.
   */
  method GraceScenario() returns (first: string, second: string, third: string)
    ensures first == StateDeviceHome && second == StateDeviceHome && third == StateDeviceNotHome
  {
    var d := "phone_mac";
    var tracker := new Tracker(map[d := "phone"], map[]);
    ghost var c := DeviceCategory("phone");
    assert c[7] != StateCategoryAllDevices[7];
    assert tracker.devices.Keys == {d};

    ghost var s0 := tracker.Snap();
    tracker.UpdateDevices([d], 0);
    SingleDeviceCycle(s0, tracker.keys, [d], 0, d);
    first := tracker.allDevicesState;

    ghost var s1 := tracker.Snap();
    tracker.UpdateDevices([], 30 * MicrosPerSecond);
    SingleDeviceCycle(s1, tracker.keys, [], 30 * MicrosPerSecond, d);
    second := tracker.allDevicesState;

    ghost var s2 := tracker.Snap();
    tracker.UpdateDevices([], 75 * MicrosPerSecond);
    SingleDeviceCycle(s2, tracker.keys, [], 75 * MicrosPerSecond, d);
    third := tracker.allDevicesState;
  }
}

=== FILE: helpers.dfy ===
/**
 * The helpers of `homeassistant/helpers.py`: entity ids of a service call,
 * configuration validation, the per-platform sections of a component's
 * configuration, entity ids for a component's devices, and the `Device` /
 * `ToggleDevice` state reporting.
 */
module Helpers {
  import opened Wrappers
  import opened Values
  import opened Seqs
  import opened Strings
  import Util

  const AttrEntityId := "entity_id"
  const ConfPlatform := "platform"
  const ConfType := "type"
  const StateOn := "on"
  const StateOff := "off"

  // ----------------------------------------------------- extract_entity_ids

  /** The `entity_id` attribute as a list: a list as it is, anything else as a one-element list. */
  function AsList(v: Value): (r: seq<Value>)
    ensures v.VList? ==> r == v.items
    ensures !v.VList? ==> r == [v]
  {
    if v.VList? then v.items else [v]
  }

  /**
   * `extract_entity_ids`: nothing unless the call's data is non-empty and has
   * `entity_id`; otherwise the expansion of the ids (`expand` stands for
   * `group.expand_entity_ids`) with each id kept at its first occurrence.
   */
  method ExtractEntityIds(data: map<string, Value>, expand: seq<Value> -> seq<Value>) returns (ids: seq<Value>)
    ensures AttrEntityId !in data ==> ids == []
    ensures AttrEntityId in data ==> ids == Dedup(expand(AsList(data[AttrEntityId])))
    ensures NoDup(ids)
  {
    ids := [];
    if data != map[] && AttrEntityId in data {
      var expanded := expand(AsList(data[AttrEntityId]));
      var i := 0;
      while i < |expanded|
        invariant 0 <= i <= |expanded|
        invariant ids == Dedup(expanded[..i])
      {
        assert expanded[..i + 1] == expanded[..i] + [expanded[i]];
        DedupSnoc(expanded[..i], expanded[i]);
        DedupSpec(expanded[..i]);
        if expanded[i] !in ids {
          ids := ids + [expanded[i]];
        }
        i := i + 1;
      }
      assert expanded[..i] == expanded;
    }
    DedupSpec(if AttrEntityId in data then expand(AsList(data[AttrEntityId])) else []);
  }

  // -------------------------------------------------------- validate_config

  /** Python's `item in container` for a string item; TypeError for containers that are not. */
  function Contains(container: Value, item: string): (r: Result<bool, Error>)
    ensures container.VDict? ==> r == Ok(item in container.entries)
    ensures container.VList? ==> r == Ok(VStr(item) in container.items)
    ensures container.VStr? ==> r == Ok(IsSubstring(item, container.s))
    ensures r.Err? <==> !(container.VDict? || container.VList? || container.VStr?)
    ensures r.Err? ==> r.error == TypeError
  {
    match container
    case VDict(entries) => Ok(item in entries)
    case VList(items) => Ok(VStr(item) in items)
    case VStr(s) => Ok(IsSubstring(item, s))
    case _ => Err(TypeError)
  }

  /** The section `config.setdefault(domain, {})` leaves under `domain`. */
  function Section(config: map<string, Value>, domain: string): Value {
    if domain in config then config[domain] else VDict(map[])
  }

  /** `config` after `setdefault(d, {})` for every `d` of `domains`. */
  function WithDefaults(config: map<string, Value>, domains: set<string>): (r: map<string, Value>)
    ensures r.Keys == config.Keys + domains
    ensures forall d :: d in r ==> r[d] == Section(config, d)
  {
    map d | d in config.Keys + domains :: Section(config, d)
  }

  /** The items `domain` requires that its section lacks, in order; TypeError when its section cannot be searched. */
  function MissingItems(section: Value, required: seq<string>): (r: Result<seq<string>, Error>)
    ensures r.Ok? <==> forall k :: 0 <= k < |required| ==> Contains(section, required[k]).Ok?
    ensures r.Ok? ==> (r.value == [] <==> forall k :: 0 <= k < |required| ==> Contains(section, required[k]) == Ok(true))
  {
    if required == [] then Ok([])
    else
      match Contains(section, required[0])
      case Err(e) => Err(e)
      case Ok(found) =>
        match MissingItems(section, required[1..])
        case Err(e) => Err(e)
        case Ok(rest) =>
          assert forall k :: 1 <= k < |required| ==> required[k] == required[1..][k - 1];
          Ok(if found then rest else [required[0]] + rest)
  }

  /** Every required item of `domain` is in its section. */
  ghost predicate DomainSatisfied(config: map<string, Value>, items: map<string, seq<string>>, domain: string)
    requires domain in items
  {
    forall k :: 0 <= k < |items[domain]| ==> Contains(Section(config, domain), items[domain][k]) == Ok(true)
  }

  /** Every required item of `domain` can be looked for in its section. */
  ghost predicate DomainSearchable(config: map<string, Value>, items: map<string, seq<string>>, domain: string)
    requires domain in items
  {
    forall k :: 0 <= k < |items[domain]| ==> Contains(Section(config, domain), items[domain][k]).Ok?
  }

  /**
   * `validate_config`: every listed domain missing from `config` gets an
   * empty section, and the answer is True exactly when every required item
   * of every listed domain is present. Looking for an item in a section that
   * is not a container raises TypeError, which leaves the domains visited so
   * far with their default sections.
   */
  method ValidateConfig(config: map<string, Value>, items: map<string, seq<string>>)
    returns (r: Result<bool, Error>, newConfig: map<string, Value>)
    ensures forall d :: d in config ==> d in newConfig && newConfig[d] == config[d]
    ensures forall d :: d in newConfig && d !in config ==> d in items && newConfig[d] == VDict(map[])
    ensures r.Err? <==> exists d :: d in items && !DomainSearchable(config, items, d)
    ensures r.Err? ==> r.error == TypeError
    ensures r.Ok? ==> newConfig == WithDefaults(config, items.Keys)
    ensures r.Ok? ==> (r.value <==> forall d :: d in items ==> DomainSatisfied(config, items, d))
  {
    newConfig := config;
    var errorsFound := false;
    var remaining := items.Keys;
    ghost var visited: set<string> := {};
    while remaining != {}
      invariant visited == items.Keys - remaining && remaining <= items.Keys
      invariant newConfig.Keys == config.Keys + visited
      invariant forall d :: d in newConfig ==> newConfig[d] == Section(config, d)
      invariant forall d :: d in visited ==> DomainSearchable(config, items, d)
      invariant errorsFound <==> Unsatisfied(config, items, visited) != {}
      decreases remaining
    {
      var domain :| domain in remaining;
      if domain !in newConfig {
        newConfig := newConfig[domain := VDict(map[])];
      }
      var errors := MissingItems(newConfig[domain], items[domain]);
      DomainVerdict(config, items, domain);
      if errors.Err? {
        return Err(errors.error), newConfig;
      }
      if errors.value != [] {
        errorsFound := true;
      }
      UnsatisfiedAdd(config, items, visited, domain);
      visited := visited + {domain};
      remaining := remaining - {domain};
    }
    assert newConfig == WithDefaults(config, items.Keys);
    r := Ok(!errorsFound);
  }

  /** The domains among `domains` whose required items are not all present. */
  ghost function Unsatisfied(config: map<string, Value>, items: map<string, seq<string>>, domains: set<string>): (u: set<string>)
    requires domains <= items.Keys
    ensures forall d :: d in u <==> d in domains && !DomainSatisfied(config, items, d)
  {
    set d | d in domains && !DomainSatisfied(config, items, d)
  }

  /** Visiting one more domain adds it to the unsatisfied ones exactly when it is unsatisfied. */
  lemma UnsatisfiedAdd(config: map<string, Value>, items: map<string, seq<string>>, domains: set<string>, domain: string)
    requires domains <= items.Keys && domain in items
    ensures Unsatisfied(config, items, domains + {domain})
         == Unsatisfied(config, items, domains) + (if DomainSatisfied(config, items, domain) then {} else {domain})
  {
  }

  /** The verdict of `MissingItems` on one domain's section, in terms of the domain predicates. */
  lemma DomainVerdict(config: map<string, Value>, items: map<string, seq<string>>, domain: string)
    requires domain in items
    ensures var m := MissingItems(Section(config, domain), items[domain]);
      && (m.Ok? <==> DomainSearchable(config, items, domain))
      && (m.Err? ==> m.error == TypeError)
      && (m.Ok? ==> (m.value == [] <==> DomainSatisfied(config, items, domain)))
  {
  }

  /**
   * Validating the configuration `validate_config` left behind adds no
   * further section and gives the same verdict for every domain.
   */
  lemma ValidateAgain(config: map<string, Value>, items: map<string, seq<string>>)
    ensures WithDefaults(WithDefaults(config, items.Keys), items.Keys) == WithDefaults(config, items.Keys)
    ensures forall d :: d in items ==>
              (DomainSatisfied(WithDefaults(config, items.Keys), items, d) <==> DomainSatisfied(config, items, d))
  {
    var c := WithDefaults(config, items.Keys);
    assert forall d :: d in items ==> Section(c, d) == Section(config, d);
  }

  // ---------------------------------------------------- config_per_platform

  /** The configuration key of the n-th platform section: `domain`, `domain 2`, `domain 3`, ... */
  function PlatformKey(domain: string, n: nat): string {
    Numbered(domain, " ", n)
  }

  /** The platform a section names: its `platform` entry, else the deprecated `type` entry. */
  function PlatformType(section: map<string, Value>): (t: Value)
    ensures Get(section, ConfPlatform) != VNone ==> t == section[ConfPlatform]
    ensures Get(section, ConfPlatform) == VNone ==> t == Get(section, ConfType)
  {
    var t := Get(section, ConfPlatform);
    if t == VNone then Get(section, ConfType) else t
  }

  /** One yielded pair: the platform type and its section. */
  datatype Platform = Platform(platformType: Value, config: map<string, Value>)

  /** The n-th section is a well-formed platform section, and what it yields. */
  ghost predicate YieldsAt(config: map<string, Value>, domain: string, n: nat, p: Platform) {
    var key := PlatformKey(domain, n);
    key in config && config[key].VDict?
    && PlatformType(config[key].entries) != VNone
    && p == Platform(PlatformType(config[key].entries), config[key].entries)
  }

  /**
   * `config_per_platform`: the sections under `domain`, `domain 2`, ... in
   * order, stopping at the first absent key, or at a section naming no
   * platform (which yields nothing). A section that is not a map raises
   * AttributeError after the sections before it were yielded.
   */
  method ConfigPerPlatform(config: map<string, Value>, domain: string)
    returns (yielded: seq<Platform>, failure: Option<Error>)
    ensures forall i :: 0 <= i < |yielded| ==> YieldsAt(config, domain, i + 1, yielded[i])
    ensures var stop := PlatformKey(domain, |yielded| + 1);
      && (failure.Some? <==> stop in config && !config[stop].VDict?)
      && (failure.Some? ==> failure.value == AttributeError)
      && (stop in config && config[stop].VDict? ==> PlatformType(config[stop].entries) == VNone)
  {
    yielded := [];
    failure := None;
    var configKey := domain;
    var found := 1;
    ghost var taken := config.Keys;
    while configKey in config
      invariant found == |yielded| + 1
      invariant configKey == PlatformKey(domain, found)
      invariant forall i :: 0 <= i < |yielded| ==> YieldsAt(config, domain, i + 1, yielded[i])
      invariant NumberedBefore(domain, " ", found) <= taken
      decreases |taken - NumberedBefore(domain, " ", found)|
    {
      var section := config[configKey];
      if !section.VDict? {
        return yielded, Some(AttributeError);
      }
      var platformType := Get(section.entries, ConfPlatform);
      if platformType == VNone {
        platformType := Get(section.entries, ConfType);
      }
      if platformType == VNone {
        return;
      }
      yielded := yielded + [Platform(platformType, section.entries)];
      NumberedStep(domain, " ", found, taken);
      found := found + 1;
      configKey := domain + " " + NatToString(found);
      assert found > 1 && configKey == Numbered(domain, " ", found);
    }
  }

  // -------------------------------------- platform_devices_from_config naming

  /** How many devices before position `i` have no name. */
  function UnnamedBefore(names: seq<Option<string>>, i: nat): (n: nat)
    requires i <= |names|
    ensures n <= i
  {
    if i == 0 then 0 else UnnamedBefore(names, i - 1) + (if names[i - 1].None? then 1 else 0)
  }

  /** Unnamed devices are numbered 1, 2, ... in list order. */
  lemma {:induction false} UnnamedNumbering(names: seq<Option<string>>, i: nat, j: nat)
    requires i < j < |names| && names[i].None?
    ensures UnnamedBefore(names, i) < UnnamedBefore(names, j)
    decreases j
  {
    if j > i + 1 {
      UnnamedNumbering(names, i, j - 1);
    }
  }

  /** The display name of the i-th device: its own, else `domain #k` for the k-th unnamed device. */
  function DisplayName(domain: string, names: seq<Option<string>>, i: nat): string
    requires i < |names|
  {
    match names[i]
    case Some(name) => name
    case None => domain + " #" + NatToString(UnnamedBefore(names, i) + 1)
  }

  /** `entity_id_format.format(x)` for a format with one `{}` placeholder. */
  function Format(before: string, after: string, x: string): (r: string)
    ensures |r| == |before| + |x| + |after|
    ensures r[..|before|] == before && r[|before|..|before| + |x|] == x && r[|before| + |x|..] == after
  {
    before + x + after
  }

  /** Different names give different formatted ids. */
  lemma FormatInjective(before: string, after: string, x: string, y: string)
    requires Format(before, after, x) == Format(before, after, y)
    ensures x == y
  {
    var fx, fy := Format(before, after, x), Format(before, after, y);
    assert |x| == |y|;
    assert x == fx[|before|..|before| + |x|] == fy[|before|..|before| + |y|] == y;
  }

  /** The entity id position `i` asks for before uniqueness is enforced. */
  function PreferredId(domain: string, names: seq<Option<string>>, before: string, after: string, i: nat): string
    requires i < |names|
  {
    Format(before, after, Util.Slugify(DisplayName(domain, names, i)))
  }

  /**
   * The naming loop of `platform_devices_from_config` over the devices'
   * names (`get_name()`, None when a device has none): each device gets the
   * first free entity id of the series its slugified display name starts,
   * and is filed under that id.
   */
  method NameDevices(domain: string, names: seq<Option<string>>, before: string, after: string)
    returns (entityIds: seq<string>, deviceDict: map<string, nat>)
    ensures |entityIds| == |names|
    ensures NoDup(entityIds)
    ensures forall i :: 0 <= i < |names| ==>
              Util.FirstFree(entityIds[i], PreferredId(domain, names, before, after, i), entityIds[..i])
    ensures forall x :: x in deviceDict ==> x in entityIds
    ensures forall i :: 0 <= i < |names| ==> entityIds[i] in deviceDict && deviceDict[entityIds[i]] == i
  {
    var noNameCount := 1;
    entityIds := [];
    deviceDict := map[];
    var i := 0;
    while i < |names|
      invariant 0 <= i <= |names| && |entityIds| == i
      invariant noNameCount == UnnamedBefore(names, i) + 1
      invariant NoDup(entityIds)
      invariant forall m :: 0 <= m < i ==>
                  Util.FirstFree(entityIds[m], PreferredId(domain, names, before, after, m), entityIds[..m])
      invariant forall x :: x in deviceDict ==> x in entityIds
      invariant forall m :: 0 <= m < i ==> entityIds[m] in deviceDict && deviceDict[entityIds[m]] == m
    {
      var name: string;
      if names[i].Some? {
        name := names[i].value;
      } else {
        name := domain + " #" + NatToString(noNameCount);
        noNameCount := noNameCount + 1;
      }
      assert name == DisplayName(domain, names, i);
      // the keys of `device_dict` are the ids filed so far
      var entityId := Util.EnsureUniqueString(Format(before, after, Util.Slugify(name)), entityIds);
      NamingStep(domain, names, before, after, entityIds, entityId);
      FilingStep(deviceDict, entityIds, entityId);
      entityIds := entityIds + [entityId];
      deviceDict := deviceDict[entityId := i];
      i := i + 1;
    }
  }

  /** Filing device number |ids| under a new id keeps every device filed under its own id. */
  lemma FilingStep(dict: map<string, nat>, ids: seq<string>, x: string)
    requires x !in ids
    requires forall y :: y in dict ==> y in ids
    requires forall m :: 0 <= m < |ids| ==> ids[m] in dict && dict[ids[m]] == m
    ensures forall y :: y in dict[x := |ids|] ==> y in ids + [x]
    ensures forall m :: 0 <= m < |ids| + 1 ==> (ids + [x])[m] in dict[x := |ids|] && dict[x := |ids|][(ids + [x])[m]] == m
  {
    forall m | 0 <= m < |ids| + 1
      ensures (ids + [x])[m] in dict[x := |ids|] && dict[x := |ids|][(ids + [x])[m]] == m
    {
      if m < |ids| {
        assert (ids + [x])[m] == ids[m] != x;
      }
    }
  }

  /** Filing one more device under the first free id of its series keeps the ids distinct and each first free. */
  lemma NamingStep(domain: string, names: seq<Option<string>>, before: string, after: string, ids: seq<string>, x: string)
    requires |ids| < |names| && NoDup(ids)
    requires forall m :: 0 <= m < |ids| ==> Util.FirstFree(ids[m], PreferredId(domain, names, before, after, m), ids[..m])
    requires Util.FirstFree(x, PreferredId(domain, names, before, after, |ids|), ids)
    ensures NoDup(ids + [x])
    ensures forall m :: 0 <= m < |ids| + 1 ==>
              Util.FirstFree((ids + [x])[m], PreferredId(domain, names, before, after, m), (ids + [x])[..m])
  {
    assert (ids + [x])[..|ids|] == ids;
    forall m | 0 <= m < |ids|
      ensures (ids + [x])[..m] == ids[..m]
    {
    }
  }

  // ------------------------------------------ Device / ToggleDevice state

  /** A state write `hass.states.set(entity_id, state, attributes)`. */
  datatype StateWrite = StateWrite(entityId: string, state: string, attributes: map<string, Value>)

  /** `get_state`: `Device` reports `Unknown`; a `ToggleDevice` reports `on` or `off`. */
  function GetState(toggle: bool, isOn: bool): (s: string)
    ensures toggle ==> (s == StateOn <==> isOn) && (s == StateOff <==> !isOn)
    ensures !toggle ==> s == "Unknown"
  {
    if !toggle then "Unknown" else if isOn then StateOn else StateOff
  }

  /** A device: its entity id (None until one is assigned) and what the real device last reported. */
  class Device {
    var entityId: Option<string>
    const toggle: bool
    var isOn: bool
    var attributes: map<string, Value>

    constructor(toggle: bool, isOn: bool, attributes: map<string, Value>)
      ensures entityId == None && this.toggle == toggle && this.isOn == isOn && this.attributes == attributes
    {
      entityId := None;
      this.toggle := toggle;
      this.isOn := isOn;
      this.attributes := attributes;
    }

    /**
     * `update_ha_state`: NoEntitySpecifiedError while the device has no
     * entity id; otherwise, after refreshing from the real device when asked
     * to (`reported` and `reportedAttributes` are the on/off state and the
     * attributes it reports), the state and attributes are written under the
     * device's entity id.
     */
    method UpdateHaState(forceRefresh: bool, reported: bool, reportedAttributes: map<string, Value>)
      returns (r: Result<StateWrite, Error>)
      modifies this
      ensures entityId == old(entityId)
      ensures old(entityId).None? ==> r == Err(NoEntitySpecifiedError) && isOn == old(isOn) && attributes == old(attributes)
      ensures old(entityId).Some? ==>
                && isOn == (if forceRefresh then reported else old(isOn))
                && attributes == (if forceRefresh then reportedAttributes else old(attributes))
                && r == Ok(StateWrite(entityId.value, GetState(toggle, isOn), attributes))
    {
      if entityId.None? {
        return Err(NoEntitySpecifiedError);
      }
      if forceRefresh {
        isOn := reported;
        attributes := reportedAttributes;
      }
      r := Ok(StateWrite(entityId.value, GetState(toggle, isOn), attributes));
    }
  }
}

=== FILE: homekit_cover.dfy ===
/**
 * The HomeKit garage door and window covers of
 * `homeassistant/components/homekit_controller/cover.py`: decoding of the
 * accessory's characteristics into cover state, the feature bitmask, and the
 * characteristic writes the commands send.
 */
module HomekitCover {
  import opened Wrappers
  import opened Values

  const StateOpen := "open"
  const StateClosed := "closed"
  const StateOpening := "opening"
  const StateClosing := "closing"
  const StateStopped := "stopped"

  const SupportOpen: bv32 := 1
  const SupportClose: bv32 := 2
  const SupportSetPosition: bv32 := 4
  const SupportStop: bv32 := 8
  const SupportOpenTilt: bv32 := 16
  const SupportCloseTilt: bv32 := 32
  const SupportStopTilt: bv32 := 64
  const SupportSetTiltPosition: bv32 := 128

  /** The characteristic types the covers read. */
  datatype Characteristic =
    | DoorStateCurrent | DoorStateTarget | ObstructionDetected
    | PositionState | PositionCurrent | PositionTarget | PositionHold
    | VerticalTiltCurrent | VerticalTiltTarget | HorizontalTiltCurrent | HorizontalTiltTarget

  /** `service.value(c)` for every characteristic: None for one the accessory lacks. */
  type Readings = map<Characteristic, Value>

  function Read(r: Readings, c: Characteristic): Value {
    if c in r then r[c] else VNone
  }

  /** A value as a key of an int-keyed dict: Python's `True` and `False` are the keys 1 and 0. */
  function IntKey(v: Value): Option<int> {
    match v
    case VInt(i) => Some(i)
    case VBool(b) => Some(if b then 1 else 0)
    case _ => None
  }

  /** One characteristic write of `put_characteristics`. */
  datatype CharWrite = CharWrite(aid: int, iid: int, value: Value)

  // ------------------------------------------------------- async_add_service

  datatype CoverKind = GarageDoor | Window

  /** A cover entity added for an accessory service: its kind and `{"aid", "iid"}`. */
  datatype NewCover = NewCover(kind: CoverKind, aid: int, iid: Value)

  /**
   * `async_add_service`: a garage door for `garage-door-opener`, a window
   * cover for `window-covering` or `window` (the result True); nothing for
   * any other type (False). KeyError when the service has no `iid` or `stype`.
   */
  function AddService(aid: int, service: map<string, Value>): (r: Result<Option<NewCover>, Error>)
    ensures "iid" !in service || "stype" !in service <==> r == Err(KeyError)
    ensures r.Ok? ==>
      var stype := service["stype"];
      && (stype == VStr("garage-door-opener") <==> r.value == Some(NewCover(GarageDoor, aid, service["iid"])))
      && (stype in [VStr("window-covering"), VStr("window")] <==> r.value == Some(NewCover(Window, aid, service["iid"])))
      && (r.value.None? <==> stype !in [VStr("garage-door-opener"), VStr("window-covering"), VStr("window")])
  {
    if "iid" !in service || "stype" !in service then Err(KeyError)
    else
      var stype := service["stype"];
      if stype == VStr("garage-door-opener") then Ok(Some(NewCover(GarageDoor, aid, service["iid"])))
      else if stype == VStr("window-covering") || stype == VStr("window") then Ok(Some(NewCover(Window, aid, service["iid"])))
      else Ok(None)
  }

  // ------------------------------------------------------------ garage door

  /** `CURRENT_GARAGE_STATE_MAP[code]`; KeyError for any other key. */
  function CurrentGarageState(code: Value): (r: Result<string, Error>)
    ensures r.Ok? <==> IntKey(code).Some? && 0 <= IntKey(code).value <= 4
    ensures r.Err? ==> r.error == KeyError
  {
    match IntKey(code)
    case Some(0) => Ok(StateOpen)
    case Some(1) => Ok(StateClosed)
    case Some(2) => Ok(StateOpening)
    case Some(3) => Ok(StateClosing)
    case Some(4) => Ok(StateStopped)
    case _ => Err(KeyError)
  }

  /** `TARGET_GARAGE_STATE_MAP[state]`; KeyError for any other state. */
  function TargetGarageState(state: string): (r: Result<int, Error>)
    ensures r.Ok? <==> state in {StateOpen, StateClosed, StateStopped}
  {
    if state == StateOpen then Ok(0)
    else if state == StateClosed then Ok(1)
    else if state == StateStopped then Ok(2)
    else Err(KeyError)
  }

  /** The five current codes decode to five different states. */
  lemma GarageStatesDistinct(a: int, b: int)
    requires 0 <= a <= 4 && 0 <= b <= 4 && a != b
    ensures CurrentGarageState(VInt(a)).value != CurrentGarageState(VInt(b)).value
  {
  }

  /** Open and close command the code that reads back as open and closed. */
  lemma GarageTargetMatchesCurrent(code: int)
    requires code == 0 || code == 1
    ensures TargetGarageState(CurrentGarageState(VInt(code)).value) == Ok(code)
  {
  }

  /** `state`: the current door state decoded; KeyError when the reading is missing or out of range. */
  function GarageState(r: Readings): (s: Result<string, Error>)
    ensures s.Ok? <==> DoorStateCurrent in r && IntKey(r[DoorStateCurrent]).Some? && 0 <= IntKey(r[DoorStateCurrent]).value <= 4
    ensures s.Ok? ==> s.value in {StateOpen, StateClosed, StateOpening, StateClosing, StateStopped}
    ensures s.Err? ==> s.error == KeyError
  {
    CurrentGarageState(Read(r, DoorStateCurrent))
  }

  /** `is_closed`, `is_closing` and `is_opening`: whether the decoded state is closed, closing and opening. */
  datatype Motion = Motion(isClosed: bool, isClosing: bool, isOpening: bool)

  function GarageMotion(r: Readings): (m: Result<Motion, Error>)
    ensures m.Ok? <==> GarageState(r).Ok?
    ensures m.Ok? ==> (m.value.isClosed <==> GarageState(r).value == StateClosed)
    ensures m.Ok? ==> (m.value.isClosing <==> GarageState(r).value == StateClosing)
    ensures m.Ok? ==> (m.value.isOpening <==> GarageState(r).value == StateOpening)
    ensures m.Ok? ==> !(m.value.isClosed && m.value.isClosing) && !(m.value.isClosed && m.value.isOpening)
                      && !(m.value.isClosing && m.value.isOpening)
  {
    match GarageState(r)
    case Err(e) => Err(e)
    case Ok(s) => Ok(Motion(s == StateClosed, s == StateClosing, s == StateOpening))
  }

  /** `set_door_state(state)`: one write of the target code to `door-state.target`. */
  function SetDoorState(aid: int, chars: map<string, int>, state: string): (r: Result<CharWrite, Error>)
    ensures r.Ok? <==> "door-state.target" in chars && TargetGarageState(state).Ok?
    ensures r.Ok? ==> r.value == CharWrite(aid, chars["door-state.target"], VInt(TargetGarageState(state).value))
  {
    if "door-state.target" !in chars then Err(KeyError)
    else
      match TargetGarageState(state)
      case Err(e) => Err(e)
      case Ok(code) => Ok(CharWrite(aid, chars["door-state.target"], VInt(code)))
  }

  /** `async_open_cover` and `async_close_cover` of the garage door: target 0 and 1. */
  lemma GarageOpenClose(aid: int, chars: map<string, int>)
    requires "door-state.target" in chars
    ensures SetDoorState(aid, chars, StateOpen) == Ok(CharWrite(aid, chars["door-state.target"], VInt(0)))
    ensures SetDoorState(aid, chars, StateClosed) == Ok(CharWrite(aid, chars["door-state.target"], VInt(1)))
  {
  }

  /** `device_state_attributes` of both covers: `obstruction-detected` only when the characteristic is truthy. */
  function ObstructionAttributes(r: Readings): (attrs: map<string, Value>)
    ensures "obstruction-detected" in attrs <==> Truthy(Read(r, ObstructionDetected))
    ensures attrs.Keys <= {"obstruction-detected"}
    ensures "obstruction-detected" in attrs ==> attrs["obstruction-detected"] == Read(r, ObstructionDetected)
  {
    var v := Read(r, ObstructionDetected);
    if Truthy(v) then map["obstruction-detected" := v] else map[]
  }

  // ----------------------------------------------------------- window cover

  const WindowBaseFeatures: bv32 := SupportOpen | SupportClose | SupportSetPosition
  const TiltFeatures: bv32 := SupportOpenTilt | SupportCloseTilt | SupportSetTiltPosition

  /** The window cover's feature set, which the accessory's characteristics extend while it is set up. */
  class WindowCover {
    var features: bv32

    /** The base features are always there, and only stop and the tilt features are ever added. */
    predicate Valid()
      reads this
    {
      features & WindowBaseFeatures == WindowBaseFeatures
      && features & !(WindowBaseFeatures | SupportStop | TiltFeatures) == 0
    }

    constructor()
      ensures Valid() && features == WindowBaseFeatures
    {
      features := WindowBaseFeatures;
    }

    /** `_setup_position_hold`: the cover can stop. */
    method SetupPositionHold()
      requires Valid()
      modifies this
      ensures Valid() && features == old(features) | SupportStop
    {
      features := features | SupportStop;
    }

    /** `_setup_vertical_tilt_current`: the cover can tilt. */
    method SetupVerticalTiltCurrent()
      requires Valid()
      modifies this
      ensures Valid() && features == old(features) | TiltFeatures
    {
      features := features | TiltFeatures;
    }

    /** `_setup_horizontal_tilt_current`: the cover can tilt. */
    method SetupHorizontalTiltCurrent()
      requires Valid()
      modifies this
      ensures Valid() && features == old(features) | TiltFeatures
    {
      features := features | TiltFeatures;
    }

    /** `supported_features`. */
    function SupportedFeatures(): (f: bv32)
      reads this
      requires Valid()
      ensures f & WindowBaseFeatures == WindowBaseFeatures
      ensures f & SupportStopTilt == 0
    {
      features
    }
  }

  /** Python's `v == 0`, which `False` also satisfies. */
  predicate EqualsZero(v: Value) {
    v == VInt(0) || v == VBool(false)
  }

  /** `is_closed`: the current position is 0. */
  function WindowIsClosed(r: Readings): (closed: bool)
    ensures closed <==> EqualsZero(Read(r, PositionCurrent))
  {
    EqualsZero(Read(r, PositionCurrent))
  }

  /** `CURRENT_WINDOW_STATE_MAP[code]`; KeyError for any other key. */
  function CurrentWindowState(code: Value): (r: Result<string, Error>)
    ensures r.Ok? <==> IntKey(code).Some? && 0 <= IntKey(code).value <= 2
  {
    match IntKey(code)
    case Some(0) => Ok(StateClosing)
    case Some(1) => Ok(StateOpening)
    case Some(2) => Ok(StateStopped)
    case _ => Err(KeyError)
  }

  /** `is_closing` and `is_opening` of the window: never both. */
  function WindowMotion(r: Readings): (m: Result<(bool, bool), Error>)
    ensures m.Ok? <==> CurrentWindowState(Read(r, PositionState)).Ok?
    ensures m.Ok? ==> (m.value.0 <==> IntKey(Read(r, PositionState)) == Some(0))
    ensures m.Ok? ==> (m.value.1 <==> IntKey(Read(r, PositionState)) == Some(1))
    ensures m.Ok? ==> !(m.value.0 && m.value.1)
  {
    match CurrentWindowState(Read(r, PositionState))
    case Err(e) => Err(e)
    case Ok(s) => Ok((s == StateClosing, s == StateOpening))
  }

  /** `current_cover_tilt_position`: the vertical tilt, or the horizontal tilt when the vertical one is falsy. */
  function TiltPosition(r: Readings): (t: Value)
    ensures Truthy(Read(r, VerticalTiltCurrent)) ==> t == Read(r, VerticalTiltCurrent)
    ensures !Truthy(Read(r, VerticalTiltCurrent)) ==> t == Read(r, HorizontalTiltCurrent)
  {
    var v := Read(r, VerticalTiltCurrent);
    if Truthy(v) then v else Read(r, HorizontalTiltCurrent)
  }

  /** `async_set_cover_position`: one write of the position to `position.target`. */
  function SetCoverPosition(aid: int, chars: map<string, int>, position: Value): (r: Result<CharWrite, Error>)
    ensures r.Ok? <==> "position.target" in chars
    ensures r.Ok? ==> r.value == CharWrite(aid, chars["position.target"], position)
  {
    if "position.target" in chars then Ok(CharWrite(aid, chars["position.target"], position)) else Err(KeyError)
  }

  /** `async_open_cover` and `async_close_cover` of the window: positions 100 and 0. */
  lemma WindowOpenClose(aid: int, chars: map<string, int>)
    requires "position.target" in chars
    ensures SetCoverPosition(aid, chars, VInt(100)) == Ok(CharWrite(aid, chars["position.target"], VInt(100)))
    ensures SetCoverPosition(aid, chars, VInt(0)) == Ok(CharWrite(aid, chars["position.target"], VInt(0)))
  {
  }

  /** A window commanded closed reads as closed once its current position reaches the target. */
  lemma ClosedAfterClose(aid: int, chars: map<string, int>, r: Readings)
    requires "position.target" in chars
    requires Read(r, PositionCurrent) == SetCoverPosition(aid, chars, VInt(0)).value.value
    ensures WindowIsClosed(r)
  {
  }

  /** `async_stop_cover`: one write of 1 to `position.hold`. */
  function StopCover(aid: int, chars: map<string, int>): (r: Result<CharWrite, Error>)
    ensures r.Ok? <==> "position.hold" in chars
    ensures r.Ok? ==> r.value == CharWrite(aid, chars["position.hold"], VInt(1))
  {
    if "position.hold" in chars then Ok(CharWrite(aid, chars["position.hold"], VInt(1))) else Err(KeyError)
  }

  /**
   * `async_set_cover_tilt_position`: the tilt goes to `vertical-tilt.target`
   * if the accessory has it, else to `horizontal-tilt.target`, else nothing
   * is sent.
   */
  function SetCoverTilt(aid: int, chars: map<string, int>, tilt: Value): (w: Option<CharWrite>)
    ensures "vertical-tilt.target" in chars ==> w == Some(CharWrite(aid, chars["vertical-tilt.target"], tilt))
    ensures "vertical-tilt.target" !in chars && "horizontal-tilt.target" in chars ==>
              w == Some(CharWrite(aid, chars["horizontal-tilt.target"], tilt))
    ensures w.None? <==> "vertical-tilt.target" !in chars && "horizontal-tilt.target" !in chars
  {
    if "vertical-tilt.target" in chars then Some(CharWrite(aid, chars["vertical-tilt.target"], tilt))
    else if "horizontal-tilt.target" in chars then Some(CharWrite(aid, chars["horizontal-tilt.target"], tilt))
    else None
  }
}

=== FILE: ip_webcam_sensor.dfy ===
/**
 * The Android IP Webcam sensor platform: one sensor per enabled sensor key
 * of a camera, whose state and unit are refreshed from the camera's status
 * and sensor data, and whose icon follows the battery level.
 *
 * The camera's `KEY_MAP` and `ICON_MAP` tables live in the
 * `android_ip_webcam` component and are parameters here; the camera object
 * is passed to each refresh as a snapshot of its data.
 */
module IpWebcamSensor {

  import opened Wrappers
  import opened Values
  import opened Strings

  const StateUnknown := "unknown"
  const AudioConnections := "audio_connections"
  const VideoConnections := "video_connections"
  const BatteryLevel := "battery_level"
  const ConnectionsUnit := "Connections"
  const DefaultIcon := "mdi:eye"

  /** The data point used when a sensor's container has no `data`: one reading whose value is 0. */
  const DefaultData: Value := VList([VList([VInt(0), VList([VInt(0)])])])

  /** What the camera object holds when a sensor refreshes. */
  datatype IpCam = IpCam(
    statusData: Option<map<string, Value>>,
    sensorData: Option<map<string, Value>>,
    enabledSensors: seq<string>)

  /** The discovery information the camera component hands to the platform. */
  datatype Discovery = Discovery(host: string, name: string, sensors: seq<string>)

  /** The entry of `KEY_MAP` for a sensor key, or the key itself. */
  function MappedName(keyMap: map<string, string>, sensor: string): string {
    if sensor in keyMap then keyMap[sensor] else sensor
  }

  /** The friendly name `"{name} {mapped}"` of a camera's sensor. */
  function SensorName(name: string, keyMap: map<string, string>, sensor: string): (r: string)
    ensures |r| == |name| + 1 + |MappedName(keyMap, sensor)|
    ensures r[..|name|] == name && r[|name|] == ' '
    ensures r[|name| + 1..] == MappedName(keyMap, sensor)
  {
    name + " " + MappedName(keyMap, sensor)
  }

  /** Two sensors of one camera share a name exactly when their mapped names agree. */
  lemma SensorNameInjective(name: string, keyMap: map<string, string>, a: string, b: string)
    ensures SensorName(name, keyMap, a) == SensorName(name, keyMap, b)
        <==> MappedName(keyMap, a) == MappedName(keyMap, b)
  {
    var na, nb := SensorName(name, keyMap, a), SensorName(name, keyMap, b);
    if na == nb {
      assert na[|name| + 1..] == MappedName(keyMap, a);
      assert nb[|name| + 1..] == MappedName(keyMap, b);
    }
  }

  /** A sensor's state and unit of measurement. */
  datatype Reading = Reading(state: Value, unit: Value)

  /** The outcome of one refresh (an exception, or none) and the reading left behind. */
  datatype Refreshed = Refreshed(outcome: Result<(), Error>, after: Reading)

  /**
   * The value a data point yields: `data_point[0][-1][0]` when the data
   * point and its first entry are truthy, nothing when either is empty,
   * and the exception Python raises when an index does not apply.
   */
  function DataPointState(dataPoint: Value): (r: Result<Option<Value>, Error>)
    ensures !Truthy(dataPoint) ==> r == Ok(None)
    ensures dataPoint.VList? && dataPoint.items != [] && !Truthy(dataPoint.items[0]) ==> r == Ok(None)
    ensures r.Ok? && r.value.Some? ==> Truthy(dataPoint)
  {
    if !Truthy(dataPoint) then Ok(None)
    else
      match Index(dataPoint, 0)
      case Err(e) => Err(e)
      case Ok(first) =>
        if !Truthy(first) then Ok(None)
        else
          match Index(first, -1)
          case Err(e) => Err(e)
          case Ok(last) =>
            match Index(last, 0)
            case Err(e) => Err(e)
            case Ok(v) => Ok(Some(v))
  }

  /**
   * A series whose first entry is `[timestamp, [value, ...]]` yields that
   * value, whatever follows it.
   */
  lemma DataPointStateOfSeries(timestamp: Value, values: seq<Value>, rest: seq<Value>)
    requires values != []
    ensures DataPointState(VList([VList([timestamp, VList(values)])] + rest)) == Ok(Some(values[0]))
  {
    var dp := VList([VList([timestamp, VList(values)])] + rest);
    assert Index(dp, 0) == Ok(VList([timestamp, VList(values)]));
  }

  /** Without a `data` entry a sensor reads 0, not its previous state. */
  lemma DefaultDataReadsZero()
    ensures DataPointState(DefaultData) == Ok(Some(VInt(0)))
  {
  }

  /** A refresh that can read the camera: both data sets are present and the sensor is enabled. */
  predicate Live(cam: IpCam, sensor: string) {
    cam.statusData.Some? && cam.sensorData.Some? && sensor in cam.enabledSensors
  }

  /** One `async_update` of sensor `sensor` from camera `cam`, starting from reading `before`. */
  function Refresh(cam: IpCam, sensor: string, before: Reading): (r: Refreshed)
    ensures !Live(cam, sensor) ==> r == Refreshed(Ok(()), Reading(VStr(StateUnknown), before.unit))
    ensures Live(cam, sensor) && sensor in {AudioConnections, VideoConnections} ==>
      r == Refreshed(Ok(()), Reading(Get(cam.statusData.value, sensor), VStr(ConnectionsUnit)))
    ensures (Live(cam, sensor) && sensor !in {AudioConnections, VideoConnections}
             && !Get(cam.sensorData.value, sensor).VDict?) ==> r == Refreshed(Err(AttributeError), before)
    ensures (Live(cam, sensor) && sensor !in {AudioConnections, VideoConnections}
             && Get(cam.sensorData.value, sensor).VDict?) ==>
      var container := Get(cam.sensorData.value, sensor).entries;
      var point := DataPointState(GetOr(container, "data", DefaultData));
      && r.after.unit == GetOr(container, "unit", before.unit)
      && r.outcome == (if point.Err? then Err(point.error) else Ok(()))
      && r.after.state == (if point.Ok? && point.value.Some? then point.value.value else before.state)
  {
    if !Live(cam, sensor) then Refreshed(Ok(()), Reading(VStr(StateUnknown), before.unit))
    else if sensor in {AudioConnections, VideoConnections} then
      Refreshed(Ok(()), Reading(Get(cam.statusData.value, sensor), VStr(ConnectionsUnit)))
    else
      match Get(cam.sensorData.value, sensor)
      case VDict(container) =>
        var unit := GetOr(container, "unit", before.unit);
        (match DataPointState(GetOr(container, "data", DefaultData))
         case Err(e) => Refreshed(Err(e), Reading(before.state, unit))
         case Ok(None) => Refreshed(Ok(()), Reading(before.state, unit))
         case Ok(Some(v)) => Refreshed(Ok(()), Reading(v, unit)))
      case _ => Refreshed(Err(AttributeError), before)
  }

  /** Refreshing twice from the same camera data leaves what refreshing once left, with the same outcome. */
  lemma RefreshIdempotent(cam: IpCam, sensor: string, before: Reading)
    ensures Refresh(cam, sensor, Refresh(cam, sensor, before).after) == Refresh(cam, sensor, before)
  {
  }

  /**
   * The outcome and reading of a refresh do not depend on the reading
   * before it once the camera supplies both a value and a unit.
   */
  lemma RefreshForgetsPast(cam: IpCam, sensor: string, a: Reading, b: Reading)
    requires Live(cam, sensor) && sensor !in {AudioConnections, VideoConnections}
    requires Get(cam.sensorData.value, sensor).VDict?
    requires "unit" in Get(cam.sensorData.value, sensor).entries
    requires DataPointState(GetOr(Get(cam.sensorData.value, sensor).entries, "data", DefaultData)).Ok?
    requires DataPointState(GetOr(Get(cam.sensorData.value, sensor).entries, "data", DefaultData)).value.Some?
    ensures Refresh(cam, sensor, a) == Refresh(cam, sensor, b)
  {
  }

  /** An IP Webcam sensor entity. */
  class Sensor {
    const host: string
    const sensor: string
    const name: string
    var state: Value
    var unit: Value

    /** A new sensor, named after its camera and its mapped key, with no state and no unit yet. */
    constructor(cameraName: string, host: string, keyMap: map<string, string>, sensor: string)
      ensures this.host == host && this.sensor == sensor
      ensures name == SensorName(cameraName, keyMap, sensor)
      ensures state == VNone && unit == VNone
    {
      this.host := host;
      this.sensor := sensor;
      name := SensorName(cameraName, keyMap, sensor);
      state := VNone;
      unit := VNone;
    }

    /** Retrieves the latest state and unit from the camera's data. */
    method AsyncUpdate(cam: IpCam) returns (r: Result<(), Error>)
      modifies this
      ensures Refreshed(r, Reading(state, unit)) == Refresh(cam, sensor, old(Reading(state, unit)))
    {
      if cam.statusData.None? || cam.sensorData.None? {
        state := VStr(StateUnknown);
        return Ok(());
      }
      if sensor !in cam.enabledSensors {
        state := VStr(StateUnknown);
        return Ok(());
      }
      if sensor in {AudioConnections, VideoConnections} {
        state := Get(cam.statusData.value, sensor);
        unit := VStr(ConnectionsUnit);
        return Ok(());
      }
      var container := Get(cam.sensorData.value, sensor);
      if !container.VDict? {
        return Err(AttributeError);
      }
      unit := GetOr(container.entries, "unit", unit);
      var point := DataPointState(GetOr(container.entries, "data", DefaultData));
      match point
      case Err(e) =>
        return Err(e);
      case Ok(None) =>
        return Ok(());
      case Ok(Some(v)) =>
        state := v;
        return Ok(());
    }
  }

  /**
   * Sets up the sensors of a discovered camera: nothing is added without
   * discovery information, a camera unknown to the component raises
   * `KeyError`, and otherwise one sensor per configured key is added, in
   * order.
   */
  method AsyncSetupPlatform(discovery: Option<Discovery>, cams: map<string, IpCam>, keyMap: map<string, string>)
    returns (r: Result<Option<seq<Sensor>>, Error>)
    ensures discovery.None? ==> r == Ok(None)
    ensures discovery.Some? && discovery.value.host !in cams ==> r == Err(KeyError)
    ensures discovery.Some? && discovery.value.host in cams ==> r.Ok? && r.value.Some?
    ensures r.Ok? && r.value.Some? ==>
      var d := discovery.value;
      var added := r.value.value;
      && |added| == |d.sensors|
      && forall i :: 0 <= i < |added| ==>
           && fresh(added[i])
           && added[i].host == d.host && added[i].sensor == d.sensors[i]
           && added[i].name == SensorName(d.name, keyMap, d.sensors[i])
           && added[i].state == VNone && added[i].unit == VNone
  {
    if discovery.None? {
      return Ok(None);
    }
    var d := discovery.value;
    if d.host !in cams {
      return Err(KeyError);
    }
    var added: seq<Sensor> := [];
    for i := 0 to |d.sensors|
      invariant |added| == i
      invariant forall k :: 0 <= k < i ==>
        && fresh(added[k])
        && added[k].host == d.host && added[k].sensor == d.sensors[k]
        && added[k].name == SensorName(d.name, keyMap, d.sensors[k])
        && added[k].state == VNone && added[k].unit == VNone
    {
      var s := new Sensor(d.name, d.host, keyMap, d.sensors[i]);
      added := added + [s];
    }
    return Ok(Some(added));
  }

  /** Python's `int(v)` on the value types of the model. */
  function IntOf(v: Value): (r: Result<int, Error>)
    ensures v.VInt? ==> r == Ok(v.i)
    ensures v.VBool? ==> r == Ok(if v.b then 1 else 0)
    ensures v.VStr? ==> r == (if ParseInt(v.s).Some? then Ok(ParseInt(v.s).value) else Err(ValueError))
    ensures (v.VNone? || v.VList? || v.VDict?) ==> r == Err(TypeError)
  {
    match v
    case VInt(i) => Ok(i)
    case VBool(b) => Ok(if b then 1 else 0)
    case VStr(s) => if ParseInt(s).Some? then Ok(ParseInt(s).value) else Err(ValueError)
    case _ => Err(TypeError)
  }

  function Abs(x: int): nat {
    if x < 0 then -x else x
  }

  /** Python's `round(n, -1)` on an integer: the nearest multiple of ten, ties going to the even multiple. */
  function RoundHalfEven10(n: int): (r: int)
    ensures r % 10 == 0
    ensures Abs(r - n) <= 5
    ensures Abs(r - n) == 5 ==> (r / 10) % 2 == 0
  {
    var q, m := n / 10, n % 10;
    if m < 5 then q * 10
    else if m > 5 then (q + 1) * 10
    else if q % 2 == 0 then q * 10
    else (q + 1) * 10
  }

  /** No multiple of ten lies nearer to `n` than its rounding. */
  lemma RoundHalfEven10Nearest(n: int, m: int)
    requires m % 10 == 0
    ensures Abs(RoundHalfEven10(n) - n) <= Abs(m - n)
  {
  }

  /** The battery icon for a battery-level state `state` whose integer value is `level`, as the platform picks it. */
  function BatteryIcon(state: Value, level: int): (r: string)
    ensures RoundHalfEven10(level) < 10 ==> r == "mdi:battery-outline"
    ensures RoundHalfEven10(level) >= 10 && state == VInt(100) ==> r == "mdi:battery"
    ensures RoundHalfEven10(level) >= 10 && state != VInt(100) ==>
      r == "mdi:battery-" + NatToString(RoundHalfEven10(level))
  {
    var rounded := RoundHalfEven10(level);
    if rounded < 10 then "mdi:battery-outline"
    else if state == VInt(100) then "mdi:battery"
    else "mdi:battery-" + NatToString(rounded)
  }

  /** The icon of a sensor: the battery icon for a battery level with a state, else the `ICON_MAP` entry or the eye. */
  function Icon(sensor: string, state: Value, iconMap: map<string, string>): (r: Result<string, Error>)
    ensures r.Err? <==> sensor == BatteryLevel && state != VNone && IntOf(state).Err?
    ensures r.Err? ==> r.error == IntOf(state).error
    ensures sensor == BatteryLevel && state != VNone && IntOf(state).Ok? ==>
      r == Ok(BatteryIcon(state, IntOf(state).value))
    ensures (sensor != BatteryLevel || state == VNone) ==>
      r == Ok(if sensor in iconMap then iconMap[sensor] else DefaultIcon)
  {
    if sensor == BatteryLevel && state != VNone then
      match IntOf(state)
      case Err(e) => Err(e)
      case Ok(level) => Ok(BatteryIcon(state, level))
    else Ok(if sensor in iconMap then iconMap[sensor] else DefaultIcon)
  }

  /** The battery icons the platform means to choose from: outline, the tens from 10 to 90, and full. */
  ghost const BatteryIcons: set<string> :=
    {"mdi:battery-outline", "mdi:battery"} + set k | 1 <= k <= 9 :: "mdi:battery-" + NatToString(10 * k)

  /**
   * As written, a battery at 97 % is rounded to 100 but is not equal to
   * 100, so it gets `mdi:battery-100`, which is none of the battery icons.
   */
  lemma BatteryIconNearFull(iconMap: map<string, string>)
    ensures Icon(BatteryLevel, VInt(97), iconMap) == Ok("mdi:battery-100")
    ensures "mdi:battery-100" !in BatteryIcons
  {
    assert RoundHalfEven10(97) == 100;
    assert NatToString(1) == "1";
    assert NatToString(10) == "10";
    assert NatToString(100) == "100";
    assert BatteryIcon(VInt(97), 97) == "mdi:battery-" + NatToString(100);
    assert Icon(BatteryLevel, VInt(97), iconMap) == Ok(BatteryIcon(VInt(97), 97));
    assert "mdi:battery-" + "100" == "mdi:battery-100";
    if "mdi:battery-100" in BatteryIcons {
      var k :| 1 <= k <= 9 && "mdi:battery-100" == "mdi:battery-" + NatToString(10 * k);
      assert ("mdi:battery-" + NatToString(10 * k))[12..] == NatToString(10 * k);
      assert "mdi:battery-100"[12..] == NatToString(100);
      NatToStringInjective(10 * k, 100);
      assert false;
    }
  }

  /** The battery icon as evidently intended: a level that rounds to 100 shows the full battery. */
  function BatteryIconCorrected(level: int): (r: string)
    ensures 0 <= level <= 100 ==> r in BatteryIcons
  {
    var rounded := RoundHalfEven10(level);
    if rounded < 10 then "mdi:battery-outline"
    else if rounded == 100 then "mdi:battery"
    else
      assert 0 <= level <= 100 ==> "mdi:battery-" + NatToString(10 * (rounded / 10)) in BatteryIcons;
      "mdi:battery-" + NatToString(rounded)
  }

  /** The sensor icon with the corrected battery icon. */
  function IconCorrected(sensor: string, state: Value, iconMap: map<string, string>): (r: Result<string, Error>)
    ensures r.Err? <==> Icon(sensor, state, iconMap).Err?
    ensures sensor == BatteryLevel && state.VInt? && 0 <= state.i <= 100 ==> r.Ok? && r.value in BatteryIcons
  {
    if sensor == BatteryLevel && state != VNone then
      match IntOf(state)
      case Err(e) => Err(e)
      case Ok(level) => Ok(BatteryIconCorrected(level))
    else Ok(if sensor in iconMap then iconMap[sensor] else DefaultIcon)
  }

  /**
   * The corrected icon differs from the written one only for levels that
   * round to 100 without being the integer 100: an integer from 95 to 99, or
   * a numeric string that rounds to 100 (a string never equals the integer).
   */
  lemma IconCorrectedAgrees(sensor: string, state: Value, iconMap: map<string, string>)
    requires !(sensor == BatteryLevel && state.VInt? && RoundHalfEven10(state.i) == 100 && state.i != 100)
    requires !(sensor == BatteryLevel && state.VStr? && ParseInt(state.s).Some? && RoundHalfEven10(ParseInt(state.s).value) == 100)
    ensures IconCorrected(sensor, state, iconMap) == Icon(sensor, state, iconMap)
  {
  }

  /** Conversely, on exactly those levels the written icon is `mdi:battery-100` and the corrected one the full battery. */
  lemma IconCorrectedDiffers(state: Value, iconMap: map<string, string>)
    requires (state.VInt? && RoundHalfEven10(state.i) == 100 && state.i != 100)
          || (state.VStr? && ParseInt(state.s).Some? && RoundHalfEven10(ParseInt(state.s).value) == 100)
    ensures Icon(BatteryLevel, state, iconMap) == Ok("mdi:battery-100")
    ensures IconCorrected(BatteryLevel, state, iconMap) == Ok("mdi:battery")
  {
    BatteryIconsNearFull(state, IntOf(state).value);
  }

  /** A level rounding to 100, with a state other than the integer 100, gets `mdi:battery-100` as written and the full battery corrected. */
  lemma BatteryIconsNearFull(state: Value, level: int)
    requires RoundHalfEven10(level) == 100 && state != VInt(100)
    ensures BatteryIcon(state, level) == "mdi:battery-100"
    ensures BatteryIconCorrected(level) == "mdi:battery"
  {
    assert NatToString(100) == "100" by {
      assert NatToString(10) == "10";
    }
  }
}

=== FILE: ordered_set.dfy ===
/**
 * `OrderedSet` of `homeassistant/util.py`: a set that remembers insertion
 * order. The doubly linked list and its key-to-node map are represented by
 * the sequence the list threads (`elems`, head to tail) and the key set of
 * the map (`members`).
 */
module OrderedSets {
  import opened Wrappers
  import opened Values
  import opened Seqs

  class OrderedSet<T(==)> {
    /** The keys in list order: what iteration yields. */
    var elems: seq<T>
    /** The keys of the key-to-node map. */
    var members: set<T>

    ghost predicate Valid()
      reads this
    {
      NoDup(elems) && members == set x | x in elems
    }

    /** `OrderedSet(iterable)`: the empty set, then every item of `iterable` added in turn. */
    constructor(iterable: Option<seq<T>>)
      ensures Valid()
      ensures iterable.None? ==> elems == []
      ensures iterable.Some? ==> elems == Dedup(iterable.value)
    {
      elems := [];
      members := {};
      new;
      if iterable.Some? {
        Update([iterable.value]);
        assert [] + Concat([iterable.value]) == iterable.value;
      }
    }

    /** `len(s)`: the size of the key map, which is the number of keys in the list. */
    method Len() returns (n: nat)
      requires Valid()
      ensures n == |elems|
    {
      NoDupCard(elems);
      n := |members|;
    }

    /** `key in s`. */
    method Contains(key: T) returns (b: bool)
      requires Valid()
      ensures b <==> key in elems
    {
      b := key in members;
    }

    /** `add`: a new key is linked in at the tail; an existing key changes nothing. */
    method Add(key: T)
      requires Valid()
      modifies this
      ensures Valid()
      ensures elems == if key in old(elems) then old(elems) else old(elems) + [key]
    {
      if key !in members {
        elems := elems + [key];
        members := members + {key};
      }
    }

    /** `discard`: a present key is unlinked; an absent key changes nothing. */
    method Discard(key: T)
      requires Valid()
      modifies this
      ensures Valid()
      ensures key !in elems
      ensures elems == if key in old(elems) then Remove(old(elems), key) else old(elems)
    {
      if key in members {
        RemoveNoDup(elems, key);
        elems := Remove(elems, key);
        members := members - {key};
      }
    }

    /** `reversed(s)`: walks the list from the tail back to the head. */
    method Reversed() returns (r: seq<T>)
      requires Valid()
      ensures r == Reverse(elems)
    {
      r := [];
      var i := |elems|;
      while i > 0
        invariant 0 <= i <= |elems|
        invariant r == Reverse(elems[i..])
      {
        assert elems[i - 1..][1..] == elems[i..];
        r := r + [elems[i - 1]];
        i := i - 1;
      }
    }

    /**
     * `pop(last)`: KeyError on an empty set; otherwise removes and returns
     * the newest key (`last`) or the oldest one.
     */
    method Pop(last: bool) returns (r: Result<T, Error>)
      requires Valid()
      modifies this
      ensures Valid()
      ensures old(elems) == [] ==> r == Err(KeyError) && elems == old(elems)
      ensures old(elems) != [] && last ==>
                r == Ok(old(elems)[|old(elems)| - 1]) && elems == old(elems)[..|old(elems)| - 1]
      ensures old(elems) != [] && !last ==>
                r == Ok(old(elems)[0]) && elems == old(elems)[1..]
    {
      var n := Len();
      if n == 0 {
        return Err(KeyError);
      }
      var key;
      if last {
        key := elems[|elems| - 1];
        RemoveLast(elems);
      } else {
        key := elems[0];
      }
      Discard(key);
      r := Ok(key);
    }

    /** `update(*args)`: every item of every argument added in turn. */
    method Update(args: seq<seq<T>>)
      requires Valid()
      modifies this
      ensures Valid()
      ensures elems == Dedup(old(elems) + Concat(args))
    {
      var items := Concat(args);
      DedupOfNoDup(elems);
      assert old(elems) + items[..0] == elems;
      var i := 0;
      while i < |items|
        invariant 0 <= i <= |items|
        invariant Valid()
        invariant elems == Dedup(old(elems) + items[..i])
      {
        var prefix := old(elems) + items[..i];
        assert old(elems) + items[..i + 1] == prefix + [items[i]];
        DedupSnoc(prefix, items[i]);
        DedupSpec(prefix);
        Add(items[i]);
        i := i + 1;
      }
      assert items[..i] == items;
    }

    /** `==` against another OrderedSet: same length and same iteration order. */
    method Equals(other: OrderedSet<T>) returns (b: bool)
      requires Valid() && other.Valid()
      ensures b <==> elems == other.elems
    {
      b := |elems| == |other.elems| && elems == other.elems;
    }

    /** `==` against any other iterable: the same keys, order ignored. */
    method EqualsIterable(other: seq<T>) returns (b: bool)
      requires Valid()
      ensures b <==> (set x | x in elems) == (set x | x in other)
    {
      b := members == set x | x in other;
    }
  }
}

=== FILE: scheduler_time.dfy ===
/**
 * The daily time event of `homeassistant/components/scheduler/time.py`.
 * A point in time is a day number (days since 1970-01-01, a Thursday) and
 * the microseconds elapsed in that day; the clock is passed in.
 */
module SchedulerTime {
  import opened Wrappers
  import opened Values
  import opened Strings

  const MicrosPerDay := 86_400_000_000
  /** Python's weekday (Monday = 0) of day 0, 1970-01-01. */
  const EpochWeekday := 3

  datatype Instant = Instant(day: int, micros: int)

  ghost predicate ValidInstant(t: Instant) {
    0 <= t.micros < MicrosPerDay
  }

  /** Python's `<` on datetimes. */
  predicate Before(a: Instant, b: Instant) {
    a.day < b.day || (a.day == b.day && a.micros < b.micros)
  }

  /** `datetime.weekday()`: Monday is 0, Sunday 6. */
  function Weekday(day: int): (w: int)
    ensures 0 <= w < 7
  {
    (day + EpochWeekday) % 7
  }

  /** The part of the `schedule` argument the time event reads: its `days` (weekday numbers). */
  datatype Schedule = Schedule(days: set<int>)

  /** `TimeEventListener`: the schedule, the service to call and the time of day. */
  datatype TimeEventListener = TimeEventListener(schedule: Schedule, service: Value, hour: int, minute: int, second: int)

  /**
   * `create`: `service` and `time` are looked up (KeyError when absent);
   * `time` must be a string (AttributeError otherwise) of exactly three
   * `:`-separated integers (ValueError otherwise).
   */
  function Create(schedule: Schedule, data: map<string, Value>): (r: Result<TimeEventListener, Error>)
    ensures "service" !in data ==> r == Err(KeyError)
    ensures "service" in data && "time" !in data ==> r == Err(KeyError)
    ensures "service" in data && "time" in data && !data["time"].VStr? ==> r == Err(AttributeError)
    ensures r.Ok? ==>
      && data["time"].VStr?
      && var parts := Split(data["time"].s, ':');
      && |parts| == 3
      && ParseInt(parts[0]).Some? && ParseInt(parts[1]).Some? && ParseInt(parts[2]).Some?
      && r.value == TimeEventListener(schedule, data["service"],
           ParseInt(parts[0]).value, ParseInt(parts[1]).value, ParseInt(parts[2]).value)
    ensures "service" in data && "time" in data && data["time"].VStr? ==>
      var parts := Split(data["time"].s, ':');
      (r.Ok? <==> |parts| == 3 && ParseInt(parts[0]).Some? && ParseInt(parts[1]).Some? && ParseInt(parts[2]).Some?)
      && (r.Err? ==> r.error == ValueError)
  {
    if "service" !in data || "time" !in data then Err(KeyError)
    else if !data["time"].VStr? then Err(AttributeError)
    else
      var parts := Split(data["time"].s, ':');
      // a part that is not an integer and a count other than three both raise ValueError
      if |parts| != 3 || ParseInt(parts[0]).None? || ParseInt(parts[1]).None? || ParseInt(parts[2]).None? then
        Err(ValueError)
      else Ok(TimeEventListener(schedule, data["service"],
                ParseInt(parts[0]).value, ParseInt(parts[1]).value, ParseInt(parts[2]).value))
  }

  /** The text `H:M:S` for non-negative numbers. */
  function TimeText(h: nat, m: nat, s: nat): string {
    NatToString(h) + ":" + NatToString(m) + ":" + NatToString(s)
  }

  /** A decimal form holds no `:`. */
  lemma NoColonInNumber(n: nat)
    ensures ':' !in NatToString(n)
  {
  }

  /** `H:M:S` splits at its two colons. */
  lemma SplitTimeText(h: nat, m: nat, s: nat)
    ensures Split(TimeText(h, m, s), ':') == [NatToString(h), NatToString(m), NatToString(s)]
  {
    var a, b, c := NatToString(h), NatToString(m), NatToString(s);
    NoColonInNumber(h);
    NoColonInNumber(m);
    NoColonInNumber(s);
    SplitFree(c, [], ':');
    SplitFree(b, c, ':');
    assert TimeText(h, m, s) == a + [':'] + (b + [':'] + c);
    SplitFree(a, b + [':'] + c, ':');
  }

  /** `create` reads back the numbers of a `H:M:S` text. */
  lemma CreateTimeText(schedule: Schedule, service: Value, h: nat, m: nat, s: nat)
    ensures Create(schedule, map["service" := service, "time" := VStr(TimeText(h, m, s))])
              == Ok(TimeEventListener(schedule, service, h, m, s))
  {
    var text := TimeText(h, m, s);
    var data := map["service" := service, "time" := VStr(text)];
    assert "service" in data && "time" in data && data["time"] == VStr(text) && data["service"] == service;
    SplitTimeText(h, m, s);
    var parts := Split(text, ':');
    ParseIntOfNatToString(h);
    ParseIntOfNatToString(m);
    ParseIntOfNatToString(s);
    assert ParseInt(parts[0]) == Some(h) && ParseInt(parts[1]) == Some(m) && ParseInt(parts[2]) == Some(s);
  }

  /** The microseconds of the day at `hour:minute:second`. */
  function TimeOfDay(hour: int, minute: int, second: int): int {
    ((hour * 60 + minute) * 60 + second) * 1_000_000
  }

  /** `datetime.replace` accepts the hour, minute and second. */
  predicate ValidTime(hour: int, minute: int, second: int) {
    0 <= hour < 24 && 0 <= minute < 60 && 0 <= second < 60
  }

  lemma TimeOfDayInDay(hour: int, minute: int, second: int)
    requires ValidTime(hour, minute, second)
    ensures 0 <= TimeOfDay(hour, minute, second) < MicrosPerDay
  {
  }

  /** Day `d` at time of day `tod` is a time the loop of `schedule` accepts. */
  ghost predicate Fits(now: Instant, tod: int, days: set<int>, d: int) {
    !Before(Instant(d, tod), now) && Weekday(d) in days
  }

  /** Some accepted day lies at most seven days ahead, when the schedule has a weekday. */
  lemma FitsWithinWeek(now: Instant, tod: int, days: set<int>, w: int)
    requires ValidInstant(now) && 0 <= tod < MicrosPerDay
    requires w in days && 0 <= w < 7
    ensures exists d :: now.day <= d <= now.day + 7 && Fits(now, tod, days, d)
  {
    var first := now.day + 1;
    var k := (w - Weekday(first)) % 7;
    var d := first + k;
    assert Weekday(d) == w by {
      assert (first + k + EpochWeekday) % 7 == (Weekday(first) + k) % 7;
      assert (Weekday(first) + k) % 7 == w % 7;
    }
    assert Fits(now, tod, days, d);
  }

  /**
   * `TimeEventListener.schedule`: the configured time of day on today, then
   * on each following day, until it is not before `now` and falls on a
   * scheduled weekday; the time found is where the one callback is
   * registered. ValueError when the hour, minute or second is out of range.
   * The loop of the source never ends when no weekday 0..6 is scheduled;
   * such schedules are excluded.
   */
  method ScheduleNext(listener: TimeEventListener, now: Instant) returns (r: Result<Instant, Error>)
    requires ValidInstant(now)
    requires exists w :: w in listener.schedule.days && 0 <= w < 7
    ensures !ValidTime(listener.hour, listener.minute, listener.second) <==> r == Err(ValueError)
    ensures r.Ok? ==>
      var t := r.value;
      && t.micros == TimeOfDay(listener.hour, listener.minute, listener.second)
      && !Before(t, now)
      && Weekday(t.day) in listener.schedule.days
      && now.day <= t.day <= now.day + 7
      && forall d :: now.day <= d < t.day ==> !Fits(now, t.micros, listener.schedule.days, d)
  {
    if !ValidTime(listener.hour, listener.minute, listener.second) {
      return Err(ValueError);
    }
    var tod := TimeOfDay(listener.hour, listener.minute, listener.second);
    TimeOfDayInDay(listener.hour, listener.minute, listener.second);
    var days := listener.schedule.days;
    ghost var w :| w in days && 0 <= w < 7;
    FitsWithinWeek(now, tod, days, w);
    var next := Instant(now.day, tod);
    while Before(next, now) || Weekday(next.day) !in days
      invariant next.micros == tod && now.day <= next.day <= now.day + 7
      invariant forall d :: now.day <= d < next.day ==> !Fits(now, tod, days, d)
      decreases now.day + 7 - next.day
    {
      next := Instant(next.day + 1, tod);
    }
    r := Ok(next);
  }
}

=== FILE: seqs.dfy ===
/**
 * Sequence vocabulary shared by the model: duplicate-freedom, Python's
 * `list.remove`, first-occurrence de-duplication and reversal.
 */
module Seqs {

  /** No element occurs twice. */
  ghost predicate NoDup<T>(s: seq<T>) {
    forall i, j :: 0 <= i < j < |s| ==> s[i] != s[j]
  }

  /**
   * Python's `list.remove(x)` for an element that is present: the first
   * occurrence of `x` is dropped and the other elements keep their order.
   */
  function Remove<T(==)>(s: seq<T>, x: T): (r: seq<T>)
    requires x in s
    ensures |r| == |s| - 1
    ensures r == s[..IndexOf(s, x)] + s[IndexOf(s, x) + 1..]
    ensures multiset(r) == multiset(s) - multiset{x}
    ensures forall y :: y in r ==> y in s
  {
    var i := IndexOf(s, x);
    assert s == s[..i] + [x] + s[i + 1..];
    s[..i] + s[i + 1..]
  }

  /** Removing from a duplicate-free list removes exactly that element and keeps the rest duplicate-free. */
  lemma {:induction false} RemoveNoDup<T>(s: seq<T>, x: T)
    requires x in s && NoDup(s)
    ensures NoDup(Remove(s, x))
    ensures forall y :: y in Remove(s, x) ==> y in s && y != x
    ensures forall y :: y in s && y != x ==> y in Remove(s, x)
  {
    assert s == [s[0]] + s[1..];
    assert NoDup(s[1..]);
    if s[0] != x {
      RemoveNoDup(s[1..], x);
      assert s[0] !in s[1..];
    }
  }

  /** The elements of `s`, each kept at its first occurrence. */
  function Dedup<T(==)>(s: seq<T>): (r: seq<T>)
    decreases |s|
  {
    if s == [] then []
    else
      var d := Dedup(s[..|s| - 1]);
      if s[|s| - 1] in d then d else d + [s[|s| - 1]]
  }

  /** Dedup keeps exactly the elements of its input, once each. */
  lemma {:induction false} DedupSpec<T>(s: seq<T>)
    ensures NoDup(Dedup(s))
    ensures forall x :: x in Dedup(s) ==> x in s
    ensures forall x :: x in s ==> x in Dedup(s)
  {
    if s != [] {
      var p := s[..|s| - 1];
      DedupSpec(p);
      assert s == p + [s[|s| - 1]];
    }
  }

  /** Dedup of a list with one more element at the end: the element is appended unless it was already there. */
  lemma DedupSnoc<T>(s: seq<T>, x: T)
    ensures Dedup(s + [x]) == if x in s then Dedup(s) else Dedup(s) + [x]
  {
    assert (s + [x])[..|s|] == s;
    DedupSpec(s);
  }

  /** Dedup of a duplicate-free list is that list. */
  lemma {:induction false} DedupOfNoDup<T>(s: seq<T>)
    requires NoDup(s)
    ensures Dedup(s) == s
  {
    if s != [] {
      var p := s[..|s| - 1];
      assert NoDup(p);
      DedupOfNoDup(p);
      DedupSpec(p);
    }
  }

  /** Dedup is idempotent. */
  lemma DedupIdempotent<T>(s: seq<T>)
    ensures Dedup(Dedup(s)) == Dedup(s)
  {
    DedupSpec(s);
    DedupOfNoDup(Dedup(s));
  }

  /** Dedup of an extended list extends the old Dedup (never reorders what is already there). */
  lemma {:induction false} DedupPrefix<T>(s: seq<T>, t: seq<T>)
    ensures Dedup(s) <= Dedup(s + t)
    decreases |t|
  {
    if t != [] {
      var u := s + t[..|t| - 1];
      DedupPrefix(s, t[..|t| - 1]);
      assert (s + t)[..|s + t| - 1] == u;
    } else {
      assert s + t == s;
    }
  }

  /** Index of the first occurrence of `x`. */
  function IndexOf<T(==)>(s: seq<T>, x: T): (i: nat)
    requires x in s
    ensures i < |s| && s[i] == x && x !in s[..i]
  {
    if s[0] == x then 0 else 1 + IndexOf(s[1..], x)
  }

  /**
   * Dedup keeps first-occurrence order: an element of the result comes
   * before another exactly when its first occurrence in the input does.
   */
  lemma {:induction false} DedupOrder<T>(s: seq<T>, i: nat, j: nat)
    requires i < j < |Dedup(s)|
    ensures Dedup(s)[i] in s && Dedup(s)[j] in s
    ensures IndexOf(s, Dedup(s)[i]) < IndexOf(s, Dedup(s)[j])
    decreases |s|
  {
    DedupSpec(s);
    var p := s[..|s| - 1];
    var d := Dedup(p);
    DedupSpec(p);
    var x, y := Dedup(s)[i], Dedup(s)[j];
    assert x in Dedup(s) && y in Dedup(s);
    assert s == p + [s[|s| - 1]];
    assert p <= s;
    IndexOfPrefix(s, p, x);
    IndexOfPrefix(s, p, y);
    if j < |d| {
      DedupOrder(p, i, j);
    } else {
      // y is the last element of s, seen for the first time there
      assert y == s[|s| - 1] && y !in p;
      assert x in p by { assert x == d[i]; }
    }
  }

  /** The first occurrence of an element of a prefix lies in that prefix. */
  lemma IndexOfPrefix<T>(s: seq<T>, p: seq<T>, x: T)
    requires p <= s && x in s
    ensures x in p ==> IndexOf(s, x) == IndexOf(p, x)
    ensures x !in p ==> IndexOf(s, x) >= |p|
  {
    var k := IndexOf(s, x);
    if x in p {
      var k' := IndexOf(p, x);
      assert s[..k'] == p[..k'];
    }
  }

  /** Removing the last element of a duplicate-free list drops the final position. */
  lemma {:induction false} RemoveLast<T>(s: seq<T>)
    requires s != [] && NoDup(s)
    ensures Remove(s, s[|s| - 1]) == s[..|s| - 1]
  {
    if |s| > 1 {
      assert s[0] != s[|s| - 1];
      assert NoDup(s[1..]);
      RemoveLast(s[1..]);
      assert s[1..][..|s| - 2] == s[1..|s| - 1];
      assert s[..|s| - 1] == [s[0]] + s[1..|s| - 1];
    }
  }

  /** The concatenation of a list of lists, as `itertools.chain(*lists)` yields it. */
  function Concat<T>(lists: seq<seq<T>>): seq<T> {
    if lists == [] then [] else lists[0] + Concat(lists[1..])
  }

  /** The concatenation holds exactly the elements of the lists. */
  lemma {:induction false} ConcatMembers<T>(lists: seq<seq<T>>)
    ensures forall x :: x in Concat(lists) ==> exists l :: l in lists && x in l
    ensures forall l, x :: l in lists && x in l ==> x in Concat(lists)
  {
    if lists != [] {
      ConcatMembers(lists[1..]);
      assert forall l :: l in lists ==> l == lists[0] || l in lists[1..];
    }
  }

  /** The reversal of a sequence. */
  function Reverse<T>(s: seq<T>): (r: seq<T>)
    ensures |r| == |s|
    ensures forall i :: 0 <= i < |s| ==> r[i] == s[|s| - 1 - i]
  {
    if s == [] then [] else Reverse(s[1..]) + [s[0]]
  }

  /** The set of the elements of a duplicate-free sequence has as many members as the sequence. */
  lemma {:induction false} NoDupCard<T>(s: seq<T>)
    requires NoDup(s)
    ensures |set x | x in s| == |s|
  {
    if s != [] {
      var t := s[1..];
      assert NoDup(t);
      NoDupCard(t);
      assert (set x | x in s) == (set x | x in t) + {s[0]};
      assert s[0] !in t;
    }
  }
}

=== FILE: service.dfy ===
/**
 * `call_from_config` of `homeassistant/helpers/service.py`: turns a
 * service configuration into the one service call it makes, or into no
 * call at all. The call itself is returned instead of being made.
 */
module Service {
  import opened Wrappers
  import opened Values
  import opened Strings
  import Util

  const ConfService := "service"
  const ConfServiceEntityId := "entity_id"
  const ConfServiceData := "data"
  const AttrEntityId := "entity_id"

  /** `hass.services.call(domain, service, service_data, blocking)`. */
  datatype ServiceCall = ServiceCall(domain: string, service: string, data: map<string, Value>, blocking: bool)

  /** The ids of a comma-separated `entity_id` string, each stripped of surrounding whitespace. */
  function SplitEntityIds(text: string): (ids: seq<Value>)
    ensures |ids| == |Split(text, ',')|
    ensures forall k :: 0 <= k < |ids| ==> ids[k] == VStr(Strip(Split(text, ',')[k]))
  {
    var parts := Split(text, ',');
    seq(|parts|, k requires 0 <= k < |parts| => VStr(Strip(parts[k])))
  }

  /** The service data a configuration asks for: its `data` map (a copy) or `{}`, with `entity_id` set from the configuration. */
  function ServiceData(config: map<string, Value>): (data: map<string, Value>)
    ensures var given := Get(config, ConfServiceData);
      && (forall k :: k in data && k != AttrEntityId ==> given.VDict? && k in given.entries && data[k] == given.entries[k])
      && (given.VDict? ==> forall k :: k in given.entries && k != AttrEntityId ==> k in data)
    ensures Get(config, ConfServiceEntityId).VStr? ==>
              AttrEntityId in data && data[AttrEntityId] == VList(SplitEntityIds(config[ConfServiceEntityId].s))
    ensures !Get(config, ConfServiceEntityId).VStr? && Get(config, ConfServiceEntityId) != VNone ==>
              AttrEntityId in data && data[AttrEntityId] == config[ConfServiceEntityId]
    ensures Get(config, ConfServiceEntityId) == VNone ==>
              data == (if Get(config, ConfServiceData).VDict? then Get(config, ConfServiceData).entries else map[])
  {
    var given := Get(config, ConfServiceData);
    var base := if given.VDict? then given.entries else map[];
    var entityId := Get(config, ConfServiceEntityId);
    if entityId.VStr? then base[AttrEntityId := VList(SplitEntityIds(entityId.s))]
    else if entityId != VNone then base[AttrEntityId := entityId]
    else base
  }

  /**
   * `call_from_config`: no call for a configuration that is not a map or
   * has no `service`, or whose `service` has no `.`; AttributeError when
   * `service` is not a string; otherwise exactly one call, to the domain and
   * service on either side of the first `.`, with the service data.
   */
  function CallFromConfig(config: Value, blocking: bool): (r: Result<Option<ServiceCall>, Error>)
    ensures !config.VDict? || ConfService !in config.entries ==> r == Ok(None)
    ensures config.VDict? && ConfService in config.entries && !config.entries[ConfService].VStr? ==>
              r == Err(AttributeError)
    ensures config.VDict? && ConfService in config.entries && config.entries[ConfService].VStr? ==>
              var service := config.entries[ConfService].s;
              && ('.' !in service ==> r == Ok(None))
              && ('.' in service ==>
                    && r.Ok? && r.value.Some?
                    && r.value.value.domain + "." + r.value.value.service == service
                    && '.' !in r.value.value.domain
                    && r.value.value.data == ServiceData(config.entries)
                    && r.value.value.blocking == blocking)
  {
    if !config.VDict? || ConfService !in config.entries then Ok(None)
    else
      var service := config.entries[ConfService];
      if !service.VStr? then Err(AttributeError)
      else
        var parts := Util.SplitEntityId(service.s);
        if |parts| != 2 then Ok(None)
        else Ok(Some(ServiceCall(parts[0], parts[1], ServiceData(config.entries), blocking)))
  }

  /** No whitespace at either end. */
  predicate Stripped(s: string) {
    s == [] || (!IsSpace(s[0]) && !IsSpace(s[|s| - 1]))
  }

  /** The entity ids of a list written with commas, none containing a comma or edge whitespace, are read back unchanged. */
  lemma EntityIdsRoundTrip(ids: seq<string>)
    requires |ids| >= 1 && forall k :: 0 <= k < |ids| ==> ',' !in ids[k] && Stripped(ids[k])
    ensures SplitEntityIds(Join(ids, ',')) == seq(|ids|, k requires 0 <= k < |ids| => VStr(ids[k]))
  {
    SplitJoin(ids, ',');
    SplitStrippedIds(Join(ids, ','), ids);
  }

  /** Text that splits into comma-free, stripped pieces reads back as those pieces. */
  lemma SplitStrippedIds(text: string, ids: seq<string>)
    requires Split(text, ',') == ids
    requires forall k :: 0 <= k < |ids| ==> Stripped(ids[k])
    ensures SplitEntityIds(text) == seq(|ids|, k requires 0 <= k < |ids| => VStr(ids[k]))
  {
    var r := SplitEntityIds(text);
    forall k | 0 <= k < |ids| ensures r[k] == VStr(ids[k]) {
      StripOfStripped(ids[k]);
    }
  }

  lemma StripOfStripped(s: string)
    requires Stripped(s)
    ensures Strip(s) == s
  {
    if s != [] {
      StripUnchanged(s);
    }
  }

  /** The configuration written from a call, with its entity ids joined by commas. */
  function ConfigOf(domain: string, service: string, data: map<string, Value>, ids: seq<string>): map<string, Value>
    requires |ids| >= 1
  {
    map[ConfService := VStr(domain + "." + service),
        ConfServiceData := VDict(data),
        ConfServiceEntityId := VStr(Join(ids, ','))]
  }

  /** The service data read from such a configuration is the call's data with the entity ids as a list. */
  lemma ServiceDataRoundTrip(domain: string, service: string, data: map<string, Value>, ids: seq<string>)
    requires |ids| >= 1 && forall k :: 0 <= k < |ids| ==> ',' !in ids[k] && Stripped(ids[k])
    ensures ServiceData(ConfigOf(domain, service, data, ids))
         == data[AttrEntityId := VList(seq(|ids|, k requires 0 <= k < |ids| => VStr(ids[k])))]
  {
    var config := ConfigOf(domain, service, data, ids);
    assert Get(config, ConfServiceData) == VDict(data);
    assert Get(config, ConfServiceEntityId) == VStr(Join(ids, ','));
    EntityIdsRoundTrip(ids);
  }

  /**
   * A configuration written from a call is read back as that call: the
   * service as `domain.service`, the data as a map, and the entity ids (none
   * containing a comma or edge whitespace) joined with commas.
   */
  lemma CallRoundTrip(domain: string, service: string, data: map<string, Value>, ids: seq<string>, blocking: bool)
    requires '.' !in domain
    requires |ids| >= 1 && forall k :: 0 <= k < |ids| ==> ',' !in ids[k] && Stripped(ids[k])
    ensures CallFromConfig(VDict(ConfigOf(domain, service, data, ids)), blocking)
         == Ok(Some(ServiceCall(domain, service, data[AttrEntityId := VList(seq(|ids|, k requires 0 <= k < |ids| => VStr(ids[k])))], blocking)))
  {
    var config := ConfigOf(domain, service, data, ids);
    assert config[ConfService] == VStr(domain + "." + service);
    Util.SplitEntityIdJoin(domain, service);
    ServiceDataRoundTrip(domain, service, data, ids);
  }
}

=== FILE: strings.dfy ===
/**
 * The Python string built-ins the modelled code relies on: `str(n)` for a
 * non-negative integer, `int(text)`, `str.split(sep)` with a one-character
 * separator, `sep.join(parts)` and `str.strip()`.
 */
module Strings {
  import opened Wrappers

  predicate IsDigit(c: char) {
    '0' <= c <= '9'
  }

  function DigitChar(d: nat): (c: char)
    requires d < 10
    ensures IsDigit(c)
  {
    ('0' as int + d) as char
  }

  function DigitValue(c: char): (d: nat)
    requires IsDigit(c)
    ensures d < 10 && DigitChar(d) == c
  {
    (c as int - '0' as int) as nat
  }

  /** Every character is a decimal digit. */
  predicate AllDigits(s: string) {
    forall i :: 0 <= i < |s| ==> IsDigit(s[i])
  }

  /** Python's `str(n)` for `n >= 0`: decimal digits, no leading zero. */
  function NatToString(n: nat): (s: string)
    ensures |s| >= 1 && AllDigits(s)
  {
    if n < 10 then [DigitChar(n)] else NatToString(n / 10) + [DigitChar(n % 10)]
  }

  /** The value of a non-empty string of decimal digits. */
  function DigitsValue(s: string): (n: nat)
    requires AllDigits(s)
  {
    if s == [] then 0 else DigitsValue(s[..|s| - 1]) * 10 + DigitValue(s[|s| - 1])
  }

  /** Reading back the decimal form of `n` gives `n`. */
  lemma {:induction false} DigitsValueOfNatToString(n: nat)
    ensures DigitsValue(NatToString(n)) == n
  {
    var s := NatToString(n);
    if n >= 10 {
      DigitsValueOfNatToString(n / 10);
      assert s[..|s| - 1] == NatToString(n / 10);
    }
  }

  /** Distinct numbers have distinct decimal forms. */
  lemma NatToStringInjective(a: nat, b: nat)
    ensures NatToString(a) == NatToString(b) ==> a == b
  {
    DigitsValueOfNatToString(a);
    DigitsValueOfNatToString(b);
  }

  /**
   * The k-th of a numbered series of names: `base` itself for k = 1 (and 0),
   * else `base`, `sep` and the decimal form of k.
   */
  function Numbered(base: string, sep: string, k: nat): string {
    if k <= 1 then base else base + sep + NatToString(k)
  }

  /** Different positions of a series (from 1 on) carry different names. */
  lemma NumberedInjective(base: string, sep: string, i: nat, j: nat)
    requires i >= 1 && j >= 1
    ensures Numbered(base, sep, i) == Numbered(base, sep, j) ==> i == j
  {
    if Numbered(base, sep, i) == Numbered(base, sep, j) && i != j {
      if i >= 2 && j >= 2 {
        var n := |base| + |sep|;
        assert Numbered(base, sep, i)[n..] == NatToString(i);
        assert Numbered(base, sep, j)[n..] == NatToString(j);
        NatToStringInjective(i, j);
      }
    }
  }

  /** The names of positions 1 to n - 1 of a series. */
  ghost function NumberedBefore(base: string, sep: string, n: nat): set<string> {
    set j | 1 <= j < n :: Numbered(base, sep, j)
  }

  /** Each position adds a name not seen before. */
  lemma NumberedGrows(base: string, sep: string, n: nat)
    requires n >= 1
    ensures Numbered(base, sep, n) !in NumberedBefore(base, sep, n)
    ensures NumberedBefore(base, sep, n + 1) == NumberedBefore(base, sep, n) + {Numbered(base, sep, n)}
  {
    forall j | 1 <= j < n ensures Numbered(base, sep, j) != Numbered(base, sep, n) {
      NumberedInjective(base, sep, j, n);
    }
  }

  /**
   * Walking a series through a finite set of names: a name that is in the
   * set shrinks the part of the set not yet walked. Loops that advance
   * along a series while the name is taken terminate by this.
   */
  lemma NumberedStep(base: string, sep: string, n: nat, taken: set<string>)
    requires n >= 1 && NumberedBefore(base, sep, n) <= taken && Numbered(base, sep, n) in taken
    ensures NumberedBefore(base, sep, n + 1) <= taken
    ensures |taken - NumberedBefore(base, sep, n + 1)| < |taken - NumberedBefore(base, sep, n)|
  {
    NumberedGrows(base, sep, n);
    assert taken - NumberedBefore(base, sep, n + 1) < taken - NumberedBefore(base, sep, n);
  }

  /** `sub` occurs in `s` starting at index `i`. */
  ghost predicate OccursAt(sub: string, s: string, i: int) {
    0 <= i && i + |sub| <= |s| && s[i..i + |sub|] == sub
  }

  /** Past a first position where `sub` does not start, `sub` occurs in `s` exactly when it occurs in the rest. */
  lemma OccursInTail(sub: string, s: string)
    requires |s| >= 1 && !OccursAt(sub, s, 0)
    ensures (exists i :: OccursAt(sub, s, i)) <==> (exists j :: OccursAt(sub, s[1..], j))
  {
    if exists i :: OccursAt(sub, s, i) {
      var i :| OccursAt(sub, s, i);
      assert s[1..][i - 1..i - 1 + |sub|] == s[i..i + |sub|];
      assert OccursAt(sub, s[1..], i - 1);
    }
    if exists j :: OccursAt(sub, s[1..], j) {
      var j :| OccursAt(sub, s[1..], j);
      assert s[1..][j..j + |sub|] == s[j + 1..j + 1 + |sub|];
      assert OccursAt(sub, s, j + 1);
    }
  }

  /** Python's `sub in s` on strings. */
  function IsSubstring(sub: string, s: string): (b: bool)
    ensures b <==> exists i :: OccursAt(sub, s, i)
    decreases |s|
  {
    if |sub| > |s| then false
    else if s[..|sub|] == sub then assert OccursAt(sub, s, 0); true
    else if s == [] then false
    else
      OccursInTail(sub, s);
      IsSubstring(sub, s[1..])
  }

  /** The characters Python's `str.isspace()` accepts, which `str.strip()` removes. */
  predicate IsSpace(c: char) {
    || c == ' '
    || '\t' <= c <= '\r'
    || '\U{1C}' <= c <= '\U{1F}'
    || c == '\U{85}' || c == '\U{A0}' || c == '\U{1680}'
    || '\U{2000}' <= c <= '\U{200A}'
    || c == '\U{2028}' || c == '\U{2029}' || c == '\U{202F}' || c == '\U{205F}' || c == '\U{3000}'
  }

  /** Python's `str.lstrip()`. */
  function LStrip(s: string): (r: string)
    ensures |r| <= |s| && r == s[|s| - |r|..]
    ensures forall k :: 0 <= k < |s| - |r| ==> IsSpace(s[k])
    ensures r == [] || !IsSpace(r[0])
  {
    if s != [] && IsSpace(s[0]) then LStrip(s[1..]) else s
  }

  /** Python's `str.rstrip()`. */
  function RStrip(s: string): (r: string)
    ensures |r| <= |s| && r == s[..|r|]
    ensures forall k :: |r| <= k < |s| ==> IsSpace(s[k])
    ensures r == [] || !IsSpace(r[|r| - 1])
  {
    if s != [] && IsSpace(s[|s| - 1]) then RStrip(s[..|s| - 1]) else s
  }

  /** `r` is `s[i..]` cut at its end, with only whitespace cut off either side. */
  ghost predicate TrimmedAt(s: string, i: int, r: string) {
    && 0 <= i <= |s| - |r|
    && r == s[i..i + |r|]
    && (forall k :: 0 <= k < i ==> IsSpace(s[k]))
    && (forall k :: i + |r| <= k < |s| ==> IsSpace(s[k]))
  }

  /** Python's `str.strip()`: a slice of `s` with only whitespace cut off either end. */
  function Strip(s: string): (r: string)
    ensures exists i :: TrimmedAt(s, i, r)
    ensures r == [] || (!IsSpace(r[0]) && !IsSpace(r[|r| - 1]))
  {
    var l := LStrip(s);
    var r := RStrip(l);
    assert TrimmedAt(s, |s| - |l|, r);
    r
  }

  /** Stripping twice strips nothing more. */
  lemma StripIdempotent(s: string)
    ensures Strip(Strip(s)) == Strip(s)
  {
    var t := Strip(s);
    if t != [] {
      assert LStrip(t) == t;
      assert RStrip(t) == t;
    }
  }

  /** Python's `int(text)` in base 10: optional surrounding whitespace, an optional sign, then digits. */
  function ParseInt(text: string): (r: Option<int>)
    ensures var t := Strip(text);
      var digits := if t != [] && (t[0] == '-' || t[0] == '+') then t[1..] else t;
      && (r.Some? <==> t != [] && digits != [] && AllDigits(digits))
      && (r.Some? ==> r.value == if t[0] == '-' then -(DigitsValue(digits) as int) else DigitsValue(digits) as int)
  {
    ParseStripped(Strip(text))
  }

  /** `int` on text already stripped: an optional sign, then one or more digits. */
  function ParseStripped(t: string): (r: Option<int>)
  {
    if t == [] then None
    else
      var digits := if t[0] == '-' || t[0] == '+' then t[1..] else t;
      match ParseDigits(digits)
      case None => None
      case Some(magnitude) => Some(if t[0] == '-' then -(magnitude as int) else magnitude as int)
  }

  /** The value of one or more decimal digits. */
  function ParseDigits(digits: string): (r: Option<nat>)
    ensures r.Some? <==> digits != [] && AllDigits(digits)
  {
    if digits != [] && AllDigits(digits) then Some(DigitsValue(digits)) else None
  }

  /** A string with no whitespace at either end is its own strip. */
  lemma StripUnchanged(s: string)
    requires s != [] && !IsSpace(s[0]) && !IsSpace(s[|s| - 1])
    ensures Strip(s) == s
  {
    assert LStrip(s) == s;
    assert RStrip(s) == s;
  }

  /** `int(str(n)) == n`. */
  lemma ParseIntOfNatToString(n: nat)
    ensures ParseInt(NatToString(n)) == Some(n as int)
  {
    var s := NatToString(n);
    DigitsValueOfNatToString(n);
    StripUnchanged(s);
    assert IsDigit(s[0]);
    assert s[0] != '-' && s[0] != '+';
  }

  /** `int("-" + str(n)) == -n`. */
  lemma ParseIntOfNegative(n: nat)
    ensures ParseInt("-" + NatToString(n)) == Some(-(n as int))
  {
    var s := NatToString(n);
    DigitsValueOfNatToString(n);
    ParseStrippedNegative(s);
    StripUnchanged("-" + s);
  }

  /** A minus sign before digits reads as the negated value of the digits. */
  lemma ParseStrippedNegative(s: string)
    requires s != [] && AllDigits(s)
    ensures ParseStripped("-" + s) == Some(-(DigitsValue(s) as int))
  {
    var t := "-" + s;
    assert t[0] == '-' && t[1..] == s;
    assert ParseDigits(t[1..]) == Some(DigitsValue(s));
  }

  /** Python's `text.split(sep)`: the pieces between the occurrences of `sep`. */
  function Split(text: string, sep: char): (parts: seq<string>)
    ensures |parts| >= 1
    ensures forall i :: 0 <= i < |parts| ==> sep !in parts[i]
  {
    if text == [] then [""]
    else
      var rest := Split(text[1..], sep);
      if text[0] == sep then [""] + rest else [[text[0]] + rest[0]] + rest[1..]
  }

  /** Python's `sep.join(parts)`. */
  function Join(parts: seq<string>, sep: char): (r: string)
    ensures parts == [] ==> r == ""
    ensures parts != [] ==> |r| == TotalLength(parts) + |parts| - 1
    ensures parts != [] ==> parts[0] <= r
    ensures |parts| >= 2 ==> r[|parts[0]|] == sep
  {
    if parts == [] then ""
    else if |parts| == 1 then parts[0]
    else parts[0] + [sep] + Join(parts[1..], sep)
  }

  /** The total length of the pieces. */
  function TotalLength(parts: seq<string>): nat {
    if parts == [] then 0 else |parts[0]| + TotalLength(parts[1..])
  }

  /** Joining the pieces of a split gives back the text. */
  lemma {:induction false} JoinSplit(text: string, sep: char)
    ensures Join(Split(text, sep), sep) == text
  {
    if text != [] {
      var rest := Split(text[1..], sep);
      JoinSplit(text[1..], sep);
      if text[0] != sep {
        var parts := Split(text, sep);
        if |rest| == 1 {
          assert parts == [[text[0]] + rest[0]];
        } else {
          assert parts[1..] == rest[1..];
          assert Join(parts, sep) == [text[0]] + rest[0] + [sep] + Join(rest[1..], sep);
        }
      }
    }
  }

  /** Splitting a join of separator-free pieces gives back the pieces. */
  lemma {:induction false} SplitJoin(parts: seq<string>, sep: char)
    requires |parts| >= 1
    requires forall i :: 0 <= i < |parts| ==> sep !in parts[i]
    ensures Split(Join(parts, sep), sep) == parts
  {
    if |parts| == 1 {
      SplitFree(parts[0], [], sep);
    } else {
      SplitJoin(parts[1..], sep);
      SplitFree(parts[0], Join(parts[1..], sep), sep);
    }
  }

  /** A separator-free prefix glues onto the first piece. */
  lemma {:induction false} SplitFree(free: string, tail: string, sep: char)
    requires sep !in free
    ensures Split(free + [sep] + tail, sep) == [free] + Split(tail, sep)
    ensures Split(free, sep) == [free]
  {
    if free == [] {
      assert free + [sep] + tail == [sep] + tail;
      assert ([sep] + tail)[1..] == tail;
    } else {
      SplitFree(free[1..], tail, sep);
      assert (free + [sep] + tail)[1..] == free[1..] + [sep] + tail;
      assert [free[0]] + free[1..] == free;
    }
  }
}

=== FILE: thread_pool.dfy ===
/**
 * The bookkeeping of `ThreadPool` and `PriorityQueueItem` in
 * `homeassistant/util.py`: the running flag, the work queue and the busy
 * warning limit that doubles each time the busy callback is called. The
 * threads are not modelled: `Work` is one worker's loop running while no
 * other thread touches the queue.
 */
module ThreadPools {
  import opened Wrappers
  import opened Values

  /** A queued job: the pool's private quit task, or a job handed in by a caller. */
  datatype Job = Quit | Work(handle: int)

  /** `PriorityQueueItem`. */
  datatype QueueItem = QueueItem(priority: int, item: Job)

  /** `PriorityQueueItem.__lt__`: ordered by priority alone. */
  predicate Less(a: QueueItem, b: QueueItem) {
    a.priority < b.priority
  }

  /** The priority `stop` gives the quit tasks. */
  const QuitPriority := 1000

  function Pow2(n: nat): (r: nat)
    ensures r >= 1
  {
    if n == 0 then 1 else 2 * Pow2(n - 1)
  }

  /** The starting limit, doubled any number of times, is never below the worker count. */
  lemma WorkersWithinLimit(workerCount: nat, n: nat)
    ensures workerCount <= workerCount * workerCount * Pow2(n)
  {
    var p := Pow2(n);
    assert workerCount <= workerCount * workerCount;
    assert workerCount * workerCount <= workerCount * workerCount * p;
  }

  /** The position of a first-served item: none of the queue comes before it. */
  method MinIndex(q: seq<QueueItem>) returns (m: nat)
    requires |q| > 0
    ensures m < |q|
    ensures forall other :: other in q ==> !Less(other, q[m])
  {
    m := 0;
    var i := 1;
    while i < |q|
      invariant 0 <= m < i <= |q|
      invariant forall k :: 0 <= k < i ==> !Less(q[k], q[m])
    {
      if Less(q[i], q[m]) {
        m := i;
      }
      i := i + 1;
    }
  }

  /** Taking out the item at position `m` removes exactly that item. */
  lemma RemoveAt(q: seq<QueueItem>, m: nat)
    requires m < |q|
    ensures multiset(q[..m] + q[m + 1..]) == multiset(q) - multiset{q[m]}
    ensures |q[..m] + q[m + 1..]| == |q| - 1
  {
    assert q == q[..m] + [q[m]] + q[m + 1..];
  }

  /** Items in order of non-decreasing priority. */
  ghost predicate PrioritySorted(items: seq<QueueItem>) {
    forall i, j :: 0 <= i < j < |items| ==> items[i].priority <= items[j].priority
  }

  /**
   * A worker has taken `taken`, in order, out of `original`, leaving `rest`:
   * the items are shared out without loss, taken in priority order and none
   * above what is left, and the quit task, if any, came last.
   */
  ghost predicate Served(original: seq<QueueItem>, taken: seq<QueueItem>, rest: seq<QueueItem>, quit: bool) {
    && multiset(taken) + multiset(rest) == multiset(original)
    && PrioritySorted(taken)
    && (taken != [] ==> forall x :: x in rest ==> taken[|taken| - 1].priority <= x.priority)
    && (quit <==> taken != [] && taken[|taken| - 1].item == Quit)
    && (forall i :: 0 <= i < |taken| - 1 ==> taken[i].item != Quit)
  }

  /** Taking a least item of what is left, after no quit task, keeps `Served`. */
  lemma ServedStep(original: seq<QueueItem>, taken: seq<QueueItem>, before: seq<QueueItem>, item: QueueItem, after: seq<QueueItem>)
    requires Served(original, taken, before, false)
    requires item in before
    requires forall other :: other in before ==> !Less(other, item)
    requires multiset(after) == multiset(before) - multiset{item}
    ensures Served(original, taken + [item], after, item.item == Quit)
  {
    var t := taken + [item];
    assert multiset(t) + multiset(after) == multiset(original) by {
      assert multiset(t) == multiset(taken) + multiset{item};
      assert multiset(before) == multiset(after) + multiset{item};
    }
    forall i, j | 0 <= i < j < |t| ensures t[i].priority <= t[j].priority {
      if j == |t| - 1 && i < |taken| {
        assert taken[i].priority <= taken[|taken| - 1].priority;
      }
    }
    forall x | x in after ensures item.priority <= x.priority {
      assert x in multiset(after);
      assert x in multiset(before);
      assert !Less(x, item);
    }
  }

  class ThreadPool {
    const workerCount: nat
    /** Whether a busy callback was given. */
    const hasBusyCallback: bool
    /** The jobs waiting in the work queue, in the order they were put. */
    var queue: seq<QueueItem>
    var busyWarningLimit: int
    var running: bool
    /** The queue sizes passed to the busy callback so far, oldest first. */
    var busyReports: seq<nat>

    /**
     * The warning limit has doubled once per report, starting from the
     * square of the worker count, and the k-th report was made when more
     * than `workerCount² · 2^k` jobs were queued.
     */
    ghost predicate Valid()
      reads this
    {
      busyWarningLimit == workerCount * workerCount * Pow2(|busyReports|)
      && forall k :: 0 <= k < |busyReports| ==> busyReports[k] > workerCount * workerCount * Pow2(k)
    }

    /** A fresh pool runs with an empty queue and the limit `workerCount²`. */
    constructor(workerCount: nat, hasBusyCallback: bool)
      ensures Valid()
      ensures this.workerCount == workerCount && this.hasBusyCallback == hasBusyCallback
      ensures running && queue == [] && busyReports == []
      ensures busyWarningLimit == workerCount * workerCount
    {
      this.workerCount := workerCount;
      this.hasBusyCallback := hasBusyCallback;
      queue := [];
      busyWarningLimit := workerCount * workerCount;
      running := true;
      busyReports := [];
    }

    /**
     * `add_job`: RuntimeError when the pool is not running. Otherwise the
     * job is queued, and when the queue is now larger than the limit and a
     * busy callback exists, the limit doubles and the callback is given the
     * queue size.
     */
    method AddJob(priority: int, job: Job) returns (r: Result<(), Error>)
      requires Valid()
      modifies this
      ensures Valid()
      ensures running == old(running)
      ensures !old(running) ==>
                && r == Err(RuntimeError) && queue == old(queue)
                && busyWarningLimit == old(busyWarningLimit) && busyReports == old(busyReports)
      ensures old(running) ==> r == Ok(()) && queue == old(queue) + [QueueItem(priority, job)]
      ensures old(running) && |queue| > old(busyWarningLimit) && hasBusyCallback ==>
                busyWarningLimit == 2 * old(busyWarningLimit) && busyReports == old(busyReports) + [|queue|]
      ensures !(old(running) && |queue| > old(busyWarningLimit) && hasBusyCallback) ==>
                busyWarningLimit == old(busyWarningLimit) && busyReports == old(busyReports)
    {
      if !running {
        return Err(RuntimeError);
      }
      queue := queue + [QueueItem(priority, job)];
      if |queue| > busyWarningLimit && hasBusyCallback {
        var n := |busyReports|;
        assert workerCount * workerCount * Pow2(n + 1) == 2 * busyWarningLimit;
        busyWarningLimit := busyWarningLimit * 2;
        busyReports := busyReports + [|queue|];
      }
      r := Ok(());
    }

    /**
     * `work_queue.get()` on a non-empty queue: removes and returns an item
     * no other queued item is less than.
     */
    method Get() returns (item: QueueItem)
      requires |queue| > 0
      modifies this
      ensures item in old(queue)
      ensures forall other :: other in old(queue) ==> !Less(other, item)
      ensures multiset(queue) == multiset(old(queue)) - multiset{item}
      ensures |queue| == |old(queue)| - 1
      ensures busyWarningLimit == old(busyWarningLimit) && busyReports == old(busyReports) && running == old(running)
    {
      var m := MinIndex(queue);
      item := queue[m];
      RemoveAt(queue, m);
      queue := queue[..m] + queue[m + 1..];
    }

    /**
     * `_threadpool_worker` alone on the queue: it takes items in priority
     * order, handling each job, until it takes a quit task or, where the real
     * worker would block, the queue is empty. `taken` is every item it took,
     * in order, the quit task last when `quit`.
     */
    method Work() returns (taken: seq<QueueItem>, quit: bool)
      modifies this
      ensures multiset(taken) + multiset(queue) == multiset(old(queue))
      ensures PrioritySorted(taken)
      ensures taken != [] ==> forall x :: x in queue ==> taken[|taken| - 1].priority <= x.priority
      ensures quit <==> taken != [] && taken[|taken| - 1].item == Quit
      ensures forall i :: 0 <= i < |taken| - 1 ==> taken[i].item != Quit
      ensures !quit ==> queue == []
      ensures busyWarningLimit == old(busyWarningLimit) && busyReports == old(busyReports) && running == old(running)
    {
      taken, quit := [], false;
      while |queue| > 0 && !quit
        invariant Served(old(queue), taken, queue, quit)
        invariant busyWarningLimit == old(busyWarningLimit) && busyReports == old(busyReports) && running == old(running)
        decreases |queue|
      {
        ghost var before := queue;
        var item := Get();
        ServedStep(old(queue), taken, before, item, queue);
        taken := taken + [item];
        quit := item.item == Quit;
      }
    }

    /** The clearing loop of `stop`: take items until the queue is empty. */
    method Drain()
      modifies this
      ensures queue == []
      ensures busyWarningLimit == old(busyWarningLimit) && busyReports == old(busyReports) && running == old(running)
    {
      while |queue| > 0
        invariant busyWarningLimit == old(busyWarningLimit) && busyReports == old(busyReports) && running == old(running)
        decreases |queue|
      {
        var _ := Get();
      }
    }

    /**
     * `stop`: nothing on a stopped pool. Otherwise the queue is drained, one
     * quit task per worker is queued, and the pool stops; the limit is at
     * least the worker count squared, so no busy warning is issued.
     */
    method Stop()
      requires Valid()
      modifies this
      ensures Valid()
      ensures !old(running) ==> queue == old(queue) && !running
      ensures old(running) ==> !running && queue == seq(workerCount, _ => QueueItem(QuitPriority, Quit))
      ensures busyWarningLimit == old(busyWarningLimit) && busyReports == old(busyReports)
    {
      if !running {
        return;
      }
      Drain();
      WorkersWithinLimit(workerCount, |busyReports|);
      for i := 0 to workerCount
        invariant Valid() && running
        invariant queue == seq(i, _ => QueueItem(QuitPriority, Quit))
        invariant busyWarningLimit == old(busyWarningLimit) && busyReports == old(busyReports)
      {
        var _ := AddJob(QuitPriority, Quit);
      }
      running := false;
    }
  }
}

=== FILE: throttle.dfy ===
/**
 * The `Throttle` decorator of `homeassistant/util.py`. Times are integers
 * (microseconds) passed in by the caller: `now` is the clock the decorator
 * reads before deciding, `done` the clock it reads after the method returns.
 */
module Throttling {
  import opened Wrappers

  /** One call of the decorated method, as far as the decorator looks at it. */
  datatype Call = Call(
    noThrottle: Option<bool>,  // the truth value of the `no_throttle` keyword, None when it is not given
    now: int,
    done: int,
    raises: bool)              // whether the method raises when it is called

  /** What one decorator layer decides: whether the call goes through, and the `no_throttle` keyword it passes on. */
  datatype Pass = Pass(runs: bool, forwarded: Option<bool>)

  /**
   * One layer's decision. With no earlier call the call is forced and the
   * keyword is not popped, so it travels on; otherwise the keyword is popped
   * and the call goes through when it is true or when more than `minTime`
   * has passed since `lastCall`.
   */
  function Gate(lastCall: Option<int>, minTime: int, noThrottle: Option<bool>, now: int): (p: Pass)
    ensures lastCall.None? ==> p.runs && p.forwarded == noThrottle
    ensures lastCall.Some? ==> p.forwarded == None
    ensures lastCall.Some? ==> (p.runs <==> noThrottle == Some(true) || now - lastCall.value > minTime)
  {
    if lastCall.None? then Pass(true, noThrottle)
    else Pass(noThrottle == Some(true) || now - lastCall.value > minTime, None)
  }

  /**
   * What the decorated call did: nothing (it returned None), ran the method
   * with this `no_throttle` keyword, or called it with this keyword and the
   * exception it raised went up through every layer.
   */
  datatype Outcome = Skipped | Ran(forwarded: Option<bool>) | Raised(forwarded: Option<bool>)

  /** The state of both layers after one call. */
  datatype Step = Step(outcome: Outcome, lastCall: Option<int>, innerLastCall: Option<int>)

  /**
   * One call of `Throttle(minTime, limit)(method)`. With a limit the method
   * is first wrapped in `Throttle(limit)`, whose own `last_call` is
   * `innerLastCall`. A layer that lets the call through records `done` as its
   * last call even when the layer below skipped it, but not when the method
   * raised, since the exception leaves the layer before its clock is read.
   */
  function Apply(minTime: int, limit: Option<int>, lastCall: Option<int>, innerLastCall: Option<int>, c: Call): (s: Step)
    ensures s.outcome.Ran? ==> s.lastCall == Some(c.done)
    ensures s.outcome.Raised? ==> c.raises && s.lastCall == lastCall && s.innerLastCall == innerLastCall
    ensures s.outcome.Ran? ==> !c.raises
    ensures !Gate(lastCall, minTime, c.noThrottle, c.now).runs ==>
              s == Step(Skipped, lastCall, innerLastCall)
    ensures limit.None? ==> s.innerLastCall == innerLastCall
    ensures limit.Some? && s.outcome.Ran? ==> s.innerLastCall == Some(c.done)
    ensures var outer := Gate(lastCall, minTime, c.noThrottle, c.now);
      (outer.runs && limit.Some? && !Gate(innerLastCall, limit.value, outer.forwarded, c.now).runs)
      ==> s == Step(Skipped, Some(c.done), innerLastCall)
  {
    var outer := Gate(lastCall, minTime, c.noThrottle, c.now);
    if !outer.runs then Step(Skipped, lastCall, innerLastCall)
    else if limit.None? then
      if c.raises then Step(Raised(outer.forwarded), lastCall, innerLastCall)
      else Step(Ran(outer.forwarded), Some(c.done), innerLastCall)
    else
      var inner := Gate(innerLastCall, limit.value, outer.forwarded, c.now);
      if !inner.runs then Step(Skipped, Some(c.done), innerLastCall)
      else if c.raises then Step(Raised(inner.forwarded), lastCall, innerLastCall)
      else Step(Ran(inner.forwarded), Some(c.done), Some(c.done))
  }

  /**
   * The first call of a decorated method always calls it; when the method
   * raises, no layer has a last call yet, so the next call is forced too.
   */
  lemma FirstCallRuns(minTime: int, limit: Option<int>, c: Call)
    ensures !c.raises ==>
      Apply(minTime, limit, None, None, c) == Step(Ran(c.noThrottle), Some(c.done), if limit.None? then None else Some(c.done))
    ensures c.raises ==> Apply(minTime, limit, None, None, c) == Step(Raised(c.noThrottle), None, None)
  {
  }

  /**
   * A later call of a decorator without a limit runs the method exactly
   * when `no_throttle` is true or more than `minTime` has passed, and the
   * keyword never reaches the method.
   */
  lemma LaterCall(minTime: int, last: int, c: Call)
    ensures Apply(minTime, None, Some(last), None, c).outcome != Skipped <==> c.noThrottle == Some(true) || c.now - last > minTime
    ensures Apply(minTime, None, Some(last), None, c).outcome !in {Ran(Some(true)), Raised(Some(true))}
  {
  }

  /**
   * `no_throttle` gets past the outer layer only: once both layers have a
   * last call, a forced call within `limit` of the inner layer's last call
   * is skipped, although the outer layer still records it.
   */
  lemma ForcedCallStillLimited(minTime: int, limit: int, last: int, innerLast: int, c: Call)
    requires c.noThrottle == Some(true) && c.now - innerLast <= limit
    ensures Apply(minTime, Some(limit), Some(last), Some(innerLast), c) == Step(Skipped, Some(c.done), Some(innerLast))
  {
  }

  /** The calls of `calls` that run the method, for a decorator without a limit that starts from `last`. */
  ghost function Runs(minTime: int, last: Option<int>, calls: seq<Call>): seq<Call>
    decreases |calls|
  {
    if calls == [] then []
    else
      var c := calls[0];
      var s := Apply(minTime, None, last, None, c);
      if s.outcome.Ran? then [c] + Runs(minTime, s.lastCall, calls[1..])
      else Runs(minTime, s.lastCall, calls[1..])
  }

  /**
   * The cooldown: without `no_throttle`, each run starts more than `minTime`
   * after the previous run returned (calls that raised in between leave
   * the cooldown where it was).
   */
  lemma {:induction false} RunsSpaced(minTime: int, last: Option<int>, calls: seq<Call>)
    requires forall k :: 0 <= k < |calls| ==> calls[k].noThrottle != Some(true)
    ensures var rs := Runs(minTime, last, calls);
      (last.Some? && rs != [] ==> rs[0].now - last.value > minTime)
      && forall k :: 0 <= k < |rs| - 1 ==> rs[k + 1].now - rs[k].done > minTime
    decreases |calls|
  {
    if calls != [] {
      var c := calls[0];
      var s := Apply(minTime, None, last, None, c);
      RunsSpaced(minTime, s.lastCall, calls[1..]);
    }
  }

  /**
   * The decorated method: `Throttle(minTime, limit)` applied to it, with the
   * `last_call` attribute of the wrapper and of the inner wrapper there is
   * when a limit is given.
   */
  class Throttled {
    const minTime: int
    const limit: Option<int>
    var lastCall: Option<int>
    var innerLastCall: Option<int>

    /** Decorating sets `last_call` to None. */
    constructor(minTime: int, limit: Option<int>)
      ensures this.minTime == minTime && this.limit == limit
      ensures lastCall == None && innerLastCall == None
    {
      this.minTime := minTime;
      this.limit := limit;
      lastCall := None;
      innerLastCall := None;
    }

    /** One call through the decorator. */
    method Invoke(c: Call) returns (o: Outcome)
      modifies this
      ensures Step(o, lastCall, innerLastCall) == Apply(minTime, limit, old(lastCall), old(innerLastCall), c)
    {
      var outer := Gate(lastCall, minTime, c.noThrottle, c.now);
      if !outer.runs {
        return Skipped;
      }
      if limit.None? {
        if c.raises {
          return Raised(outer.forwarded);
        }
        o := Ran(outer.forwarded);
      } else {
        var inner := Gate(innerLastCall, limit.value, outer.forwarded, c.now);
        if !inner.runs {
          o := Skipped;
        } else if c.raises {
          return Raised(inner.forwarded);
        } else {
          o := Ran(inner.forwarded);
          innerLastCall := Some(c.done);
        }
      }
      lastCall := Some(c.done);
    }
  }
}

=== FILE: util_text.dfy ===
/**
 * The pure helpers of `homeassistant/util.py`: slugs, filename and path
 * sanitising, entity-id splitting, `convert` and `ensure_unique_string`.
 */
module Util {
  import opened Wrappers
  import opened Values
  import opened Strings
  import Seqs

  // ---------------------------------------------------------------- slugify

  /** The characters `RE_SLUGIFY` keeps: `[A-Za-z0-9_]`. */
  predicate IsSlugChar(c: char) {
    'A' <= c <= 'Z' || 'a' <= c <= 'z' || '0' <= c <= '9' || c == '_'
  }

  ghost predicate IsSlug(s: string) {
    forall i :: 0 <= i < |s| ==> IsSlugChar(s[i])
  }

  /** `text.replace(" ", "_")`. */
  function ReplaceSpaces(text: string): (r: string)
    ensures |r| == |text|
    ensures forall i :: 0 <= i < |text| ==> r[i] == if text[i] == ' ' then '_' else text[i]
  {
    if text == [] then [] else [if text[0] == ' ' then '_' else text[0]] + ReplaceSpaces(text[1..])
  }

  /** `RE_SLUGIFY.sub("", text)`: every run of characters outside `[A-Za-z0-9_]` is deleted. */
  function RemoveNonSlug(text: string): (r: string)
    ensures |r| <= |text|
    ensures IsSlug(r)
  {
    if text == [] then []
    else (if IsSlugChar(text[0]) then [text[0]] else []) + RemoveNonSlug(text[1..])
  }

  /** `slugify`: spaces become underscores, then everything outside `[A-Za-z0-9_]` is dropped. */
  function Slugify(text: string): (r: string)
    ensures |r| <= |text|
    ensures IsSlug(r)
  {
    RemoveNonSlug(ReplaceSpaces(text))
  }

  lemma {:induction false} RemoveNonSlugConcat(a: string, b: string)
    ensures RemoveNonSlug(a + b) == RemoveNonSlug(a) + RemoveNonSlug(b)
  {
    if a != [] {
      assert (a + b)[1..] == a[1..] + b;
      RemoveNonSlugConcat(a[1..], b);
    } else {
      assert a + b == b;
    }
  }

  lemma {:induction false} RemoveNonSlugOfSlug(s: string)
    requires IsSlug(s)
    ensures RemoveNonSlug(s) == s
  {
    if s != [] {
      RemoveNonSlugOfSlug(s[1..]);
    }
  }

  /** Slugify works character by character: the slug of a concatenation is the concatenation of the slugs. */
  lemma SlugifyConcat(a: string, b: string)
    ensures Slugify(a + b) == Slugify(a) + Slugify(b)
  {
    assert ReplaceSpaces(a + b) == ReplaceSpaces(a) + ReplaceSpaces(b);
    RemoveNonSlugConcat(ReplaceSpaces(a), ReplaceSpaces(b));
  }

  /** What slugify does to one character: a space becomes `_`, slug characters stay, anything else goes. */
  lemma SlugifyChar(c: char)
    ensures Slugify([c]) == if c == ' ' then "_" else if IsSlugChar(c) then [c] else []
  {
    assert ReplaceSpaces([c]) == [if c == ' ' then '_' else c];
    assert ReplaceSpaces([c])[1..] == [];
  }

  /** A space between two texts becomes an underscore between their slugs. */
  lemma SlugifySpace(a: string, b: string)
    ensures Slugify(a + " " + b) == Slugify(a) + "_" + Slugify(b)
  {
    SlugifyConcat(a + " ", b);
    SlugifyConcat(a, " ");
    SlugifyChar(' ');
  }

  /** A text is its own slug exactly when it already consists of slug characters. */
  lemma SlugifyFixedPoints(s: string)
    ensures Slugify(s) == s <==> IsSlug(s)
  {
    if IsSlug(s) {
      assert ReplaceSpaces(s) == s;
      RemoveNonSlugOfSlug(s);
    }
  }

  /** Slugifying twice is slugifying once. */
  lemma SlugifyIdempotent(text: string)
    ensures Slugify(Slugify(text)) == Slugify(text)
  {
    SlugifyFixedPoints(Slugify(text));
  }

  // ------------------------------------------------------ sanitize_filename

  /** The single characters `RE_SANITIZE_FILENAME` deletes. */
  predicate IsFilenameForbidden(c: char) {
    c == '~' || c == '/' || c == '\\'
  }

  /** No two consecutive dots. */
  ghost predicate NoDotDot(s: string) {
    forall i :: 0 <= i < |s| - 1 ==> !(s[i] == '.' && s[i + 1] == '.')
  }

  /**
   * `sanitize_filename`: one left-to-right pass of `(~|\.\.|/|\\)` replaced by
   * nothing; matches do not overlap and the text left between them is not
   * scanned again.
   */
  function SanitizeFilename(filename: string): (r: string)
    ensures |r| <= |filename|
    ensures forall i :: 0 <= i < |r| ==> !IsFilenameForbidden(r[i])
    decreases |filename|
  {
    if filename == [] then []
    else if filename[0] == '~' then SanitizeFilename(filename[1..])
    else if |filename| >= 2 && filename[0] == '.' && filename[1] == '.' then SanitizeFilename(filename[2..])
    else if filename[0] == '/' || filename[0] == '\\' then SanitizeFilename(filename[1..])
    else [filename[0]] + SanitizeFilename(filename[1..])
  }

  /** The single pass can leave a `..` behind: `.~.` becomes `..`. */
  lemma SanitizeFilenameLeavesDotDot()
    ensures SanitizeFilename(".~.") == ".."
    ensures !NoDotDot(SanitizeFilename(".~."))
  {
    assert ".~."[1..] == "~." && "~."[1..] == "." && "."[1..] == "";
    assert SanitizeFilename(".") == ".";
    assert SanitizeFilename("~.") == ".";
    assert SanitizeFilename(".~.") == ['.'] + SanitizeFilename("~.");
    assert ".."[0] == '.' && ".."[1] == '.';
  }

  /** A pass that deletes nothing leaves a clean name behind. */
  lemma {:induction false} SanitizeFilenameStable(s: string)
    ensures |SanitizeFilename(s)| == |s| ==> SanitizeFilename(s) == s && NoDotDot(s)
    decreases |s|
  {
    if s != [] && |SanitizeFilename(s)| == |s| {
      // nothing was deleted, so the first character is kept and is not the start of `..`
      assert !IsFilenameForbidden(s[0]) && !(|s| >= 2 && s[0] == '.' && s[1] == '.');
      assert SanitizeFilename(s) == [s[0]] + SanitizeFilename(s[1..]);
      SanitizeFilenameStable(s[1..]);
      assert s == [s[0]] + s[1..];
      assert forall i :: 1 <= i < |s| - 1 ==> s[i] == s[1..][i - 1] && s[i + 1] == s[1..][i];
    }
  }

  /** `sanitize_filename` repeated until nothing more is removed. */
  function SanitizeFilenameFully(filename: string): (r: string)
    ensures |r| <= |filename|
    ensures NoDotDot(r)
    ensures forall i :: 0 <= i < |r| ==> !IsFilenameForbidden(r[i])
    decreases |filename|
  {
    var once := SanitizeFilename(filename);
    SanitizeFilenameStable(filename);
    if |once| == |filename| then once else SanitizeFilenameFully(once)
  }

  /** The repeated sanitiser changes nothing that is already clean. */
  lemma SanitizeFilenameFullyKeepsClean(s: string)
    requires NoDotDot(s) && forall i :: 0 <= i < |s| ==> !IsFilenameForbidden(s[i])
    ensures SanitizeFilenameFully(s) == s
  {
    SanitizeFilenameOfClean(s);
  }

  lemma {:induction false} SanitizeFilenameOfClean(s: string)
    requires NoDotDot(s) && forall i :: 0 <= i < |s| ==> !IsFilenameForbidden(s[i])
    ensures SanitizeFilename(s) == s
  {
    if s != [] {
      SanitizeFilenameOfClean(s[1..]);
    }
  }

  // ---------------------------------------------------------- sanitize_path

  /** `s` without its leading dots. */
  function DropLeadingDots(s: string): (r: string)
    ensures |r| <= |s| && r == s[|s| - |r|..]
    ensures forall i :: 0 <= i < |s| - |r| ==> s[i] == '.'
    ensures r == [] || r[0] != '.'
  {
    if s != [] && s[0] == '.' then DropLeadingDots(s[1..]) else s
  }

  /**
   * `sanitize_path`: one left-to-right pass of `(~|\.(\.)+)` replaced by
   * nothing; a run of two or more dots is deleted whole.
   */
  function SanitizePath(path: string): (r: string)
    ensures |r| <= |path|
    ensures '~' !in r
    decreases |path|
  {
    if path == [] then []
    else if path[0] == '~' then SanitizePath(path[1..])
    else if |path| >= 2 && path[0] == '.' && path[1] == '.' then SanitizePath(DropLeadingDots(path))
    else [path[0]] + SanitizePath(path[1..])
  }

  /** The single pass can leave a `..` behind: `.~.` becomes `..`. */
  lemma SanitizePathLeavesDotDot()
    ensures SanitizePath(".~.") == ".."
    ensures !NoDotDot(SanitizePath(".~."))
  {
    assert ".~."[1..] == "~." && "~."[1..] == "." && "."[1..] == "";
    assert SanitizePath(".") == ".";
    assert SanitizePath("~.") == ".";
    assert SanitizePath(".~.") == ['.'] + SanitizePath("~.");
    assert ".."[0] == '.' && ".."[1] == '.';
  }

  /** A pass that deletes nothing leaves a clean path behind. */
  lemma {:induction false} SanitizePathStable(s: string)
    ensures |SanitizePath(s)| == |s| ==> SanitizePath(s) == s && NoDotDot(s)
    decreases |s|
  {
    if s != [] && |SanitizePath(s)| == |s| {
      // nothing was deleted, so the first character is kept and is not the start of a dot run
      assert s[0] != '~' && !(|s| >= 2 && s[0] == '.' && s[1] == '.');
      assert SanitizePath(s) == [s[0]] + SanitizePath(s[1..]);
      SanitizePathStable(s[1..]);
      assert s == [s[0]] + s[1..];
      assert forall i :: 1 <= i < |s| - 1 ==> s[i] == s[1..][i - 1] && s[i + 1] == s[1..][i];
    }
  }

  /** `sanitize_path` repeated until nothing more is removed. */
  function SanitizePathFully(path: string): (r: string)
    ensures |r| <= |path|
    ensures NoDotDot(r) && '~' !in r
    decreases |path|
  {
    var once := SanitizePath(path);
    SanitizePathStable(path);
    if |once| == |path| then once else SanitizePathFully(once)
  }

  // -------------------------------------------------------- split_entity_id

  /** `entity_id.split(".", 1)`: one piece when there is no dot, else the pieces around the first dot. */
  function SplitEntityId(entityId: string): (parts: seq<string>)
    ensures 1 <= |parts| <= 2
    ensures |parts| == 2 <==> '.' in entityId
    ensures '.' !in parts[0]
    ensures |parts| == 1 ==> parts[0] == entityId
    ensures |parts| == 2 ==> parts[0] + "." + parts[1] == entityId
  {
    if '.' in entityId then
      var i := Seqs.IndexOf(entityId, '.');
      assert entityId == entityId[..i] + "." + entityId[i + 1..];
      [entityId[..i], entityId[i + 1..]]
    else [entityId]
  }

  /** Splitting `domain.object` gives back the domain and the object when the domain has no dot. */
  lemma SplitEntityIdJoin(domain: string, objectId: string)
    requires '.' !in domain
    ensures SplitEntityId(domain + "." + objectId) == [domain, objectId]
  {
    var e := domain + "." + objectId;
    assert e[|domain|] == '.';
    assert e[..|domain|] == domain;
  }

  // ---------------------------------------------------------------- convert

  /**
   * `convert(value, to_type, default)`: `default` for `None`, else
   * `to_type(value)`; a ValueError from the conversion gives `default`,
   * any other exception propagates.
   */
  function Convert<V, T>(value: Option<V>, toType: V -> Result<T, Error>, default: T): (r: Result<T, Error>)
    ensures value.None? ==> r == Ok(default)
    ensures value.Some? && toType(value.value).Ok? ==> r == toType(value.value)
    ensures value.Some? && toType(value.value) == Err(ValueError) ==> r == Ok(default)
    ensures value.Some? && toType(value.value).Err? && toType(value.value).error != ValueError ==> r == toType(value.value)
  {
    match value
    case None => Ok(default)
    case Some(v) =>
      match toType(v)
      case Ok(x) => Ok(x)
      case Err(ValueError) => Ok(default)
      case Err(e) => Err(e)
  }

  /** A ValueError never leaves `convert`; every other outcome of the conversion does, unchanged. */
  lemma ConvertNoValueError<V, T>(value: Option<V>, toType: V -> Result<T, Error>, default: T)
    ensures Convert(value, toType, default) != Err(ValueError)
    ensures value.Some? && toType(value.value) != Err(ValueError) ==> Convert(value, toType, default) == toType(value.value)
  {
  }

  // --------------------------------------------------- ensure_unique_string

  /** `r` is the first name of the series `preferred`, `preferred_2`, ... that is not among `current`. */
  ghost predicate FirstFree(r: string, preferred: string, current: seq<string>) {
    r !in current
    && exists k :: k >= 1 && r == Numbered(preferred, "_", k)
         && forall j :: 1 <= j < k ==> Numbered(preferred, "_", j) in current
  }

  /**
   * `ensure_unique_string`: the first of `preferred`, `preferred_2`,
   * `preferred_3`, ... that is not among `current`.
   */
  method EnsureUniqueString(preferred: string, current: seq<string>) returns (r: string)
    ensures r !in current
    ensures preferred !in current ==> r == preferred
    ensures FirstFree(r, preferred, current)
  {
    ghost var taken := set s | s in current;
    r := preferred;
    var tries := 1;
    while r in current
      invariant tries >= 1 && r == Numbered(preferred, "_", tries)
      invariant forall j :: 1 <= j < tries ==> Numbered(preferred, "_", j) in current
      invariant NumberedBefore(preferred, "_", tries) <= taken
      decreases |taken - NumberedBefore(preferred, "_", tries)|
    {
      NumberedStep(preferred, "_", tries, taken);
      tries := tries + 1;
      r := preferred + "_" + NatToString(tries);
      assert r == Numbered(preferred, "_", tries);
    }
    assert r == Numbered(preferred, "_", tries);
  }
}

=== FILE: values.dfy ===
/**
 * The dynamically typed values that flow through configuration maps,
 * service data and entity attributes, with Python's truthiness and
 * `dict.get`, and the exceptions the modelled code can raise.
 */
module Values {

  import opened Wrappers

  /** A JSON-like Python value (numbers are modelled as integers). */
  datatype Value =
    | VNone
    | VBool(b: bool)
    | VInt(i: int)
    | VStr(s: string)
    | VList(items: seq<Value>)
    | VDict(entries: map<string, Value>)

  /** The Python exceptions raised by the modelled code. */
  datatype Error =
    | KeyError
    | IndexError
    | ValueError
    | TypeError
    | AttributeError
    | RuntimeError
    | NoEntitySpecifiedError

  /** Python's `bool(v)`. */
  predicate Truthy(v: Value): (b: bool)
    ensures !b <==> v in [VNone, VBool(false), VInt(0), VStr(""), VList([]), VDict(map[])]
  {
    match v
    case VNone => false
    case VBool(b) => b
    case VInt(i) => i != 0
    case VStr(s) => s != ""
    case VList(items) => items != []
    case VDict(entries) => entries != map[]
  }

  /** Python's `d.get(key, default)`. */
  function GetOr(d: map<string, Value>, key: string, default: Value): (r: Value)
    ensures key in d ==> r == d[key]
    ensures key !in d ==> r == default
  {
    if key in d then d[key] else default
  }

  /**
   * Python's `v[i]` for an integer index (negative counts from the end):
   * lists and strings are indexed, a dict (whose keys here are strings) has
   * no integer key, other values cannot be indexed.
   */
  function Index(v: Value, i: int): (r: Result<Value, Error>)
    ensures v.VList? && -|v.items| <= i < |v.items| ==> r == Ok(v.items[if i < 0 then i + |v.items| else i])
    ensures v.VList? && !(-|v.items| <= i < |v.items|) ==> r == Err(IndexError)
    ensures v.VStr? && -|v.s| <= i < |v.s| ==> r == Ok(VStr([v.s[if i < 0 then i + |v.s| else i]]))
    ensures v.VStr? && !(-|v.s| <= i < |v.s|) ==> r == Err(IndexError)
    ensures v.VDict? ==> r == Err(KeyError)
    ensures (v.VNone? || v.VBool? || v.VInt?) ==> r == Err(TypeError)
  {
    match v
    case VList(items) =>
      var k := if i < 0 then i + |items| else i;
      if 0 <= k < |items| then Ok(items[k]) else Err(IndexError)
    case VStr(s) =>
      var k := if i < 0 then i + |s| else i;
      if 0 <= k < |s| then Ok(VStr([s[k]])) else Err(IndexError)
    case VDict(_) => Err(KeyError)
    case _ => Err(TypeError)
  }

  /** Python's `d.get(key)`: `None` for a missing key. */
  function Get(d: map<string, Value>, key: string): (r: Value)
    ensures key in d ==> r == d[key]
    ensures key !in d ==> r == VNone
    ensures r != VNone ==> key in d
  {
    GetOr(d, key, VNone)
  }
}

=== FILE: wrappers.dfy ===
/** Failure-compatible wrappers shared by every module of the model. */
module Wrappers {

  /** Python's `None` / a present value. */
  datatype Option<+T> = None | Some(value: T) {
    function GetOr(default: T): T {
      match this
      case Some(v) => v
      case None => default
    }
  }

  /** A value or the exception the source raises instead. */
  datatype Result<+T, +E> = Ok(value: T) | Err(error: E)
}

=== FILE: zone_automation.dfy ===
/**
 * The zone trigger and condition of
 * `homeassistant/components/automation/zone.py`. Which zone a position lies
 * in (`zone.in_zone`) is a function passed in, from the latitude and
 * longitude attributes to the entity id of the zone, if any.
 */
module ZoneAutomation {
  import opened Wrappers
  import opened Values

  const ConfEntityId := "entity_id"
  const ConfZone := "zone"
  const ConfEvent := "event"
  const EventEnter := "enter"
  const EventLeave := "leave"
  const AttrLatitude := "latitude"
  const AttrLongitude := "longitude"

  /** `zone.in_zone(hass, latitude, longitude)`, answering with the zone's entity id. */
  type InZone = (Value, Value) -> Option<string>

  /** The attributes of an entity's state. */
  type Attributes = map<string, Value>

  /** The registered listener: the tracked entity, the zone and the event. */
  datatype ZoneListener = ZoneListener(entityId: Value, zone: Value, event: Value)

  /**
   * `trigger`: no listener (the result False) when `entity_id` or `zone` is
   * missing; otherwise one listener, with the event defaulting to `enter`.
   */
  function Trigger(config: map<string, Value>): (r: Option<ZoneListener>)
    ensures r.None? <==> Get(config, ConfEntityId) == VNone || Get(config, ConfZone) == VNone
    ensures r.Some? ==> r.value.entityId == config[ConfEntityId] && r.value.zone == config[ConfZone]
    ensures r.Some? && ConfEvent !in config ==> r.value.event == VStr(EventEnter)
    ensures r.Some? && ConfEvent in config ==> r.value.event == config[ConfEvent]
  {
    var entityId := Get(config, ConfEntityId);
    var zone := Get(config, ConfZone);
    if entityId == VNone || zone == VNone then None
    else Some(ZoneListener(entityId, zone, GetOr(config, ConfEvent, VStr(EventEnter))))
  }

  /** Both coordinates are present. */
  predicate HasPosition(a: Attributes) {
    Get(a, AttrLatitude) != VNone && Get(a, AttrLongitude) != VNone
  }

  /** The position is in the configured zone. */
  predicate InConfiguredZone(a: Attributes, zone: Value, inZone: InZone) {
    var z := inZone(Get(a, AttrLatitude), Get(a, AttrLongitude));
    z.Some? && VStr(z.value) == zone
  }

  /**
   * The listener on a state change from `from` (None when the entity had no
   * state) to `to`: whether it calls the action. Nothing happens when a
   * coordinate is missing; `enter` fires when the entity was not in the zone
   * and now is, `leave` the other way round.
   */
  function Fires(l: ZoneListener, from: Option<Attributes>, to: Attributes, inZone: InZone): (fires: bool)
    ensures fires ==> HasPosition(to) && (from.Some? ==> HasPosition(from.value))
    ensures fires ==> l.event == VStr(EventEnter) || l.event == VStr(EventLeave)
    ensures from.None? && HasPosition(to) ==>
              (fires <==> l.event == VStr(EventEnter) && InConfiguredZone(to, l.zone, inZone))
  {
    if from.Some? && !HasPosition(from.value) then false
    else if !HasPosition(to) then false
    else
      var fromMatch := from.Some? && InConfiguredZone(from.value, l.zone, inZone);
      var toMatch := InConfiguredZone(to, l.zone, inZone);
      (l.event == VStr(EventEnter) && !fromMatch && toMatch)
      || (l.event == VStr(EventLeave) && fromMatch && !toMatch)
  }

  /** Entering and leaving are mirror images: a move enters the zone exactly when the reverse move leaves it. */
  lemma EnterLeaveMirror(entityId: Value, zone: Value, a: Attributes, b: Attributes, inZone: InZone)
    ensures Fires(ZoneListener(entityId, zone, VStr(EventEnter)), Some(a), b, inZone)
              == Fires(ZoneListener(entityId, zone, VStr(EventLeave)), Some(b), a, inZone)
  {
  }

  /** `enter` fires on a move with both positions known exactly when it goes from outside the zone to inside. */
  lemma EnterOnlyOnArrival(entityId: Value, zone: Value, a: Attributes, b: Attributes, inZone: InZone)
    ensures Fires(ZoneListener(entityId, zone, VStr(EventEnter)), Some(a), b, inZone)
        <==> HasPosition(a) && HasPosition(b) && !InConfiguredZone(a, zone, inZone) && InConfiguredZone(b, zone, inZone)
  {
  }

  /** `leave` fires on a move with both positions known exactly when it goes from inside the zone to outside. */
  lemma LeaveOnlyOnDeparture(entityId: Value, zone: Value, a: Attributes, b: Attributes, inZone: InZone)
    ensures Fires(ZoneListener(entityId, zone, VStr(EventLeave)), Some(a), b, inZone)
        <==> HasPosition(a) && HasPosition(b) && InConfiguredZone(a, zone, inZone) && !InConfiguredZone(b, zone, inZone)
  {
  }

  /** A move that stays inside, or stays outside, the zone fires neither event. */
  lemma NoCrossingNoFire(l: ZoneListener, a: Attributes, b: Attributes, inZone: InZone)
    requires InConfiguredZone(a, l.zone, inZone) == InConfiguredZone(b, l.zone, inZone)
    ensures !Fires(l, Some(a), b, inZone)
  {
  }

  /** The condition `if_action` returns: the entity and the zone. */
  datatype ZoneCondition = ZoneCondition(entityId: Value, zone: Value)

  /** `if_action`: no condition (the result False) when `entity_id` or `zone` is missing. */
  function IfAction(config: map<string, Value>): (r: Option<ZoneCondition>)
    ensures r.None? <==> Get(config, ConfEntityId) == VNone || Get(config, ConfZone) == VNone
    ensures r.Some? ==> r.value == ZoneCondition(config[ConfEntityId], config[ConfZone])
  {
    var entityId := Get(config, ConfEntityId);
    var zone := Get(config, ConfZone);
    if entityId == VNone || zone == VNone then None
    else Some(ZoneCondition(entityId, zone))
  }

  /**
   * `if_in_zone` given the entity's current state (None when it has none,
   * which raises AttributeError): None when a coordinate is missing or the
   * position is in no zone, else whether the zone is the configured one.
   */
  function IfInZone(c: ZoneCondition, state: Option<Attributes>, inZone: InZone): (r: Result<Value, Error>)
    ensures state.None? <==> r == Err(AttributeError)
    ensures state.Some? ==> r.Ok? && (Truthy(r.value) <==> HasPosition(state.value) && InConfiguredZone(state.value, c.zone, inZone))
    ensures state.Some? && !HasPosition(state.value) ==> r == Ok(VNone)
  {
    if state.None? then Err(AttributeError)
    else
      var a := state.value;
      if !HasPosition(a) then Ok(VNone)
      else
        var z := inZone(Get(a, AttrLatitude), Get(a, AttrLongitude));
        if z.None? then Ok(VNone) else Ok(VBool(VStr(z.value) == c.zone))
  }

  /** The condition holds after a move exactly when the `enter` trigger fires for a move from outside the zone. */
  lemma ConditionAgreesWithEnter(entityId: Value, zone: Value, a: Attributes, b: Attributes, inZone: InZone)
    requires HasPosition(a) && !InConfiguredZone(a, zone, inZone)
    ensures Truthy(IfInZone(ZoneCondition(entityId, zone), Some(b), inZone).value)
              == Fires(ZoneListener(entityId, zone, VStr(EventEnter)), Some(a), b, inZone)
  {
  }
}
